=== FILE: README.md ===
# XSP rings, tables and dispatch — a Dafny model

XSP is a Linux kernel module that hands packets between the network stack
and a user process through shared single-producer/single-consumer descriptor
rings. `xsp.c` is the current character device and `emulator.c` is its
earlier prototype. The kernel side of the rings is `xsp_queue.h`; the
prototype uses the AF_XDP-derived copy in `queue.h`; and the user-side
client of the same rings is `user/user_queue.h`. `queue_array.h` builds the
per-core shard sets of rings, and `map.h` holds the device table, the
mmap-offset table and a growable pointer vector.

The model is sequential: each kernel operation is one atomic step.

- **Rings.** `Ring.SharedRing` is the shared header plus the slot array.
  `XspQueue.Queue`, `XskQueue.Queue` and the pair `UserQueue.ProdRing` /
  `UserQueue.ConsRing` are classes whose methods update the cached cursors,
  the shared cursors and the slots in place, as the C code does.
  - Cursors are 32-bit and wrap explicitly (`Bits.Add32`, `Bits.Sub32`).
  - Slots are addressed with the bitwise `cursor & ring_mask`
    (`Bits.And`), which is proved equal to `cursor % nentries`.
  - The FIFO contents are the ghost views `Ring.SharedRing.Published`
    (shared consumer to shared producer) and `Reserved`/`Consumed` (the
    cached cursor on the local side). Every operation is specified both on
    the raw cursors and on these views.
- **Shard sets.** `QueueArray.Create` makes all `size` rings or none: it
  rolls back exactly the rings made so far. The list of shard sets
  appends at the tail and is destroyed in insertion order. Everything
  freed is recorded in a `Kernel.FreeLog`, so "each destroyed exactly
  once" is a statement about that log.
- **Tables.** The device table is a 1024-bucket association list with
  insert at the head. The offset table is an append-only array that
  doubles when full and resolves an offset by `offset >> PAGE_SHIFT`. The
  pointer vector appends and doubles the same way.
- **Dispatch.** Two parts:
  - `xsp.c`: the send path (`handle_send`, SEND_ALL), the receive hook,
    bind with its offset layout, ioctl and mmap.
  - `emulator.c`: the batch drain, PING/PING_ALL/ATTACH_IF, the four
    fixed mmap offset ranges, the receive hook and the packet-recorder
    slot table.

Pointers are 64-bit addresses (`Kernel.DevId`, `Kernel.Skb`, with 0 for NULL).

Everything outside the model becomes a parameter:

- **Packet stack.** The refcount, netpoll-busy, forwardable and
  transmit-busy answers come from the oracle `Kernel.NetStack`.
  `Kernel.Classify` turns them into one verdict per handle: skipped,
  dropped or transmitted.
- **Allocations and user copies.** `kmalloc`, `kzalloc`, `vmalloc_user`,
  `krealloc`, `copy_from_user` and `copy_to_user` are boolean success
  oracles.
- **Kernel return codes.** `dev_get_by_name`,
  `netdev_rx_handler_register` and `remap_vmalloc_range` are given
  values.
- **CPU id.** The current CPU is a parameter below `CORE_NUM` (28).

## Model

| member | source | states |
|---|---|---|
| Bits.Add32 | xsp_queue.h:124-129 | u32 cursor increment wraps: the result is `a + b`, or `a + b - 2^32` when that overflows |
| Bits.Sub32 | xsp_queue.h:144-154 | u32 cursor distance `a - b` wraps to `a - b + 2^32` when `a < b` |
| Bits.Sub64 | emulator.c:90 | u64 decrement of the recorder size wraps below zero |
| Bits.MaskIsMod | xsp_queue.h:110-116 | `x & (2^k - 1) == x % 2^k`, so masking a cursor with `ring_mask` selects slot `cursor % nentries` |
| Kernel.Classify | xsp.c:224-242 | a handle is skipped iff it is an error pointer or its refcount is not 1; it is transmitted iff additionally the device is not netpoll-busy, the skb is forwardable and the transmit is not TX_BUSY; otherwise it is dropped |
| Kernel.FreeLog.constructor | queue_array.h:45-52 | the log of freed pointers starts empty |
| Ring.SharedRing.constructor | xsp_queue.h:17-33 | a fresh ring header has both shared cursors 0, records `nentries` and `flag`, and has `nentries` zeroed slots |
| Ring.SharedRing.Published | queue.h:44-84 | the published FIFO contents run from the shared consumer to the shared producer, and their length is the wrapped distance between them |
| Ring.Window | queue.h:86-104 | the entries at `count` successive wrapped cursors from `from`; length is `count` |
| Ring.WindowSplit | queue.h:86-104 | a window of `a + b` entries is the window of `a` followed by the window of `b` starting at the wrapped cursor `from + a` |
| Ring.WindowPush | xsp_queue.h:175-184 | writing slot `(from + count) & mask` of a ring with free space appends exactly that value to the window and changes none of its earlier entries |
| Ring.WindowReserve | xsp_queue.h:175-184 | a reserve write at the cached producer leaves the published entries unchanged and extends the reserved ones by the new value |
| Ring.ReserveStep | xsp_queue.h:158-184 | a reserve that found a free slot keeps consumer ≤ producer ≤ cached producer in cursor order and the ring not over-full |
| Ring.ConsumeBatch | queue.h:126-129 | advancing the cached consumer by `nb` available entries splits the published FIFO into released, just taken and still pending parts |
| Ring.DrainWindow | xsp.c:216-245 | the published FIFO is the part already consumed, then the `nb` entries taken next, then the rest |
| XspQueue.RingVmallocSize | xsp_queue.h:202-206 | the ring's mapped size is page aligned and covers the header and `8 * nentries` slot bytes with less than one page of slack |
| XspQueue.Queue.constructor | xsp_queue.h:208-245 | a new queue records `nentries`, `ring_mask = nentries - 1` and its mapped size; all cursors are 0 and the FIFO is empty |
| XspQueue.Queue.SlotOf | xsp_queue.h:110-116 | `cursor & ring_mask` is `cursor % nentries` and lies inside the slot array |
| XspQueue.Queue.ConsReadAddrUnchecked | xsp_queue.h:118-122 | always returns true and the slot at the cached consumer; when entries are cached that is the next published entry |
| XspQueue.Queue.ConsReadAddrUncheckedInc | xsp_queue.h:124-129 | as the plain read, then advances the cached consumer by exactly one, even on an empty ring |
| XspQueue.Queue.ConsRelease | xsp_queue.h:131-137 | stores the cached consumer into the shared consumer and drops exactly the entries read from the published FIFO |
| XspQueue.Queue.ConsNbEntries | xsp_queue.h:144-154 | returns `min(max, cached_prod - cached_cons)`; it refreshes the cached producer from the shared one only when fewer than `max` were cached |
| XspQueue.Queue.ProdNbFree | xsp_queue.h:158-169 | returns `min(max, nentries - (cached_prod - cached_cons))`; it refreshes the cached consumer only when fewer than `max` looked free; never more than the truly free slots |
| XspQueue.Queue.ProdIsFull | xsp_queue.h:171-173 | full iff no slot is free after the refresh, i.e. iff the producer is `nentries` ahead of the shared consumer |
| XspQueue.Queue.ProdReserveAddr | xsp_queue.h:175-184 | a full ring gives -ENOSPC and changes neither slot nor cached producer; otherwise slot `cached_prod & mask` gets `addr`, the cached producer advances by one, and `addr` is appended to the reserved entries |
| XspQueue.Queue.ProdSubmit | xsp_queue.h:186-192 | the shared producer becomes the cached producer; the reserved entries are appended to the published FIFO |
| XspQueue.Queue.ProdNum | xsp_queue.h:194-196 | the wrapped distance from shared consumer to shared producer, which is the published length and at most `nentries` |
| XspQueue.Create | xsp_queue.h:208-245 | NULL iff `nentries` is not a power of two or an allocation fails; otherwise a fresh valid empty queue with `ring_mask = nentries - 1` (the `kfree` of the queue on a failed ring allocation is not logged) |
| XspQueue.Destroy | xsp_queue.h:247-253 | NULL frees nothing; otherwise the ring memory and then the queue are freed, once each |
| XspQueue.RoundTrip | xsp_queue_test.c:22-65 | two reserved and submitted values count as 2 entries and read back in insertion order; after release there are 0 entries and 16 free |
| XspQueue.ProduceTwo | xsp_queue_test.c:22-36 | two reserve+submit steps on an empty 16-slot ring write slots 0 and 1 and publish producer 2 |
| XspQueue.ConsumeTwo | xsp_queue_test.c:38-64 | two reads return slots 0 and 1 in order; after release nothing is left and 16 slots are free |
| XskQueue.RingVmallocSize | queue.h:281-286 | page-aligned mapped size covering header and slots with less than one page of slack |
| XskQueue.Queue.constructor | queue.h:288-327 | records `nentries`, mask and `flag` in the header; all cursors 0 |
| XskQueue.Queue.SlotOf | queue.h:108-114 | `cursor & ring_mask` is `cursor % nentries` and lies inside the slot array |
| XskQueue.Queue.ConsReadAddrUnchecked | queue.h:116-124 | false with the out-parameter untouched iff `cached_cons == cached_prod`; otherwise the slot at the cached consumer, with no cursor moved |
| XskQueue.Queue.ConsReleaseN | queue.h:126-129 | advances only the cached consumer by `cnt`; `cnt == 0` changes nothing; the `cnt` entries become consumed |
| XskQueue.Queue.ConsRelease | queue.h:179-182 | advances only the cached consumer by one, consuming the next published entry |
| XskQueue.Queue.ConsGetEntries | queue.h:144-148 | the one consumer operation that writes the shared consumer: it publishes the cached consumer and refreshes the cached producer |
| XskQueue.Queue.ConsNbEntries | queue.h:150-161 | at most `max` and at most `cached_prod - cached_cons`, refreshing the cached producer only when fewer than `max` were cached |
| XskQueue.Queue.ConsHasEntries | queue.h:163-166 | true iff at least `cnt` entries are available after the refresh |
| XskQueue.Queue.ConsPeekAddrUnchecked | queue.h:168-173 | with cached entries, reads the next one and moves nothing; otherwise it publishes the consumer, refreshes the producer, then reads if anything arrived |
| XskQueue.Queue.ConsPresentEntries | queue.h:184-188 | `producer - consumer` with wrap, i.e. the published length, at most `nentries` |
| XskQueue.Queue.ProdNbFree | queue.h:192-204 | `min(max, nentries - (cached_prod - cached_cons))`, refreshing the cached consumer only when short |
| XskQueue.Queue.ProdIsFull | queue.h:206-209 | full iff no slot is free after the refresh |
| XskQueue.Queue.ProdCancel | queue.h:211-214 | steps the cached producer back by one |
| XskQueue.Queue.ProdReserve | queue.h:216-224 | -ENOSPC iff no slot is free, with the cached producer unchanged; otherwise the cached producer advances by one |
| XskQueue.ReserveThenCancel | queue.h:211-224 | a successful reserve followed by cancel restores the cached producer; a failed reserve leaves it as it was |
| XskQueue.Queue.ProdReserveAddr | queue.h:226-236 | -ENOSPC on a full ring with no slot written; otherwise `addr` written at `cached_prod & mask` and appended to the reserved entries |
| XskQueue.Queue.ProdSubmit | queue.h:238-246 | publishes the cached producer: reserved entries move to the published FIFO |
| XskQueue.Queue.ProdSubmitAddr | queue.h:248-256 | writes `addr` at `producer & mask` and publishes `producer + 1`, appending `addr` when the ring had room |
| XskQueue.Queue.ProdSubmitN | queue.h:258-261 | adds `nb` to the shared producer; `nb == 0` changes nothing; the FIFO contents as a whole are preserved |
| XskQueue.Queue.ProdIsEmpty | queue.h:263-267 | empty iff the shared producer is zero entries ahead of the shared consumer |
| XskQueue.EmptyIffNoneBuffered | queue.h:263-267 | the producer side is empty iff the shared consumer equals the shared producer, i.e. iff nothing is published |
| XskQueue.Create | queue.h:288-327 | NULL iff `nentries` is not a power of two or an allocation fails; otherwise a fresh valid queue with mask and `flag` set |
| XskQueue.Destroy | queue.h:329-336 | NULL frees nothing; otherwise the ring and the queue are freed once each |
| UserQueue.FreeEntriesExact | queue.h:192-204 | when the cursors are at most `size` apart, the intended free count is `size` minus the fill |
| UserQueue.ProdRing.constructor | user/user_queue.h:44-53 | the cached cursors copy the shared ones, `size = nentries`, `mask = nentries - 1` |
| UserQueue.ProdRing.FillAddr | user/user_queue.h:55-60 | `idx & mask` is `idx % size` and lies in `[0, size)` |
| UserQueue.ProdRing.NbFreeAsWritten | user/user_queue.h:62-73 | the code as written: `min(nb, size - (cached_cons - cached_prod))`, refreshing the cached consumer only when short |
| UserQueue.NbFreeOverstates | user/user_queue.h:62-73 | for any non-empty ring the as-written count is `size + fill`, which exceeds the true free count |
| UserQueue.FullRingReportedFree | user/user_queue.h:62-73 | a full 4-slot ring (producer 4, consumer 0) is reported with 8 free slots where 0 are free |
| UserQueue.ProdRing.NbFree | user/user_queue.h:62-73 | corrected: `min(nb, size - (cached_prod - cached_cons))`, never more than `nb` nor the truly free slots |
| UserQueue.FullRingOverfilled | user/user_queue.h:62-84 | on a full ring in producer order the as-written count still reports a free slot, and a producer snapshot advanced by one breaks the cursor order |
| UserQueue.ProdRing.ReserveAsWritten | user/user_queue.h:75-84 | the code as written, on the reversed count: fewer than `nb` free returns 0 with `*idx` and the cached producer untouched; otherwise `*idx` is the old cached producer, which advances by `nb` |
| UserQueue.ProdRing.ReserveOnFullRing | user/user_queue.h:75-84 | as written, `reserve(1)` on a full ring grants one slot, advances the cached producer past the consumer's lap and leaves the cursor order broken |
| UserQueue.ProdRing.Reserve | user/user_queue.h:75-84 | corrected (on NbFree): all or nothing: fewer than `nb` free returns 0 with `*idx` and the cached producer untouched; otherwise `*idx` is the old cached producer, which advances by `nb`; the cursor order is kept |
| UserQueue.ProdRing.Submit | user/user_queue.h:86-94 | adds `nb` to the shared producer (`submit(0)` is a no-op) and publishes the first `nb` reserved entries |
| UserQueue.ConsRing.constructor | user/user_queue.h:106-115 | the cached cursors copy the shared ones, `size = nentries`, `mask = nentries - 1` |
| UserQueue.ConsRing.CompAddr | user/user_queue.h:117-124 | `idx & mask` is `idx % size` and lies in `[0, size)` |
| UserQueue.ConsRing.NbAvail | user/user_queue.h:126-136 | `min(nb, cached_prod - cached_cons)`, refreshing the cached producer only when nothing was cached |
| UserQueue.ConsRing.Peek | user/user_queue.h:138-153 | `n == min(nb, cached_prod - old cached_cons)` after the refresh NbAvail makes (the cached producer is reread only when it equalled the cached consumer); `n == 0` leaves `*idx` and the cached consumer unchanged; otherwise `*idx` is the old cached consumer, which advances by `n`, and the `n` slots from `*idx` are the next published entries |
| UserQueue.ConsRing.Release | user/user_queue.h:155-163 | adds `nb` to the shared consumer (`release(0)` is a no-op) and drops the first `nb` published entries |
| UserQueue.PeekedWindow | user/user_queue.h:138-153 | the slots a peek hands out are the matching slice of the published FIFO |
| QueueArray.QueueArray.constructor | queue_array.h:9-12 | a shard set of `size` distinct valid rings of QUEUE_ENTRY_NUM entries |
| QueueArray.QueueArray.At | queue_array.h:6-11 | ring `i` of the set is valid and has QUEUE_ENTRY_NUM entries |
| QueueArray.EntryNumIsPowerOfTwo | queue_array.h:4 | QUEUE_ENTRY_NUM (4096) is a power of two, so creating each ring only fails on allocation |
| QueueArray.FirstFailure | queue_array.h:26-32 | the index of the first ring whose allocation fails, or `size`: every earlier one succeeds |
| QueueArray.FirstFailureAt | queue_array.h:26-32 | a failure at `k` after successes up to `k` is the first failure |
| QueueArray.Create | queue_array.h:17-43 | non-NULL iff the block and every ring allocate; on success `size` is set and every slot holds a fresh ring of 4096 entries; on a failure at ring `i` exactly rings `0..i-1` and the block are freed and NULL is returned |
| QueueArray.MakeRings | queue_array.h:26-32 | fills slots `0..cur-1` with fresh distinct rings and stops at the first failed allocation |
| QueueArray.Unwind | queue_array.h:36-42 | frees the made rings in index order, then the block |
| QueueArray.Destroy | queue_array.h:45-52 | frees each of the `size` rings once, in index order, then the block |
| QueueArray.ListEntry.constructor | queue_array.h:57-60 | a list node holds the given shard set |
| QueueArray.QueueArrayList.constructor | queue_array.h:72-75 | a new list is empty |
| QueueArray.QueueArrayList.Insert | queue_array.h:77-88 | appends at the tail; if the node allocation fails the list is unchanged |
| QueueArray.QueueArrayList.DestroyAll | queue_array.h:90-107 | empties the list and destroys each registered shard set and its node once, in insertion order |
| QueueArray.DestroyEach | queue_array.h:103-106 | the frees of a node sequence are the concatenation of each node's frees |
| QueueArray.ConcatStep | queue_array.h:103-106 | appending one node's frees extends the concatenation by exactly that piece |
| QueueArray.PiecesSpec | queue_array.h:103-106 | node `k`'s frees are its shard set's rings, its block and the node itself |
| Tables.HashFunc | map.h:48-50 | every device hashes to bucket 0 (`key % 1 << 10` parses as `(key % 1) << 10`), which is inside the 1024 buckets |
| Tables.DevQueueEntry.constructor | map.h:24-30 | an entry records the device and its tx and rx shard sets in argument order |
| Tables.FindIndex | map.h:82-89 | the position of the first entry for `dev`, or the bucket length; no earlier entry matches |
| Tables.Find | map.h:76-90 | NULL iff no entry in the bucket has that device; otherwise the first (newest) such entry |
| Tables.RemoveFirst | map.h:92-106 | without a match the bucket is unchanged; otherwise exactly the first match is unlinked |
| Tables.Flatten | map.h:108-120 | every entry of every bucket appears in the freed sequence |
| Tables.DevQueueTable.constructor | map.h:52-58 | every bucket is empty |
| Tables.DevQueueTable.Insert | map.h:60-74 | a fresh entry with `tx`, `rx` goes to the bucket head; lookup of `dev` returns it; lookups of other devices are unchanged |
| Tables.DevQueueTable.Lookup | map.h:76-90 | returns the first entry of the device's bucket with that device, NULL if none |
| Tables.DevQueueTable.Remove | map.h:92-106 | unlinks and frees only the first matching entry; other buckets unchanged |
| Tables.DevQueueTable.Clear | map.h:108-120 | every bucket empty; every entry freed once, bucket by bucket |
| Tables.FindPastHead | map.h:82-89 | an entry for another device at the head does not change a lookup |
| Tables.RemoveAfterInsert | map.h:60-106 | removing right after inserting gives back the old bucket |
| Tables.RemoveKeepsOthers | map.h:92-106 | removing `dev` does not change the lookup of any other device |
| Tables.UnlinkShiftsIndex | map.h:92-106 | unlinking position `k` shifts later matches down by one and keeps the matched entry |
| Tables.RemoveUnique | map.h:92-106 | when a device has one entry, it is not found after removal |
| Tables.FindIndexAt | map.h:82-89 | a match at `k` with no earlier match is the first match |
| Tables.OffsetToIndex | map.h:148-150 | `offset >> PAGE_SHIFT` as u64: for non-negative offsets the page holding the offset; negative offsets land at indices ≥ 2^64 - 2^51 |
| Tables.OffsetIndexRoundTrip | map.h:143-150 | any byte inside page `k` maps back to index `k` |
| Tables.OffsetQueueTable.Entries | map.h:127-137 | the table's stored entries, `queue_num` of them |
| Tables.OffsetQueueTable.constructor | map.h:127-137 | a zeroed table: no entries, no storage |
| Tables.OffsetQueueTable.Init | map.h:152-164 | returns 0 iff the allocation succeeds, leaving an empty table with capacity 4096 and next index 0; otherwise -1 |
| Tables.OffsetQueueTable.FetchNext | map.h:143-146 | returns `old next_index << PAGE_SHIFT` and advances `next_index` by `n`, so successive ranges are disjoint and gapless |
| Tables.OffsetQueueTable.Insert | map.h:166-196 | ignores `offset` and appends the entry at index `queue_num`; when full it first doubles capacity, keeping old entries at their indices and freeing the old array; -1 with nothing changed iff full and the regrow fails |
| Tables.OffsetQueueTable.Lookup | map.h:198-207 | NULL iff `offset >> PAGE_SHIFT >= queue_num`, else the entry at that index |
| Tables.OffsetQueueTable.Clear | map.h:209-216 | frees the storage once and leaves an empty table |
| Tables.LookupInserted | map.h:166-207 | every byte offset in page `k < queue_num` finds the `k`-th inserted entry |
| Tables.NegativeOffsetMisses | map.h:198-207 | a negative offset finds nothing in any table of realistic size |
| Tables.PtrVector.Contents | map.h:218-226 | the first `size` stored values |
| Tables.PtrVector.constructor | map.h:218-226 | a zeroed vector without storage |
| Tables.PtrVector.Init | map.h:230-239 | 0 iff the allocation succeeds, giving an empty vector of capacity 1024; else -ENOMEM |
| Tables.PtrVector.Insert | map.h:241-256 | appends at `size`, doubling capacity first when full, into a fresh buffer with the old one logged as freed; -ENOMEM with nothing changed and nothing freed iff full and the regrow fails |
| Tables.PtrVector.Clear | map.h:258-263 | frees the storage once; size and capacity 0 |
| Xsp.HandleSend | xsp.c:211-246 | NULL device or ring: -EINVAL, nothing touched. Otherwise exactly `min(4096, available)` entries are taken in FIFO order, each decided by Classify, the cached consumer advances by that count and is published once; the producer is untouched |
| Xsp.SendBatch | xsp.c:218-243 | the loop takes the next `nb` slots in cursor order and classifies each independently of the others |
| Xsp.HandleFrame | xsp.c:20-72 | unregistered device or no rx data: PASS, nothing enqueued. A failed share check is CONSUMED. A short header is PASS. Otherwise the frame goes to the current CPU's ring, which then publishes one more entry (cached and shared producer advance by one), or is dropped and CONSUMED iff that ring is full, with nothing written. The ring's shared consumer, user space's cursor, never moves |
| Xsp.Deliver | xsp.c:64-69 | reserve then submit: full iff no slot free, with nothing changed; otherwise the skb is published after the already reserved entries |
| Xsp.Mmap | xsp.c:101-128 | -EINVAL for an unknown offset, an entry with no ring, or a size above the ring's mapped size; otherwise the remap result |
| Xsp.BoundRingMapped | xsp.c:168-201 | after bind, page `base + i` maps tx ring `i` (rx ring `i - 28` above 28), checked against that ring's size |
| Xsp.RingEntries | xsp.c:173-183 | one offset entry per ring of the set, in index order, tagged with the device |
| Xsp.InsertRings | xsp.c:172-183 | advances the offset by one page per ring; when every insert succeeds the table gains exactly the set's entries in order |
| Xsp.InsertRing | xsp.c:174-176 | one insert appends one entry, or (only when it may not grow) none |
| Xsp.BindDev | xsp.c:130-209 | -EFAULT, -ENODEV, -EBUSY (before any allocation, nothing changed), -ENOMEM; otherwise (the outcome Xsp.Bound) the device maps to the new tx/rx sets, the list gains the sets whose nodes allocate, 56 pages are reserved, the offset table gains the tx then rx rings when no growth fails, and the reported step, counts, starts (rx start is tx start plus 28 pages) and ring sizes match that layout |
| Xsp.CreatePair | xsp.c:151-157 | each set is created iff all its allocations succeed; two successes give distinct sets of 28 rings |
| Xsp.CreateShardSet | xsp.c:152-153 | a set exists iff its allocations succeed, with 28 valid rings |
| Xsp.Register | xsp.c:159-209 | list gains the sets whose nodes allocate; the device entry holds `tx`, `rx`; `next_index` advances by 56; reported `step`, counts, starts and ring sizes match the layout; the return is the register or copy-out result |
| Xsp.Link | xsp.c:159-165 | appends the sets to the list and registers the device with them |
| Xsp.AssignOffsets | xsp.c:167-183 | tx ring `i` at `tx_start + i` pages, rx after 28 pages; `tx_start = old next_index << PAGE_SHIFT` |
| Xsp.ToLoff | xsp.c:255-256 | the unsigned ioctl argument reinterpreted as a signed 64-bit offset |
| Xsp.BucketOrderHas | xsp.c:264-271 | every tx ring of every entry of a bucket is in that bucket's send order |
| Xsp.SendOrderHas | xsp.c:263-272 | SEND_ALL visits every tx ring of every registered device |
| Xsp.ReachableSendable | xsp.c:262-272 | every ring reachable from the device table is a valid ring SEND_ALL may drain |
| Xsp.SendAll | xsp.c:262-272 | drains the tx rings in bucket order, entry order, then ring index order; no reachable ring's producer moves |
| Xsp.SendBucket | xsp.c:265-270 | drains a bucket's entries in list order; no producer moves |
| Xsp.SendEntry | xsp.c:266-269 | drains one device's tx rings in index order; no producer moves |
| Xsp.SendShardSet | xsp.c:266-269 | drains each ring of a set once, in index order; no producer moves |
| Xsp.IoctlSendAll | xsp.c:262-272 | every tx ring is drained, no ring's producer moves, and 0 is returned |
| Xsp.SendRing | xsp.c:267-268 | a SEND_ALL drain never moves the ring's producer |
| Xsp.Ioctl | xsp.c:248-278 | BIND_DEV returns bind's -EFAULT, -ENODEV, -EBUSY and -ENOMEM, touches no existing ring, leaves other devices' lookups unchanged, changes nothing when refused, and on success passes on BindDev's whole outcome (Bound: the device entry, list growth, the 56 pages, the offset entries, the return value and the reported layout); SEND returns -EINVAL for an unknown offset or an entry with no device or ring, else 0, leaves the ring at that offset as one `handle_send` does (Sent: producer untouched, `min(4096, available)` entries taken from the FIFO front, consumer published) and every other ring and table unchanged; SEND_ALL returns 0, changes neither the list, the tables nor the free log, and moves no ring's producer; any other command is -EINVAL with nothing, rings included, changed |
| Xsp.IoctlSend | xsp.c:255-261 | an unknown offset is -EINVAL, otherwise the drain's result; only the ring registered at the offset may change, and it changes as one `handle_send` leaves it |
| Emulator.Occupied | emulator.c:52-54 | the count of non-zero recorder slots is at most the capacity |
| Emulator.FreeFrom | emulator.c:59-71 | the first zero slot at cyclic distance ≥ `d` from the start, or none if every slot up to one full turn is occupied |
| Emulator.ScanStep | emulator.c:61-71 | one scan step past an occupied slot moves to the next cyclic slot; it is back at the start exactly after a full turn |
| Emulator.CycleStep | emulator.c:70-71 | `(i + 1) % N` walks the cycle and returns to the start only after `N` steps |
| Emulator.FirstIndex | emulator.c:86-93 | the lowest slot holding `p` |
| Emulator.Recorder.constructor | emulator.c:52-54 | all slots 0, index and size 0 |
| Emulator.Recorder.RecordPacket | emulator.c:56-81 | false with no change iff the recorder is full; otherwise the first free slot scanning cyclically from the index gets the packet, the size grows by one, and the index becomes size + 1 or size |
| Emulator.Recorder.FindFree | emulator.c:59-71 | the scan loop finds a free slot iff one exists within one turn, and the slot it finds is that first one |
| Emulator.Recorder.SearchAndRemove | emulator.c:83-96 | true iff some slot holds the packet: the lowest such slot is zeroed and the size decremented; otherwise nothing changes |
| Emulator.NoneOccupied | emulator.c:52 | an all-zero recorder has nothing occupied |
| Emulator.OccupiedUpdate | emulator.c:62-64 | writing one slot changes the occupied count by the slot's old and new occupancy |
| Emulator.FindZero | emulator.c:59-62 | a recorder with fewer occupied slots than its capacity has a zero slot |
| Emulator.FreeSlotExists | emulator.c:59-71 | then the cyclic scan from any index finds a free slot |
| Emulator.RecordThenRemove | emulator.c:56-96 | recording a non-zero packet then removing it restores the slots' multiset and the occupied count |
| Emulator.MultisetUpdate | emulator.c:87-88 | a slot write replaces one element of the multiset of slots |
| Emulator.ReadDescBatch | emulator.c:98-146 | examines `n = min(max, cached_prod - cached_cons)` entries, skips and routes each by Classify on veth1 (`tar == 0`) or veth2, and advances only the cached consumer by `n`, consuming exactly those entries |
| Emulator.WalkBatch | emulator.c:100-140 | the loop visits the next `n` slots in cursor order and classifies each |
| Emulator.ReleaseBatch | emulator.c:142-143 | release by the number examined advances the cached consumer and consumes exactly those slots |
| Emulator.PingTarget | emulator.c:173 | `(arg >> 32) & MASK_32` is the high 32 bits |
| Emulator.PingIndex | emulator.c:174 | `arg & MASK_32` is the low 32 bits |
| Emulator.PingDecodeEncode | emulator.c:173-174 | decoding the argument packed from target and index gives them back |
| Emulator.PingEncodeDecode | emulator.c:173-174 | every 64-bit argument is its target and index packed |
| Emulator.PingRing | emulator.c:175-181 | target 0 selects `tx_ring1[index]`, any other target `tx_ring2[index]` |
| Emulator.DrainRing | emulator.c:182-183 | counts with limit 4096 and then drains that many entries of the ring |
| Emulator.Ping | emulator.c:172-184 | drains `min(4096, available)` entries of the selected ring on the selected device, where `available` is counted from the cached producer, kept or refreshed from the shared one; they are the next consumed entries; the shared cursors do not move |
| Emulator.PingAll | emulator.c:185-195 | drains every tx ring of both devices; no shared cursor moves |
| Emulator.ToInt32 | emulator.c:215 | truncation to `int`: the value modulo 2^32 in the signed range, unchanged below 2^31 |
| Emulator.DecodeOffset | emulator.c:214-234 | the four disjoint ranges from 0, 0x80000000, 0x100000000, 0x180000000 select rx1, tx1, rx2, tx2, with index `(offset - base) >> PAGE_SHIFT` truncated to `int` |
| Emulator.DecodeRingPgoff | emulator.c:214-234 | page `base/PAGE_SIZE + i` of any range decodes to that range and index `i` |
| Emulator.PgoffDecodeEncode | emulator.c:214-234 | every page offset below the top range's end decodes to a range and index that encode back to it |
| Emulator.Mmap | emulator.c:208-248 | -EINVAL for a missing ring or a size above its mapped size; otherwise the remap result |
| Emulator.MmapEncoded | emulator.c:208-248 | mapping ring `i` of a range succeeds iff that ring exists and the size fits |
| Emulator.RxTarget | emulator.c:265-276 | the current CPU's rx ring of the frame's device, valid when present |
| Emulator.VethHandleFrame | emulator.c:250-282 | PASS iff the frame is from neither veth; otherwise CONSUMED, and the skb is dropped iff the CPU's rx ring is full, with nothing written, else published on it (cached and shared producer advance by one); the ring's shared consumer never moves |
| Emulator.Enqueue | emulator.c:266-276 | reserve then submit on the prototype ring: full iff no slot is free; otherwise the skb is published after the reserved entries |
| Emulator.Ioctl | emulator.c:153-202 | ATTACH_IF copies dev1 then dev2 info and returns 0 iff both copies succeed, else -EFAULT, touching no ring; PING and PING_ALL return 0; PING advances the selected ring's cached consumer past the next `min(4096, available)` entries, moves no shared cursor and leaves every other tx ring unchanged; PING_ALL moves no shared cursor of any tx ring; any other command is -EINVAL with no ring touched |

## Left out

- Concurrency: memory barriers, `READ_ONCE`, RCU, the spinlocks, the recorder mutex and the atomic offset counter are not modelled. Each operation is one sequential step.
- Logging (`pr_*`, `printk`) is left out.
- The MAC extraction into the ring entry (xsp.c:53-62) is left out. Its byte packing depends on the platform, and its four-argument reserve call does not match the two-argument reserve at xsp_queue.h:175, so the two-argument reserve is modelled.
- Module init and exit, the character-device and class plumbing, `xspdev_open`/`xspdev_release` and the prototype's init/exit (including how it sums the ring-info fields) are left out. They are kernel registration code with no state the model keeps.
- XspQueue.Create: the `kfree` of the queue when its ring allocation fails (xsp_queue.h:237-241) is not entered in the free log; the queue never escapes, so only the log is poorer.
- Tables.DevQueueTable.Insert: assumes its entry allocation succeeds. map.h:65-67 uses the `kmalloc` result without a NULL check, so a failure there is a NULL dereference the model does not follow.
- UserQueue.ProdRing.Reserve, UserQueue.ProdRing.ReserveAsWritten, UserQueue.ConsRing.Peek: take `nb` as a 32-bit value. The source takes `size_t` and narrows it to `u32` when passing it on; counts of 2^32 or more are not modelled.
- Allocation is modelled as success or failure only. The dereference of the new ring before its NULL check (queue.h:318, xsp_queue.h:237) is not reproduced. `kzalloc` zero-filling, cache-line padding and `struct_size` are not modelled; a ring's byte size is modelled only as page-aligned and covering its slots.
- The offset table's failed insert returning with its lock held (map.h:177-181) and its init sizing entries as pointers (map.h:155-156) are left out. Neither matters sequentially.
- `krealloc` (in Tables.PtrVector.Insert) is modelled as a fresh copy plus a logged free of the old array. In-place growth is not modelled.
- Page offsets whose byte offset would overflow a signed 64-bit `loff_t` are excluded by preconditions (`Kernel.MAX_PGOFF`).
- Xsp.InsertRings: states the exact new table only when every insert succeeds. After a failed insert it states only that the old entries are a prefix, because the offsets handed out then no longer match table indices (see Xsp.InsertRing).
- Xsp.BindDev: the shard set leaked when only one of the pair is created (-ENOMEM) and the device reference not released on -EBUSY/-ENOMEM are not modelled.
- Xsp.SendAll, Xsp.SendBucket, Xsp.SendEntry, Xsp.SendShardSet: state the order in which rings are drained, as a trace of the rings visited. They do not state each ring's cursor effect, which Xsp.HandleSend states per ring; they and Xsp.SendRing state that no producer moves. Tracking every ring's effect across the walk would need the rings to be known pairwise distinct, which the tables do not guarantee.
- Xsp.Ioctl, Xsp.IoctlSend: for SEND, the entries taken and how Classify decided each are stated by Xsp.HandleSend; the ioctl does not return them, so its contract states only the ring's new state (Xsp.Sent).
- Emulator.Ioctl: for PING, how Classify decided each entry is stated by Emulator.Ping and not returned; for PING_ALL, as Emulator.PingAll, only that no shared cursor moves.
- Xsp.SendAll, Xsp.Ioctl: the set of rings they may modify is a ghost parameter `qs` standing for every ring reachable from the tables.
- Emulator.Recorder.RecordPacket: requires the index to be below the capacity. emulator.c:65-67 can leave it at the capacity or beyond, and the next scan then reads outside the array; the model does not follow that read.
- Emulator.Ping: requires the ring index below CORE_NUM and the ring present. emulator.c:174-181 checks neither.
- Emulator.PingAll: requires every tx ring present, as emulator.c:187-194 reads them unchecked. It states only that no shared cursor moves; each ring's drain is stated by Emulator.DrainRing.
- Emulator.Mmap: requires the decoded index in `[0, CORE_NUM)`. emulator.c:215-233 does not check it.
- Emulator.VethHandleFrame: requires the current CPU's rx ring of a veth device to be present. emulator.c:266-275 does not check it.
- `copy_to_user`/`copy_from_user` are boolean oracles; the bytes copied are not modelled beyond which ring-info or bind-info values are reported.
- The map_test.c and queue_array_test.c expectations are not used as a specification. map_test.c:18 passes tx and rx swapped relative to map.h:60-63; the lookup at map_test.c:56 returns NULL under map.h:198-207; queue_array_test.c:34 destroys a shard set twice.
- Tables.HashFunc: every device lands in bucket 0 because of the unparenthesised macro (map.h:21). This is modelled as written; it costs speed, not correctness.
- The user harnesses (user/test.c, user/test_share_nothing.c, user/per_core_test.c, user/per_thread_test.c, user/simple_test.c), user/user_dev.h, skb_print.h and utils/skb_recorder.h are not part of this model.

## Findings

| source | as written | input that shows it | evidently intended | confidence | as-written member | corrected member |
|---|---|---|---|---|---|---|
| user/user_queue.h:62-73 | the free count is `size - (cached_cons - cached_prod)`, operands reversed | size 4, cached_prod 4, cached_cons 0 (ring full): reports 8 free, so the producer may overwrite unconsumed slots | `size - (cached_prod - cached_cons)`, as queue.h:194 computes it | high (not executed) | UserQueue.ProdRing.NbFreeAsWritten, UserQueue.ProdRing.ReserveAsWritten, UserQueue.NbFreeOverstates, UserQueue.FullRingReportedFree, UserQueue.FullRingOverfilled, UserQueue.ProdRing.ReserveOnFullRing | UserQueue.ProdRing.NbFree, UserQueue.ProdRing.Reserve |

=== FILE: bits.dfy ===
/**
 * Fixed-width unsigned arithmetic and the bit operations that the ring
 * buffers rely on.  C's `u32` and `u64` are integers taken modulo 2^32 and
 * 2^64; `&` is modelled bit by bit, and `is_power_of_2` exactly as the
 * Linux helper computes it.
 */
module Bits {

  const U32_MOD: int := 0x1_0000_0000
  const U64_MOD: int := 0x1_0000_0000_0000_0000

  type u32 = x: int | 0 <= x < 0x1_0000_0000
  type u64 = x: int | 0 <= x < 0x1_0000_0000_0000_0000

  /** C's `a + b` on `u32`, wrapping modulo 2^32. */
  function Add32(a: u32, b: int): (r: u32)
    ensures 0 <= a + b < U32_MOD ==> r == a + b
    ensures U32_MOD <= a + b < 2 * U32_MOD ==> r == a + b - U32_MOD
  {
    (a + b) % U32_MOD
  }

  /** C's `a - b` on `u32`, wrapping modulo 2^32. */
  function Sub32(a: u32, b: u32): (r: u32)
    ensures a >= b ==> r == a - b
    ensures a < b ==> r == a - b + U32_MOD
  {
    (a - b) % U32_MOD
  }

  /** C's `a - b` on `u64`, wrapping modulo 2^64. */
  function Sub64(a: u64, b: u64): (r: u64)
    ensures a >= b ==> r == a - b
    ensures a < b ==> r == a - b + U64_MOD
  {
    (a - b) % U64_MOD
  }

  /** The `x >= max ? max : x` idiom of the ring code. */
  function Min(a: int, b: int): int
  {
    if a <= b then a else b
  }

  /** Bitwise AND of two naturals, one bit at a time from the lowest. */
  function And(a: nat, b: nat): (r: nat)
    ensures r <= a && r <= b
    decreases a
  {
    if a == 0 || b == 0 then 0
    else 2 * And(a / 2, b / 2) + (if a % 2 == 1 && b % 2 == 1 then 1 else 0)
  }

  /** Linux `is_power_of_2(n)`: `n != 0 && (n & (n - 1)) == 0`. */
  predicate IsPowerOfTwo(n: nat)
  {
    n != 0 && And(n, n - 1) == 0
  }

  function Pow2(k: nat): (r: nat)
    ensures r >= 1
  {
    if k == 0 then 1 else 2 * Pow2(k - 1)
  }

  lemma {:induction false} AndSelf(m: nat)
    ensures And(m, m) == m
    decreases m
  {
    if m != 0 {
      AndSelf(m / 2);
    }
  }

  /** One step of `n & (n - 1)` on an even n = 2m: the low bits are both 0. */
  lemma AndEvenStep(m: nat)
    requires m >= 1
    ensures And(2 * m, 2 * m - 1) == 2 * And(m, m - 1)
  {
    assert (2 * m) / 2 == m && (2 * m) % 2 == 0;
    assert (2 * m - 1) / 2 == m - 1 && (2 * m - 1) % 2 == 1;
  }

  /** One step of `n & (n - 1)` on an odd n = 2m + 1: the low bit goes, leaving m & m. */
  lemma AndOddStep(m: nat)
    requires m >= 1
    ensures And(2 * m + 1, 2 * m) == 2 * And(m, m)
  {
    assert (2 * m + 1) / 2 == m && (2 * m + 1) % 2 == 1;
    assert (2 * m) / 2 == m && (2 * m) % 2 == 0;
  }

  /** Every number that passes `is_power_of_2` is 2^k for some k. */
  lemma {:induction false} PowerOfTwoLog(n: nat) returns (k: nat)
    requires IsPowerOfTwo(n)
    ensures Pow2(k) == n
    decreases n
  {
    if n == 1 {
      k := 0;
    } else if n % 2 == 0 {
      var m := n / 2;
      assert n == 2 * m && m >= 1;
      AndEvenStep(m);
      assert And(m, m - 1) == 0;
      var j := PowerOfTwoLog(m);
      k := j + 1;
    } else {
      var m := n / 2;
      assert n == 2 * m + 1 && m >= 1;
      AndOddStep(m);
      AndSelf(m);
      assert false;
    }
  }

  /** Conversely, every 2^k passes `is_power_of_2`. */
  lemma {:induction false} Pow2IsPowerOfTwo(k: nat)
    ensures IsPowerOfTwo(Pow2(k))
  {
    if k > 0 {
      Pow2IsPowerOfTwo(k - 1);
      AndEvenStep(Pow2(k - 1));
    }
  }

  /** Euclidean division is unique: a witness quotient and remainder are the quotient and remainder. */
  lemma ModUnique(x: int, p: int, q: int, r: int)
    requires p > 0 && 0 <= r < p && x == p * q + r
    ensures x % p == r && x / p == q
  {
    var d := x / p - q;
    assert p * d == r - x % p;
    if d >= 1 {
      MulAtLeast(p, d);
    } else if d <= -1 {
      MulAtLeast(p, -d);
    }
  }

  lemma MulAtLeast(p: int, d: int)
    requires p > 0 && d >= 1
    ensures p * d >= p
  {
  }

  lemma ModDoubleSplit(x: nat, p: nat, m: nat)
    requires p > 0 && m == 2 * p
    ensures x % m == 2 * ((x / 2) % p) + x % 2
  {
    var h := x / 2;
    var q := h / p;
    var r := h % p;
    assert h == p * q + r;
    assert x == m * q + (2 * r + x % 2);
    ModUnique(x, m, q, 2 * r + x % 2);
  }

  /** One step of the bitwise AND against an all-ones mask `m - 1 = 2p - 1`: the low bit of x survives. */
  lemma AndLowBit(x: nat, p: nat, m: nat)
    requires x != 0 && p >= 1 && m == 2 * p
    ensures And(x, m - 1) == 2 * And(x / 2, p - 1) + x % 2
  {
    assert (m - 1) / 2 == p - 1 && (m - 1) % 2 == 1;
  }

  /** One bit more of mask: if the low k - 1 bits of x / 2 survive the mask, the low k bits of x do. */
  lemma MaskStep(x: nat, k: nat)
    requires x != 0 && k >= 1
    requires And(x / 2, Pow2(k - 1) - 1) == (x / 2) % Pow2(k - 1)
    ensures And(x, Pow2(k) - 1) == x % Pow2(k)
  {
    var p := Pow2(k - 1);
    var m := Pow2(k);
    AndLowBit(x, p, m);
    ModDoubleSplit(x, p, m);
  }

  /** Masking with 2^k - 1 keeps the low k bits: `x & (2^k - 1) == x % 2^k`. */
  lemma {:induction false} MaskIsMod(x: nat, k: nat)
    ensures And(x, Pow2(k) - 1) == x % Pow2(k)
  {
    if k == 0 {
      assert Pow2(k) == 1;
    } else if x == 0 {
      assert And(x, Pow2(k) - 1) == 0;
    } else {
      MaskIsMod(x / 2, k - 1);
      MaskStep(x, k);
    }
  }

  lemma {:induction false} Pow2Add(a: nat, b: nat)
    ensures Pow2(a + b) == Pow2(a) * Pow2(b)
  {
    if a > 0 {
      Pow2Add(a - 1, b);
      assert Pow2(a + b) == 2 * Pow2(a - 1 + b);
    }
  }

  lemma ModOfMultiple(x: int, n: int, c: int, m: int)
    requires n > 0 && c > 0 && m == n * c
    ensures (x % m) % n == x % n
  {
    var q := x / m;
    var r := x % m;
    assert x == m * q + r;
    var q2 := r / n;
    var r2 := r % n;
    assert r == n * q2 + r2;
    assert m * q == n * (c * q);
    assert x == n * (c * q + q2) + r2;
    ModUnique(x, n, c * q + q2, r2);
  }

  lemma {:induction false} Pow2Mono(a: nat, b: nat)
    requires a <= b
    ensures Pow2(a) <= Pow2(b)
    decreases b
  {
    if a < b {
      Pow2Mono(a, b - 1);
    }
  }

  lemma Pow2Is32()
    ensures Pow2(32) == U32_MOD
  {
    assert Pow2(2) == 4;
    Pow2Add(2, 2);
    Pow2Add(4, 4);
    Pow2Add(8, 8);
    Pow2Add(16, 16);
  }

  /** 2^k for a concrete k, stated on a variable so that the solver does not evaluate the bit operations. */
  lemma PowerOfTwoValue(n: nat, k: nat)
    requires n == Pow2(k)
    ensures IsPowerOfTwo(n)
  {
    Pow2IsPowerOfTwo(k);
  }

  /** A power of two no larger than 2^32 divides 2^32, so wrapping a cursor does not move its slot. */
  lemma WrapKeepsSlot(x: int, n: nat)
    requires IsPowerOfTwo(n) && n <= U32_MOD
    ensures (x % U32_MOD) % n == x % n
  {
    var k := PowerOfTwoLog(n);
    Pow2Is32();
    if k > 32 {
      Pow2Mono(33, k);
      assert false;
    }
    Pow2Add(k, 32 - k);
    ModOfMultiple(x, n, Pow2(32 - k), U32_MOD);
  }

  /** Stepping a residue modulo n by one, with wrap-around, is stepping the number. */
  lemma ModSucc(x: nat, n: nat)
    requires n > 0
    ensures (x % n + 1) % n == (x + 1) % n
  {
    var q := x / n;
    var r := x % n;
    assert x == n * q + r;
    if r + 1 < n {
      ModUnique(x + 1, n, q, r + 1);
      ModUnique(r + 1, n, 0, r + 1);
    } else {
      ModUnique(x + 1, n, q + 1, 0);
      ModUnique(r + 1, n, 1, 0);
    }
  }

  /** Going d < n steps round a circle of n from x comes back to x only for d == 0. */
  lemma ModShift(x: nat, d: nat, n: nat)
    requires x < n && d < n
    ensures (x + d) % n == x <==> d == 0
  {
    if x + d < n {
      ModUnique(x + d, n, 0, x + d);
    } else {
      ModUnique(x + d, n, 1, x + d - n);
    }
  }

  /** Distinct positions less than n apart fall into distinct slots modulo n. */
  lemma ModDistinct(a: int, i: int, j: int, n: int)
    requires n > 0 && 0 <= i < j < i + n
    ensures (a + i) % n != (a + j) % n
  {
    var q := (a + i) / n;
    var r := (a + i) % n;
    var d := j - i;
    assert a + i == n * q + r;
    if r + d < n {
      ModUnique(a + j, n, q, r + d);
    } else {
      assert a + j == n * (q + 1) + (r + d - n);
      ModUnique(a + j, n, q + 1, r + d - n);
    }
  }
}

=== FILE: emulator.dfy ===
/**
 * The prototype character device (emulator.c): two veth interfaces, each
 * with CORE_NUM rx and CORE_NUM tx rings of the AF_XDP-derived queue; an
 * ioctl that drains one tx ring (PING) or all of them (PING_ALL) into the
 * network stack; an mmap that decodes four fixed offset ranges; an rx hook
 * that feeds arriving frames into the current CPU's rx ring; and a packet
 * recorder, a fixed table of handles with a cyclic free-slot scan.
 *
 * The module globals (the four ring tables, the two interfaces and their
 * ring info) are passed to each operation as a Globals value; the packet
 * stack and the user-copy routines are oracle parameters.
 */
module Emulator {
  import opened Bits
  import opened Kernel
  import opened Ring
  import XskQueue

  const ENTRIES: nat := 4096
  /** `ENTRIES * CORE_NUM` (4096 * 28), the size of the packet recorder's table. */
  const RECORDER_CAPACITY: nat := 114688

  // ---- packet recorder ----

  /** The number of occupied (non-zero) slots of a recorder table. */
  function Occupied(s: seq<u64>): (n: nat)
    ensures n <= |s|
  {
    if s == [] then 0 else Occupied(s[..|s| - 1]) + (if s[|s| - 1] != 0 then 1 else 0)
  }

  /** The slot `d` steps after `start` going round the table. */
  function SlotAt(s: seq<u64>, start: nat, d: nat): u64
    requires |s| > 0
  {
    s[(start + d) % |s|]
  }

  /**
   * The cyclic scan of `record_packet`: the first distance r >= d from
   * `start` at which the slot is free, if there is one before the scan
   * comes back to `start`.
   */
  function FreeFrom(s: seq<u64>, start: nat, d: nat): (r: Option<nat>)
    requires start < |s|
    ensures r.Some? ==> d <= r.value < |s| && SlotAt(s, start, r.value) == 0
    ensures r.Some? ==> forall e :: d <= e < r.value ==> SlotAt(s, start, e) != 0
    ensures r.None? ==> forall e :: d <= e < |s| ==> SlotAt(s, start, e) != 0
    decreases |s| - d
  {
    if d >= |s| then None
    else if SlotAt(s, start, d) == 0 then Some(d)
    else FreeFrom(s, start, d + 1)
  }

  /**
   * One step of the cyclic scan past an occupied slot: the next slot is
   * one further round the table, the scan's outcome is the same from
   * there, and it is back at `start` exactly when the whole table has
   * been seen, with no free slot.
   */
  lemma ScanStep(s: seq<u64>, start: nat, d: nat)
    requires start < |s| && d < |s| && SlotAt(s, start, d) != 0
    ensures ((start + d) % |s| + 1) % |s| == (start + d + 1) % |s|
    ensures FreeFrom(s, start, d + 1) == FreeFrom(s, start, d)
    ensures (start + d + 1) % |s| == start <==> d + 1 == |s|
    ensures d + 1 == |s| ==> FreeFrom(s, start, d + 1) == None
  {
    CycleStep(start, d, |s|);
  }

  /** Round a circle of n: one step past start + d, and back at start only after n steps. */
  lemma CycleStep(start: nat, d: nat, n: nat)
    requires start < n && d < n
    ensures ((start + d) % n + 1) % n == (start + d + 1) % n
    ensures (start + d + 1) % n == start <==> d + 1 == n
  {
    ModSucc(start + d, n);
    if d + 1 < n {
      ModShift(start, d + 1, n);
    } else {
      ModUnique(start + d + 1, n, 1, start);
    }
  }

  /** The lowest index holding `p`, the slot `search_and_remove_packet` clears. */
  function FirstIndex(s: seq<u64>, p: u64): (i: nat)
    requires p in s
    ensures i < |s| && s[i] == p
    ensures forall j :: 0 <= j < i ==> s[j] != p
  {
    if s[0] == p then 0 else 1 + FirstIndex(s[1..], p)
  }

  /**
   * `packet_recoder` with its `packet_recoder_index` (where the next scan
   * starts) and `packet_recoder_size` (how many slots are taken).
   */
  class Recorder {
    const slots: array<u64>
    var index: u64
    var size: u64

    predicate Valid()
    {
      slots.Length == RECORDER_CAPACITY
    }

    /** The size counter agrees with the table: it counts the non-zero slots. */
    ghost predicate Consistent()
      reads this, slots
    {
      Valid() && size as nat == Occupied(slots[..])
    }

    /** The zeroed table that module initialisation leaves behind. */
    constructor ()
      ensures Valid() && index == 0 && size == 0
      ensures forall i :: 0 <= i < slots.Length ==> slots[i] == 0
      ensures Consistent()
    {
      slots := new u64[RECORDER_CAPACITY];
      index, size := 0, 0;
      new;
      for i := 0 to RECORDER_CAPACITY
        invariant index == 0 && size == 0
        invariant forall j :: 0 <= j < i ==> slots[j] == 0
      {
        slots[i] := 0;
      }
      NoneOccupied(slots[..]);
    }

    /**
     * `record_packet`: false and no change when the table is full by its
     * counter.  Otherwise true, and the first free slot met scanning
     * cyclically from `index` receives `packet`, the counter grows by one
     * and `index` is reset from the counter (one past it when the slot
     * found was the starting one); when the scan finds no free slot
     * nothing changes, and the result is still true.
     */
    method RecordPacket(packet: u64) returns (ret: bool)
      requires Valid() && index < RECORDER_CAPACITY
      modifies this, slots
      ensures ret <==> old(size) < RECORDER_CAPACITY
      ensures !ret ==> slots[..] == old(slots[..]) && size == old(size) && index == old(index)
      ensures ret ==>
                match FreeFrom(old(slots[..]), old(index), 0)
                case None => slots[..] == old(slots[..]) && size == old(size) && index == old(index)
                case Some(d) =>
                  slots[..] == old(slots[..])[(old(index) + d) % RECORDER_CAPACITY := packet]
                  && size == old(size) + 1
                  && index == (if d == 0 then size + 1 else size)
      ensures old(Consistent()) && ret ==> FreeFrom(old(slots[..]), old(index), 0).Some?
      ensures old(Consistent()) && packet != 0 ==> Consistent()
    {
      if Consistent() && size < RECORDER_CAPACITY as u64 {
        FreeSlotExists(slots[..], index);
      }
      if size < RECORDER_CAPACITY as u64 {
        var found, i := FindFree();
        if found {
          OccupiedUpdate(slots[..], i as nat, packet);
          slots[i] := packet;
          size := size + 1;
          index := if i == index then size + 1 else size;
        }
        ret := true;
      } else {
        ret := false;
      }
    }

    /**
     * The do-while scan of `record_packet`: slot `index`, then the next
     * ones round the table, stopping at the first free slot or back at
     * `index`.  `i` is the free slot found, if any.
     */
    method FindFree() returns (found: bool, i: u64)
      requires Valid() && index < RECORDER_CAPACITY
      ensures found <==> FreeFrom(slots[..], index, 0).Some?
      ensures found ==>
                var d := FreeFrom(slots[..], index, 0).value;
                i as nat == (index + d) % RECORDER_CAPACITY && (i == index <==> d == 0)
      ensures found ==> i < RECORDER_CAPACITY && slots[i] == 0
    {
      ghost var s := slots[..];
      ghost var d: nat := 0;
      i := index;
      while true
        invariant d < RECORDER_CAPACITY && i == (index + d) % RECORDER_CAPACITY
        invariant FreeFrom(s, index, d) == FreeFrom(s, index, 0)
        decreases RECORDER_CAPACITY - d
      {
        if slots[i] == 0 {
          assert SlotAt(s, index, d) == 0;
          ModShift(index, d, RECORDER_CAPACITY);
          return true, i;
        }
        ScanStep(s, index, d);
        i := (i + 1) % RECORDER_CAPACITY as u64;
        d := d + 1;
        if i == index {
          return false, i;
        }
      }
    }

    /**
     * `search_and_remove_packet`: true exactly when some slot holds
     * `packet`; the lowest such slot is cleared and the u64 counter goes
     * down by one (wrapping at 0).  Otherwise nothing changes.
     */
    method SearchAndRemove(packet: u64) returns (ret: bool)
      requires Valid()
      modifies this`size, slots
      ensures ret <==> packet in old(slots[..])
      ensures ret ==>
                slots[..] == old(slots[..])[FirstIndex(old(slots[..]), packet) := 0]
                && size == Sub64(old(size), 1)
      ensures !ret ==> slots[..] == old(slots[..]) && size == old(size)
      ensures old(Consistent()) && packet != 0 ==> Consistent()
    {
      ghost var s := slots[..];
      ret := false;
      var i: u64 := 0;
      while i < RECORDER_CAPACITY as u64
        invariant i <= RECORDER_CAPACITY
        invariant forall j :: 0 <= j < i ==> s[j] != packet
        invariant slots[..] == s && size == old(size)
      {
        if slots[i] == packet {
          slots[i] := 0;
          ret := true;
          size := Sub64(size, 1);
          OccupiedUpdate(s, i as nat, 0);
          return;
        }
        i := i + 1;
      }
    }
  }

  lemma {:induction false} NoneOccupied(s: seq<u64>)
    requires forall i :: 0 <= i < |s| ==> s[i] == 0
    ensures Occupied(s) == 0
  {
    if s != [] {
      NoneOccupied(s[..|s| - 1]);
    }
  }

  /** Overwriting one slot changes the occupied count by what left and what came in. */
  lemma {:induction false} OccupiedUpdate(s: seq<u64>, i: nat, v: u64)
    requires i < |s|
    ensures Occupied(s[i := v]) == Occupied(s) - (if s[i] != 0 then 1 else 0) + (if v != 0 then 1 else 0)
  {
    var n := |s| - 1;
    if i < n {
      OccupiedUpdate(s[..n], i, v);
      assert s[i := v][..n] == s[..n][i := v];
    } else {
      assert s[i := v][..n] == s[..n];
    }
  }

  /** Fewer occupied slots than slots: some slot is free. */
  lemma {:induction false} FindZero(s: seq<u64>) returns (k: nat)
    requires Occupied(s) < |s|
    ensures k < |s| && s[k] == 0
  {
    var n := |s| - 1;
    if s[n] == 0 {
      k := n;
    } else {
      k := FindZero(s[..n]);
    }
  }

  /** With the counter consistent and below capacity, the scan of `record_packet` finds a free slot. */
  lemma FreeSlotExists(s: seq<u64>, start: nat)
    requires start < |s| && Occupied(s) < |s|
    ensures FreeFrom(s, start, 0).Some?
  {
    var n := |s|;
    var k := FindZero(s);
    var d := if k >= start then k - start else k + n - start;
    if k >= start {
      ModUnique(start + d, n, 0, k);
    } else {
      ModUnique(start + d, n, 1, k);
    }
    assert SlotAt(s, start, d) == 0;
  }

  /**
   * Recording a non-zero packet and then searching for and removing it
   * finds it, and gives back the same table as a multiset, with the same
   * number of occupied slots (the slot cleared may be an older copy of
   * the packet rather than the one just written).
   */
  lemma RecordThenRemove(s: seq<u64>, start: nat, p: u64)
    requires start < |s| && p != 0 && FreeFrom(s, start, 0).Some?
    ensures var s1 := s[(start + FreeFrom(s, start, 0).value) % |s| := p];
            p in s1
            && multiset(s1[FirstIndex(s1, p) := 0]) == multiset(s)
            && Occupied(s1[FirstIndex(s1, p) := 0]) == Occupied(s)
  {
    var pos := (start + FreeFrom(s, start, 0).value) % |s|;
    var s1 := s[pos := p];
    assert s1[pos] == p;
    var j := FirstIndex(s1, p);
    var s2 := s1[j := 0];
    OccupiedUpdate(s, pos, p);
    OccupiedUpdate(s1, j, 0);
    MultisetUpdate(s, pos, p);
    MultisetUpdate(s1, j, 0);
  }

  /** Overwriting slot i takes one copy of the old value out of the multiset and puts one of `v` in. */
  lemma MultisetUpdate(s: seq<u64>, i: nat, v: u64)
    requires i < |s|
    ensures multiset(s[i := v]) == multiset(s) - multiset{s[i]} + multiset{v}
  {
    assert s == s[..i] + [s[i]] + s[i + 1..];
    assert s[i := v] == s[..i] + [v] + s[i + 1..];
  }

  // ---- the drain loop ----

  /**
   * `xskq_cons_read_desc_batch`: walks the ring from `cachedCons` until the
   * cached producer or `max` entries, sending each handle to veth1 when
   * `tar == 0` and to veth2 otherwise; returns how many were walked, skipped
   * ones included (`handled`, and `outcome` what Classify decided for each),
   * and counts them all as read with `xskq_cons_release_n`, which moves only
   * the private `cachedCons`: the shared consumer is never published here.
   */
  method ReadDescBatch(q: XskQueue.Queue, max: u32, tar: u32, veth1: DevId, veth2: DevId, net: NetStack)
    returns (n: u32, handled: seq<Skb>, outcome: seq<Verdict>)
    requires q.Valid()
    modifies q`cachedCons
    ensures n <= max && n as nat == Min(max, Sub32(q.cachedProd, old(q.cachedCons)))
    ensures |handled| == n as nat && handled == Window(q.ring.desc[..], old(q.cachedCons), n as nat)
    ensures |outcome| == |handled|
    ensures forall k :: 0 <= k < |handled| ==> outcome[k] == Classify(handled[k], if tar == 0 then veth1 else veth2, net)
    ensures q.cachedCons == Add32(old(q.cachedCons), n)
    ensures old(q.ConsumerView()) ==> q.ConsumerView() && q.Consumed() == old(q.Consumed()) + handled
  {
    n, handled, outcome := WalkBatch(q, max, if tar == 0 then veth1 else veth2, net);
    ReleaseBatch(q, n);
  }

  /** The loop of `xskq_cons_read_desc_batch` on a private copy of `cachedCons`: the entries it walks and their verdicts. */
  method WalkBatch(q: XskQueue.Queue, max: u32, dev: DevId, net: NetStack)
    returns (n: u32, handled: seq<Skb>, outcome: seq<Verdict>)
    requires q.Valid()
    ensures n <= max && n as nat == Min(max, Sub32(q.cachedProd, q.cachedCons))
    ensures handled == Window(q.ring.desc[..], q.cachedCons, n as nat)
    ensures |outcome| == |handled|
    ensures forall k :: 0 <= k < |handled| ==> outcome[k] == Classify(handled[k], dev, net)
  {
    var c0, p := q.cachedCons, q.cachedProd;
    ghost var d := q.ring.desc[..];
    var cachedCons := c0;
    n := 0;
    handled, outcome := [], [];
    Between(c0, p, p);
    while cachedCons != p && n < max
      invariant n <= max && n as nat <= Sub32(p, c0)
      invariant cachedCons == Add32(c0, n)
      invariant handled == Window(d, c0, n as nat)
      invariant |outcome| == n as nat
      invariant forall k :: 0 <= k < n ==> outcome[k] == Classify(handled[k], dev, net)
      decreases max - n
    {
      var msg := q.ring.desc[q.SlotOf(cachedCons)];
      WindowSplit(d, c0, n as nat, 1);
      AddAdd32(c0, n as nat, 1);
      n := n + 1;
      cachedCons := Add32(cachedCons, 1);
      handled := handled + [msg];
      outcome := outcome + [Classify(msg, dev, net)];
    }
  }

  /** The `xskq_cons_release_n` after the walk: the batch of `n` entries joins the consumed prefix. */
  method ReleaseBatch(q: XskQueue.Queue, n: u32)
    requires q.Valid() && n as nat <= Sub32(q.cachedProd, q.cachedCons)
    modifies q`cachedCons
    ensures q.cachedCons == Add32(old(q.cachedCons), n)
    ensures old(q.ConsumerView()) ==>
              q.ConsumerView()
              && q.Consumed() == old(q.Consumed()) + Window(q.ring.desc[..], old(q.cachedCons), n as nat)
  {
    ghost var c0, cons, prod, d := q.cachedCons, q.ring.consumer, q.ring.producer, q.ring.desc[..];
    ghost var view := q.ConsumerView();
    if view {
      Between(cons, c0, q.cachedProd);
      DrainWindow(d, cons, c0, n as nat, prod);
      Advance(cons, c0, n as nat);
    }
    q.ConsReleaseN(n);
    if view {
      var w := Window(d, cons, Sub32(prod, cons));
      var a := Sub32(c0, cons);
      assert w == Window(d, cons, a) + Window(d, c0, n as nat) + Window(d, Add32(c0, n as nat), Sub32(prod, Add32(c0, n as nat)));
      assert w[a..a + n as nat] == Window(d, c0, n as nat);
    }
  }

  // ---- the device's globals ----

  /** `struct ring_info`: what ATTACH_IF copies out for one interface. */
  datatype RingInfo = RingInfo(rxRingSize: u64, rxRingNum: u64, txRingSize: u64, txRingNum: u64)

  /** The module globals: the four ring tables, the two interfaces and their ring info. */
  datatype Globals = Globals(
    rx1: seq<XskQueue.Queue?>, tx1: seq<XskQueue.Queue?>,
    rx2: seq<XskQueue.Queue?>, tx2: seq<XskQueue.Queue?>,
    veth1: DevId, veth2: DevId,
    dev1Info: RingInfo, dev2Info: RingInfo)

  /** Every table has CORE_NUM slots, and every ring present is well formed. */
  predicate Valid(g: Globals)
  {
    |g.rx1| == CORE_NUM && |g.tx1| == CORE_NUM && |g.rx2| == CORE_NUM && |g.tx2| == CORE_NUM
    && (forall i :: 0 <= i < CORE_NUM && g.rx1[i] != null ==> g.rx1[i].Valid())
    && (forall i :: 0 <= i < CORE_NUM && g.tx1[i] != null ==> g.tx1[i].Valid())
    && (forall i :: 0 <= i < CORE_NUM && g.rx2[i] != null ==> g.rx2[i].Valid())
    && (forall i :: 0 <= i < CORE_NUM && g.tx2[i] != null ==> g.tx2[i].Valid())
  }

  // ---- IOCTL_PING ----

  /** `_IOR('N', 2, u64)`. */
  const IOCTL_PING: u32 := 0x8008_4E02
  /** `_IOR('N', 3, u64)`. */
  const IOCTL_ATTACH_IF: u32 := 0x8008_4E03
  /** `_IOR('N', 4, u64)`. */
  const IOCTL_PING_ALL: u32 := 0x8008_4E04

  const MASK_32: nat := 0xFFFF_FFFF

  /** `(arg >> 32) & MASK_32`: the interface selector, the high half of the argument. */
  function PingTarget(arg: u64): (tar: u32)
    ensures tar == arg / U32_MOD
  {
    Pow2Is32();
    MaskIsMod(arg / U32_MOD, 32);
    And(arg / U32_MOD, MASK_32)
  }

  /** `arg & MASK_32`: the ring index, the low half of the argument. */
  function PingIndex(arg: u64): (i: u32)
    ensures i == arg % U32_MOD
  {
    Pow2Is32();
    MaskIsMod(arg, 32);
    And(arg, MASK_32)
  }

  /** The argument user space builds for ring `i` of interface `tar`. */
  function PingArg(tar: u32, i: u32): (arg: u64)
  {
    tar * U32_MOD + i
  }

  /** Decoding an encoded PING argument gives back the interface and the ring. */
  lemma PingDecodeEncode(tar: u32, i: u32)
    ensures PingTarget(PingArg(tar, i)) == tar && PingIndex(PingArg(tar, i)) == i
  {
    ModUnique(PingArg(tar, i), U32_MOD, tar, i);
  }

  /** Every argument is the encoding of its two halves. */
  lemma PingEncodeDecode(arg: u64)
    ensures PingArg(PingTarget(arg), PingIndex(arg)) == arg
  {
  }

  /** The tx ring a PING argument selects: `tx_ring1[i]` for interface 0, `tx_ring2[i]` otherwise. */
  function PingRing(g: Globals, arg: u64): (q: XskQueue.Queue?)
    requires Valid(g) && PingIndex(arg) < CORE_NUM
    ensures q == (if PingTarget(arg) == 0 then g.tx1 else g.tx2)[PingIndex(arg)]
    ensures q != null ==> q.Valid()
  {
    if PingTarget(arg) == 0 then g.tx1[PingIndex(arg)] else g.tx2[PingIndex(arg)]
  }

  /**
   * One tx ring's turn in PING and PING_ALL: `xskq_cons_nb_entries(q, 4096)`
   * and then a batch read of that many entries (`passCount`) or of 4096,
   * as the second PING_ALL loop does.  Either way exactly
   * min(4096, available) entries are walked, in ring order.
   */
  method DrainRing(q: XskQueue.Queue, tar: u32, passCount: bool, veth1: DevId, veth2: DevId, net: NetStack)
    returns (handled: seq<Skb>, outcome: seq<Verdict>)
    requires q.Valid()
    modifies q`cachedProd, q`cachedCons
    ensures q.cachedProd == old(q.cachedProd) || q.cachedProd == q.ring.producer
    ensures |handled| == Min(4096, Sub32(q.cachedProd, old(q.cachedCons)))
    ensures handled == Window(q.ring.desc[..], old(q.cachedCons), |handled|)
    ensures |outcome| == |handled|
    ensures forall k :: 0 <= k < |handled| ==> outcome[k] == Classify(handled[k], if tar == 0 then veth1 else veth2, net)
    ensures q.cachedCons == Add32(old(q.cachedCons), |handled|)
    ensures old(q.ConsumerView()) ==> q.ConsumerView() && q.Consumed() == old(q.Consumed()) + handled
  {
    var nbPkts := q.ConsNbEntries(4096);
    var n;
    if passCount {
      n, handled, outcome := ReadDescBatch(q, nbPkts, tar, veth1, veth2, net);
    } else {
      n, handled, outcome := ReadDescBatch(q, 4096, tar, veth1, veth2, net);
    }
  }

  /**
   * The PING branch of `netdev_ioctl`: the ring named by `arg` is drained
   * by at most 4096 entries.  Its shared cursors do not move: nothing is
   * handed back to user space.
   */
  method Ping(g: Globals, arg: u64, net: NetStack) returns (handled: seq<Skb>, outcome: seq<Verdict>)
    requires Valid(g) && PingIndex(arg) < CORE_NUM && PingRing(g, arg) != null
    modifies PingRing(g, arg)
    ensures var q := PingRing(g, arg);
            (q.cachedProd == old(q.cachedProd) || q.cachedProd == q.ring.producer)
            && |handled| == Min(4096, Sub32(q.cachedProd, old(q.cachedCons)))
            && handled == Window(q.ring.desc[..], old(q.cachedCons), |handled|)
            && q.cachedCons == Add32(old(q.cachedCons), |handled|)
            && q.ring.consumer == old(q.ring.consumer) && q.ring.producer == old(q.ring.producer)
            && (old(q.ConsumerView()) ==> q.ConsumerView() && q.Consumed() == old(q.Consumed()) + handled)
    ensures |outcome| == |handled|
    ensures forall k :: 0 <= k < |handled| ==>
              outcome[k] == Classify(handled[k], if PingTarget(arg) == 0 then g.veth1 else g.veth2, net)
  {
    var tar := PingTarget(arg);
    var q := PingRing(g, arg);
    handled, outcome := DrainRing(q, tar, true, g.veth1, g.veth2, net);
  }

  /** The tx rings of both interfaces, what PING_ALL may touch. */
  function TxRings(g: Globals): set<object>
    requires Valid(g)
  {
    (set i | 0 <= i < CORE_NUM && g.tx1[i] != null :: g.tx1[i] as object)
    + (set i | 0 <= i < CORE_NUM && g.tx2[i] != null :: g.tx2[i] as object)
  }

  /** Every slot of a ring table is filled. */
  predicate AllPresent(rings: seq<XskQueue.Queue?>)
  {
    forall i :: 0 <= i < |rings| ==> rings[i] != null
  }

  /**
   * The PING_ALL branch of `netdev_ioctl`: every tx ring of veth1 and
   * then every tx ring of veth2, in index order, gets one DrainRing.  No
   * shared cursor of any ring moves.
   */
  method PingAll(g: Globals, net: NetStack)
    requires Valid(g) && AllPresent(g.tx1) && AllPresent(g.tx2)
    modifies TxRings(g)
    ensures forall i :: 0 <= i < CORE_NUM ==>
              g.tx1[i].ring.consumer == old(g.tx1[i].ring.consumer) && g.tx1[i].ring.producer == old(g.tx1[i].ring.producer)
    ensures forall i :: 0 <= i < CORE_NUM ==>
              g.tx2[i].ring.consumer == old(g.tx2[i].ring.consumer) && g.tx2[i].ring.producer == old(g.tx2[i].ring.producer)
  {
    for i := 0 to CORE_NUM {
      var _, _ := DrainRing(g.tx1[i], 0, true, g.veth1, g.veth2, net);
    }
    for i := 0 to CORE_NUM {
      var _, _ := DrainRing(g.tx2[i], 1, false, g.veth1, g.veth2, net);
    }
  }

  // ---- mmap ----

  /** The four rings tables user space can map, in offset order. */
  datatype RingKind = Rx1 | Tx1 | Rx2 | Tx2

  /** `RX_RING_1_OFFSET` ... `TX_RING_2_OFFSET`: where each table's range of mmap offsets starts. */
  function Base(k: RingKind): (b: nat)
  {
    match k
    case Rx1 => 0
    case Tx1 => 0x8000_0000
    case Rx2 => 0x1_0000_0000
    case Tx2 => 0x1_8000_0000
  }

  /** The pages in each of the first three offset ranges (0x8000_0000 bytes). */
  const RANGE_PAGES: nat := 0x8_0000

  /** The ring table of one kind. */
  function Table(g: Globals, k: RingKind): seq<XskQueue.Queue?>
  {
    match k
    case Rx1 => g.rx1
    case Tx1 => g.tx1
    case Rx2 => g.rx2
    case Tx2 => g.tx2
  }

  /** Conversion to a 32-bit `int`: the low 32 bits, read as two's complement. */
  function ToInt32(x: nat): (r: int)
    ensures -0x8000_0000 <= r < 0x8000_0000
    ensures (r - x) % U32_MOD == 0
    ensures x < 0x8000_0000 ==> r == x
  {
    var low := x % U32_MOD;
    if low < 0x8000_0000 then low else low - U32_MOD
  }

  /**
   * The range tests of `netdev_mmap` on a byte offset: the table whose
   * range holds it (offsets past the start of TX_RING_2 all fall to
   * TX_RING_2) and the page index within that range, stored in an `int`.
   */
  function DecodeOffset(offset: nat): (r: (RingKind, int))
    ensures offset < Base(Tx1) ==> r.0 == Rx1
    ensures Base(r.0) <= offset
    ensures r.0 != Tx2 ==> offset < Base(r.0) + RANGE_PAGES * PAGE_SIZE
    ensures r.1 == ToInt32((offset - Base(r.0)) / PAGE_SIZE)
  {
    var k :=
      if offset < Base(Tx1) then Rx1
      else if offset < Base(Rx2) then Tx1
      else if offset < Base(Tx2) then Rx2
      else Tx2;
    (k, ToInt32((offset - Base(k)) / PAGE_SIZE))
  }

  /** The page offset user space passes to map ring `i` of table `k`. */
  function RingPgoff(k: RingKind, i: nat): nat
  {
    Base(k) / PAGE_SIZE + i
  }

  /** Decoding the offset of ring `i` of table `k` gives back `k` and `i`, within a range's worth of pages. */
  lemma DecodeRingPgoff(k: RingKind, i: nat)
    requires i < RANGE_PAGES
    ensures DecodeOffset(RingPgoff(k, i) * PAGE_SIZE) == (k, i)
  {
    var offset := RingPgoff(k, i) * PAGE_SIZE;
    assert offset == Base(k) + i * PAGE_SIZE;
    assert (offset - Base(k)) / PAGE_SIZE == i;
  }

  /** Every page offset below the point where the index would overflow an `int` is the offset of the ring it decodes to. */
  lemma PgoffDecodeEncode(pgoff: nat)
    requires pgoff < Base(Tx2) / PAGE_SIZE + 0x8000_0000
    ensures var (k, i) := DecodeOffset(pgoff * PAGE_SIZE); i >= 0 && RingPgoff(k, i) == pgoff
  {
    var offset := pgoff * PAGE_SIZE;
    var k := DecodeOffset(offset).0;
    assert Base(k) % PAGE_SIZE == 0;
    assert (offset - Base(k)) / PAGE_SIZE == pgoff - Base(k) / PAGE_SIZE;
  }

  /** The ring a page offset selects, before the NULL check. */
  function MmapRing(g: Globals, pgoff: nat): (q: XskQueue.Queue?)
    requires Valid(g) && 0 <= DecodeOffset(pgoff * PAGE_SIZE).1 < CORE_NUM
  {
    var (k, i) := DecodeOffset(pgoff * PAGE_SIZE);
    Table(g, k)[i]
  }

  /**
   * `netdev_mmap` for a mapping of `size` bytes at page offset `pgoff`:
   * -EINVAL when the selected table slot is empty or the mapping is larger
   * than the ring's buffer; otherwise what `remap_vmalloc_range` returns
   * (`remapRet`).
   */
  function Mmap(g: Globals, pgoff: nat, size: nat, remapRet: int): (ret: int)
    requires Valid(g) && pgoff < MAX_PGOFF && 0 <= DecodeOffset(pgoff * PAGE_SIZE).1 < CORE_NUM
    ensures ret != remapRet ==> ret == -EINVAL
    ensures MmapRing(g, pgoff) != null && size <= MmapRing(g, pgoff).ringVmallocSize ==> ret == remapRet
    ensures remapRet != -EINVAL && ret == remapRet ==>
              MmapRing(g, pgoff) != null && size <= MmapRing(g, pgoff).ringVmallocSize
  {
    var q := MmapRing(g, pgoff);
    if q == null then -EINVAL
    else if size > q.ringVmallocSize then -EINVAL
    else remapRet
  }

  /** Mapping the page offset of ring `i` of table `k` maps exactly that ring, when it exists and is large enough. */
  lemma MmapEncoded(g: Globals, k: RingKind, i: nat, size: nat, remapRet: int)
    requires Valid(g) && i < CORE_NUM && remapRet != -EINVAL
    ensures DecodeOffset(RingPgoff(k, i) * PAGE_SIZE) == (k, i)
    ensures RingPgoff(k, i) < MAX_PGOFF
    ensures Mmap(g, RingPgoff(k, i), size, remapRet) == remapRet <==>
              Table(g, k)[i] != null && size <= Table(g, k)[i].ringVmallocSize
  {
    DecodeRingPgoff(k, i);
  }

  // ---- rx hook ----

  /** The rx ring a frame from `dev` goes to on CPU `cpu`: veth1's, else veth2's, else none. */
  function RxTarget(g: Globals, dev: DevId, cpu: nat): (q: XskQueue.Queue?)
    requires Valid(g) && cpu < CORE_NUM
    ensures q != null ==> q.Valid()
  {
    if dev == g.veth1 then g.rx1[cpu] else if dev == g.veth2 then g.rx2[cpu] else null
  }

  /** What the rx hook may write: the ring's private cursors, its shared header and its slots. */
  function RingFrame(q: XskQueue.Queue?): set<object>
  {
    if q == null then {} else {q, q.ring, q.ring.desc}
  }

  /**
   * `veth_handle_frame` on CPU `cpu` for a frame from `dev`.  Frames of
   * other devices pass.  `shared` is what `skb_share_check` returns (None
   * when it fails, which consumes the frame).  Otherwise the handle goes
   * into the CPU's rx ring of its interface and is published, or is freed
   * (`dropped`) when that ring is full; either way the frame is consumed.
   */
  method VethHandleFrame(g: Globals, dev: DevId, cpu: nat, shared: Option<Skb>)
    returns (r: RxResult, dropped: Option<Skb>)
    requires Valid(g) && cpu < CORE_NUM
    requires dev == g.veth1 || dev == g.veth2 ==> RxTarget(g, dev, cpu) != null
    modifies RingFrame(RxTarget(g, dev, cpu))
    ensures r == RxPass <==> dev != g.veth1 && dev != g.veth2
    ensures dropped.Some? ==> shared.Some? && dropped.value == shared.value
    ensures var q := RxTarget(g, dev, cpu); q != null ==> q.ring.consumer == old(q.ring.consumer)
    ensures r == RxPass || shared == None ==>
              dropped == None
              && (var q := RxTarget(g, dev, cpu);
                  q != null ==> q.cachedProd == old(q.cachedProd) && q.cachedCons == old(q.cachedCons)
                                && q.ring.producer == old(q.ring.producer) && q.ring.desc[..] == old(q.ring.desc[..]))
    ensures r == RxConsumed && shared.Some? ==>
              var q := RxTarget(g, dev, cpu);
              (dropped.Some? <==> FreeEntries(q.nentries, old(q.cachedProd), q.cachedCons) == 0)
              && (dropped.Some? ==> q.cachedProd == old(q.cachedProd) && q.ring.producer == old(q.ring.producer)
                                    && q.ring.desc[..] == old(q.ring.desc[..]))
              && (dropped.None? ==> q.cachedProd == Add32(old(q.cachedProd), 1) && q.ring.producer == q.cachedProd)
              && (old(q.ProducerView()) ==>
                    q.ProducerView()
                    && (dropped.Some? <==> Sub32(old(q.cachedProd), q.ring.consumer) == q.nentries)
                    && q.ring.Published()
                       == old(q.ring.Published()) + (if dropped.None? then old(q.Reserved()) + [shared.value] else []))
  {
    if dev != g.veth1 && dev != g.veth2 {
      return RxPass, None;
    }
    if shared == None {
      return RxConsumed, None;
    }
    var skb := shared.value;
    var q := RxTarget(g, dev, cpu);
    var full := Enqueue(q, skb);
    dropped := if full then Some(skb) else None;  // consume_skb on a full ring
    r := RxConsumed;
  }

  /**
   * The enqueue step of the rx hook: reserve a slot for `skb` and publish
   * it at once, or report the ring full and change nothing but the
   * refreshed `cachedCons`.
   */
  method Enqueue(q: XskQueue.Queue, skb: Skb) returns (full: bool)
    requires q.Valid()
    modifies q`cachedProd, q`cachedCons, q.ring`producer, q.ring.desc
    ensures full <==> FreeEntries(q.nentries, old(q.cachedProd), q.cachedCons) == 0
    ensures full ==> q.cachedProd == old(q.cachedProd) && q.ring.producer == old(q.ring.producer)
                     && q.ring.desc[..] == old(q.ring.desc[..])
    ensures !full ==> q.cachedProd == Add32(old(q.cachedProd), 1) && q.ring.producer == q.cachedProd
    ensures old(q.ProducerView()) ==>
              q.ProducerView()
              && (full <==> Sub32(old(q.cachedProd), q.ring.consumer) == q.nentries)
              && q.ring.Published() == old(q.ring.Published()) + (if full then [] else old(q.Reserved()) + [skb])
  {
    var err := q.ProdReserveAddr(skb);
    full := err != 0;
    if !full {
      q.ProdSubmit();
    }
  }

  // ---- ioctl ----

  /**
   * `netdev_ioctl`.  ATTACH_IF copies both interfaces' ring info to user
   * space (`copied`, in order), -EFAULT as soon as a copy fails
   * (`copy1Ok`, `copy2Ok` are the two `copy_to_user` outcomes); PING and
   * PING_ALL drain tx rings and return 0; any other command is -EINVAL.
   */
  method Ioctl(g: Globals, cmd: u32, arg: u64, copy1Ok: bool, copy2Ok: bool, net: NetStack)
    returns (ret: int, copied: seq<RingInfo>)
    requires Valid(g)
    requires cmd == IOCTL_PING ==> PingIndex(arg) < CORE_NUM && PingRing(g, arg) != null
    requires cmd == IOCTL_PING_ALL ==> AllPresent(g.tx1) && AllPresent(g.tx2)
    modifies TxRings(g)
    ensures cmd == IOCTL_ATTACH_IF ==>
              (ret == 0 <==> copy1Ok && copy2Ok) && (ret != 0 ==> ret == -EFAULT)
              && copied == (if copy1Ok then [g.dev1Info] + (if copy2Ok then [g.dev2Info] else []) else [])
    ensures cmd != IOCTL_ATTACH_IF ==> copied == []
    ensures cmd == IOCTL_PING || cmd == IOCTL_PING_ALL ==> ret == 0
    ensures cmd == IOCTL_PING ==>
              var q := PingRing(g, arg);
              var n := Min(4096, Sub32(q.cachedProd, old(q.cachedCons)));
              (q.cachedProd == old(q.cachedProd) || q.cachedProd == q.ring.producer)
              && q.cachedCons == Add32(old(q.cachedCons), n)
              && q.ring.consumer == old(q.ring.consumer) && q.ring.producer == old(q.ring.producer)
              && (old(q.ConsumerView()) ==>
                    q.ConsumerView() && q.Consumed() == old(q.Consumed()) + Window(q.ring.desc[..], old(q.cachedCons), n))
              && (forall r :: r in TxRings(g) && r != q ==> unchanged(r))
    ensures cmd == IOCTL_PING_ALL ==>
              (forall i :: 0 <= i < CORE_NUM ==>
                 g.tx1[i].ring.consumer == old(g.tx1[i].ring.consumer) && g.tx1[i].ring.producer == old(g.tx1[i].ring.producer))
              && (forall i :: 0 <= i < CORE_NUM ==>
                    g.tx2[i].ring.consumer == old(g.tx2[i].ring.consumer) && g.tx2[i].ring.producer == old(g.tx2[i].ring.producer))
    ensures cmd != IOCTL_PING && cmd != IOCTL_PING_ALL ==> unchanged(TxRings(g))
    ensures cmd != IOCTL_ATTACH_IF && cmd != IOCTL_PING && cmd != IOCTL_PING_ALL ==> ret == -EINVAL
  {
    copied := [];
    if cmd == IOCTL_ATTACH_IF {
      if !copy1Ok {
        return -EFAULT, copied;
      }
      copied := copied + [g.dev1Info];
      if !copy2Ok {
        return -EFAULT, copied;
      }
      copied := copied + [g.dev2Info];
      ret := 0;
    } else if cmd == IOCTL_PING {
      var i := PingIndex(arg);
      assert PingRing(g, arg) in TxRings(g) by {
        if PingTarget(arg) == 0 {
          assert g.tx1[i] in (set j | 0 <= j < CORE_NUM && g.tx1[j] != null :: g.tx1[j] as object);
        } else {
          assert g.tx2[i] in (set j | 0 <= j < CORE_NUM && g.tx2[j] != null :: g.tx2[j] as object);
        }
      }
      var _, _ := Ping(g, arg, net);
      ret := 0;
    } else if cmd == IOCTL_PING_ALL {
      PingAll(g, net);
      ret := 0;
    } else {
      ret := -EINVAL;
    }
  }
}

=== FILE: kernel.dfy ===
/**
 * The kernel environment the core runs in: page geometry, the configured
 * core count, error numbers, pointer encodings, and the packet-stack
 * services that the dispatch code only queries (kept as oracles).
 */
module Kernel {
  import opened Bits

  const PAGE_SHIFT: nat := 12
  const PAGE_SIZE: nat := 4096
  /** Number of per-core rings in a shard set. */
  const CORE_NUM: nat := 28

  const ENOMEM: int := 12
  const EFAULT: int := 14
  const EBUSY: int := 16
  const ENODEV: int := 19
  const EINVAL: int := 22
  const ENOSPC: int := 28
  const MAX_ERRNO: int := 4095
  /** The bound on page offsets whose byte offset `pgoff << PAGE_SHIFT` still fits a signed 64-bit `loff_t`. */
  const MAX_PGOFF: nat := 0x8_0000_0000_0000

  /** A `struct net_device *` as an address; 0 is NULL. */
  type DevId = u64
  /** A `struct sk_buff *` as it is stored in a ring slot. */
  type Skb = u64

  /** `IS_ERR`: the last MAX_ERRNO addresses encode negative error numbers. */
  predicate IsErrPtr(p: u64)
  {
    p >= U64_MOD - MAX_ERRNO
  }

  /** The packet stack's answers about handles and devices. */
  datatype NetStack = NetStack(
    refcount: Skb -> nat,               // refcount_read(&skb->users)
    netpollBusy: DevId -> bool,         // netpoll_tx_running(dev)
    forwardable: (DevId, Skb) -> bool,  // is_skb_forwardable(dev, skb)
    xmitBusy: Skb -> bool)              // dev_queue_xmit(skb) == NETDEV_TX_BUSY

  /** A pointer result that may be NULL. */
  datatype Option<T> = None | Some(value: T)

  /** `rx_handler_result_t`: let the stack handle the frame, or it has been taken care of. */
  datatype RxResult = RxPass | RxConsumed

  /** What the drain loop does with one ring entry. */
  datatype Verdict = Skipped | Dropped | Transmitted

  /**
   * The per-entry decision of the drain loops: an error pointer or a handle
   * with other users is skipped (neither sent nor freed); a busy or
   * non-forwarding target, or a transmit refused with NETDEV_TX_BUSY,
   * drops the packet; everything else is transmitted on `dev`.
   */
  function Classify(skb: Skb, dev: DevId, net: NetStack): (v: Verdict)
    ensures v == Skipped <==> IsErrPtr(skb) || net.refcount(skb) != 1
    ensures v == Transmitted <==>
      !IsErrPtr(skb) && net.refcount(skb) == 1 && !net.netpollBusy(dev)
      && net.forwardable(dev, skb) && !net.xmitBusy(skb)
  {
    if IsErrPtr(skb) || net.refcount(skb) != 1 then Skipped
    else if net.netpollBusy(dev) then Dropped
    else if !net.forwardable(dev, skb) then Dropped
    else if net.xmitBusy(skb) then Dropped
    else Transmitted
  }

  /** Every pointer handed to a kernel free routine (`kfree`, `vfree`), in call order. */
  class FreeLog {
    var freed: seq<object>

    constructor ()
      ensures freed == []
    {
      freed := [];
    }
  }
}

=== FILE: map.dfy ===
/**
 * The two registries of the module (map.h): the device table, a chained
 * hash table from a network device to the pair of shard sets bound to it,
 * and the offset table, a growable array that turns an mmap offset into the
 * ring behind it.  Also the small growable pointer vector defined beside them.
 */
module Tables {
  import opened Bits
  import opened Kernel
  import XspQueue
  import QueueArray

  const DEV_QUEUE_TABLE_SIZE: nat := 1024
  /** Initial capacity of the offset table. */
  const OFFSET_TABLE_CAPACITY: nat := 4096
  /** Initial capacity of the pointer vector. */
  const INITIAL_CAPACITY: nat := 1024

  /**
   * `hash_func`.  The table size macro is not parenthesised, so the key is
   * reduced modulo 1 and the result shifted left by 10: every key lands in
   * bucket 0.
   */
  function HashFunc(key: DevId): (h: nat)
    ensures h < DEV_QUEUE_TABLE_SIZE
    ensures h == 0
  {
    (key % 1) * Pow2(10)
  }

  // ---------------------------------------------------------------------
  // Device table
  // ---------------------------------------------------------------------

  /** `struct dev_queue_entry`: its fields are set once, before it is linked. */
  class DevQueueEntry {
    const dev: DevId
    const txQueueArray: QueueArray.QueueArray
    const rxQueueArray: QueueArray.QueueArray

    constructor (dev: DevId, tx: QueueArray.QueueArray, rx: QueueArray.QueueArray)
      ensures this.dev == dev && txQueueArray == tx && rxQueueArray == rx
    {
      this.dev := dev;
      txQueueArray := tx;
      rxQueueArray := rx;
    }
  }

  /** The position of the first entry of bucket `b` (head first) whose device is `dev`, or |b|. */
  function FindIndex(b: seq<DevQueueEntry>, dev: DevId): (k: nat)
    ensures k <= |b|
    ensures forall j :: 0 <= j < k ==> b[j].dev != dev
    ensures k < |b| ==> b[k].dev == dev
  {
    if b == [] then 0
    else if b[0].dev == dev then 0
    else 1 + FindIndex(b[1..], dev)
  }

  /** What a walk of bucket `b` looking for `dev` stops at: the first match, or NULL. */
  function Find(b: seq<DevQueueEntry>, dev: DevId): (e: DevQueueEntry?)
    ensures e == null <==> forall j :: 0 <= j < |b| ==> b[j].dev != dev
    ensures e != null ==> e in b && e.dev == dev
  {
    var k := FindIndex(b, dev);
    if k < |b| then b[k] else null
  }

  /** Bucket `b` with its first entry for `dev` unlinked. */
  function RemoveFirst(b: seq<DevQueueEntry>, dev: DevId): (r: seq<DevQueueEntry>)
    ensures Find(b, dev) == null ==> r == b
    ensures Find(b, dev) != null ==> |r| == |b| - 1 && multiset(r) + multiset{Find(b, dev)} == multiset(b)
  {
    var k := FindIndex(b, dev);
    if k < |b| then
      assert b == b[..k] + [b[k]] + b[k + 1..];
      b[..k] + b[k + 1..]
    else b
  }

  /** Every bucket flattened in index order, each head first: the order a full walk visits the entries. */
  function Flatten(bs: seq<seq<DevQueueEntry>>): (r: seq<object>)
    ensures forall i, j :: 0 <= i < |bs| && 0 <= j < |bs[i]| ==> bs[i][j] in r
  {
    if bs == [] then []
    else
      var r0 := Flatten(bs[..|bs| - 1]);
      assert forall i :: 0 <= i < |bs| - 1 ==> bs[i] == bs[..|bs| - 1][i];
      r0 + bs[|bs| - 1]
  }

  /** `struct dev_queue_table`: DEV_QUEUE_TABLE_SIZE buckets, each a list kept head first. */
  class DevQueueTable {
    const buckets: array<seq<DevQueueEntry>>

    predicate Valid()
    {
      buckets.Length == DEV_QUEUE_TABLE_SIZE
    }

    /** The bucket `dev` hashes to. */
    ghost function Bucket(dev: DevId): seq<DevQueueEntry>
      reads buckets
      requires Valid()
    {
      buckets[HashFunc(dev)]
    }

    /** `dev_queue_table_init`: every bucket starts empty. */
    constructor ()
      ensures Valid() && fresh(buckets)
      ensures forall i :: 0 <= i < buckets.Length ==> buckets[i] == []
    {
      buckets := new seq<DevQueueEntry>[DEV_QUEUE_TABLE_SIZE];
      new;
      for i := 0 to DEV_QUEUE_TABLE_SIZE
        invariant forall j :: 0 <= j < i ==> buckets[j] == []
      {
        buckets[i] := [];
      }
    }

    /**
     * `dev_queue_table_insert`: a new entry carrying `dev`, `tx` and `rx` in
     * that order goes to the head of its bucket.  Lookups of `dev` now find
     * it; lookups of any other device find what they found before.
     */
    method Insert(dev: DevId, tx: QueueArray.QueueArray, rx: QueueArray.QueueArray)
      requires Valid()
      modifies buckets
      ensures var h := HashFunc(dev);
        |buckets[h]| == |old(buckets[h])| + 1 && buckets[h][1..] == old(buckets[h])
        && fresh(buckets[h][0])
      ensures forall i :: 0 <= i < buckets.Length && i != HashFunc(dev) ==> buckets[i] == old(buckets[i])
      ensures var e := Find(Bucket(dev), dev);
        e != null && fresh(e) && e.txQueueArray == tx && e.rxQueueArray == rx
      ensures forall d :: d != dev ==> Find(Bucket(d), d) == old(Find(Bucket(d), d))
    {
      var h := HashFunc(dev);
      var e := new DevQueueEntry(dev, tx, rx);
      ghost var b := buckets[h];
      buckets[h] := [e] + buckets[h];
      assert buckets[h][1..] == b;
      forall d | d != dev
        ensures Find(Bucket(d), d) == old(Find(Bucket(d), d))
      {
        FindPastHead(e, b, d);
      }
    }

    /** `dev_queue_table_lookup`: walks the bucket of `dev` head first and stops at the first entry for `dev`. */
    method Lookup(dev: DevId) returns (e: DevQueueEntry?)
      requires Valid()
      ensures e == Find(Bucket(dev), dev)
    {
      var b := buckets[HashFunc(dev)];
      var k := 0;
      while k < |b| && b[k].dev != dev
        invariant 0 <= k <= |b|
        invariant forall j :: 0 <= j < k ==> b[j].dev != dev
      {
        k := k + 1;
      }
      e := if k < |b| then b[k] else null;
    }

    /**
     * `dev_queue_table_remove`: unlinks and frees the first (newest) entry
     * for `dev`, if any; every other entry stays where it was.
     */
    method Remove(dev: DevId, log: FreeLog)
      requires Valid()
      modifies buckets, log
      ensures buckets[HashFunc(dev)] == RemoveFirst(old(buckets[HashFunc(dev)]), dev)
      ensures forall i :: 0 <= i < buckets.Length && i != HashFunc(dev) ==> buckets[i] == old(buckets[i])
      ensures var e := old(Find(Bucket(dev), dev));
        log.freed == old(log.freed) + (if e == null then [] else [e])
    {
      var h := HashFunc(dev);
      var b := buckets[h];
      var k := 0;
      while k < |b|
        invariant 0 <= k <= |b|
        invariant forall j :: 0 <= j < k ==> b[j].dev != dev
      {
        if b[k].dev == dev {
          buckets[h] := b[..k] + b[k + 1..];
          log.freed := log.freed + [b[k]];
          return;
        }
        k := k + 1;
      }
    }

    /** `dev_queue_table_clear`: unlinks and frees every entry, bucket by bucket, each bucket head first. */
    method Clear(log: FreeLog)
      requires Valid()
      modifies buckets, log
      ensures forall i :: 0 <= i < buckets.Length ==> buckets[i] == []
      ensures log.freed == old(log.freed) + Flatten(old(buckets[..]))
    {
      ghost var bs := buckets[..];
      for i := 0 to DEV_QUEUE_TABLE_SIZE
        invariant forall j :: 0 <= j < i ==> buckets[j] == []
        invariant forall j :: i <= j < buckets.Length ==> buckets[j] == bs[j]
        invariant log.freed == old(log.freed) + Flatten(bs[..i])
      {
        ghost var b := buckets[i];
        ghost var k := 0;
        while buckets[i] != []
          invariant 0 <= k <= |b| && buckets[i] == b[k..]
          invariant forall j :: 0 <= j < i ==> buckets[j] == []
          invariant forall j :: i < j < buckets.Length ==> buckets[j] == bs[j]
          invariant log.freed == old(log.freed) + Flatten(bs[..i]) + b[..k]
          decreases |buckets[i]|
        {
          var e := buckets[i][0];
          buckets[i] := buckets[i][1..];
          log.freed := log.freed + [e];
          assert b[..k + 1] == b[..k] + [b[k]];
          k := k + 1;
        }
        assert b[..k] == b;
        assert bs[..i + 1][..i] == bs[..i];
      }
      assert bs[..DEV_QUEUE_TABLE_SIZE] == bs;
    }
  }

  /** A new head either matches or passes the walk on to the old bucket. */
  lemma FindPastHead(e: DevQueueEntry, b: seq<DevQueueEntry>, dev: DevId)
    requires e.dev != dev
    ensures Find([e] + b, dev) == Find(b, dev)
  {
    assert ([e] + b)[1..] == b;
  }

  /** Inserting an entry for `dev` and then removing `dev` restores the bucket. */
  lemma {:induction false} RemoveAfterInsert(e: DevQueueEntry, b: seq<DevQueueEntry>)
    ensures RemoveFirst([e] + b, e.dev) == b
  {
    assert FindIndex([e] + b, e.dev) == 0;
    assert ([e] + b)[1..] == b;
  }

  /** Removing `dev` changes no lookup of another device. */
  lemma {:induction false} RemoveKeepsOthers(b: seq<DevQueueEntry>, dev: DevId, d: DevId)
    requires d != dev
    ensures Find(RemoveFirst(b, dev), d) == Find(b, d)
  {
    var k := FindIndex(b, dev);
    if k < |b| {
      UnlinkShiftsIndex(b, k, d);
    }
  }

  /**
   * Unlinking entry k of another device keeps the first match for `d`: the
   * same entry, one place lower when it lay past k.
   */
  lemma {:induction false} UnlinkShiftsIndex(b: seq<DevQueueEntry>, k: nat, d: DevId)
    requires k < |b| && b[k].dev != d
    ensures var r := b[..k] + b[k + 1..];
            var kd := FindIndex(b, d);
            FindIndex(r, d) == (if kd < k then kd else kd - 1)
            && (kd < |b| ==> r[FindIndex(r, d)] == b[kd])
  {
    var r := b[..k] + b[k + 1..];
    if k == 0 {
      assert r == b[1..];
    } else {
      assert r[0] == b[0];
      if b[0].dev != d {
        var t := b[1..];
        UnlinkShiftsIndex(t, k - 1, d);
        assert r[1..] == t[..k - 1] + t[k..];
      }
    }
  }

  /** A bucket with one entry per device no longer finds `dev` once it is removed. */
  lemma {:induction false} RemoveUnique(b: seq<DevQueueEntry>, dev: DevId)
    requires forall i, j :: 0 <= i < j < |b| && b[i].dev == dev ==> b[j].dev != dev
    ensures Find(RemoveFirst(b, dev), dev) == null
  {
    var k := FindIndex(b, dev);
    if k < |b| {
      var r := b[..k] + b[k + 1..];
      forall j | 0 <= j < |r|
        ensures r[j].dev != dev
      {
        if j >= k {
          assert r[j] == b[j + 1];
        }
      }
    }
  }

  /** The walk stops at `k` when `k` is the first match. */
  lemma FindIndexAt(b: seq<DevQueueEntry>, dev: DevId, k: nat)
    requires k < |b| && b[k].dev == dev
    requires forall j :: 0 <= j < k ==> b[j].dev != dev
    ensures FindIndex(b, dev) == k
  {
  }

  // ---------------------------------------------------------------------
  // Offset table
  // ---------------------------------------------------------------------

  /** `struct offset_queue_entry`, stored by value in the table's array. */
  datatype OffsetEntry = OffsetEntry(dev: DevId, queue: XspQueue.Queue?)

  /** `loff_t`. */
  type Loff = x: int | -0x8000_0000_0000_0000 <= x < 0x8000_0000_0000_0000

  /**
   * `offset_to_index`: the arithmetic shift of a signed offset by
   * PAGE_SHIFT, reinterpreted as u64.  A non-negative offset names the page
   * it falls in; a negative one names an index of at least 2^64 - 2^51.
   */
  function OffsetToIndex(offset: Loff): (index: u64)
    ensures offset >= 0 ==> index * PAGE_SIZE <= offset < index * PAGE_SIZE + PAGE_SIZE
    ensures offset < 0 ==> index >= U64_MOD - 0x8_0000_0000_0000
  {
    (offset / PAGE_SIZE) % U64_MOD
  }

  /** Page `k` of the mapping space, at any byte within the page, leads back to index `k`. */
  lemma OffsetIndexRoundTrip(k: nat, r: nat)
    requires r < PAGE_SIZE && k * PAGE_SIZE + r < 0x8000_0000_0000_0000
    ensures OffsetToIndex(k * PAGE_SIZE + r) == k
  {
    var i := OffsetToIndex(k * PAGE_SIZE + r);
    assert i * PAGE_SIZE <= k * PAGE_SIZE + r < i * PAGE_SIZE + PAGE_SIZE;
  }

  /** `struct offset_queue_table`. */
  class OffsetQueueTable {
    var nextIndex: nat
    var queueCapacity: nat
    var queueNum: nat
    var queueArray: array?<OffsetEntry>

    /** A usable table: the entry array exists, spans the capacity, and holds `queueNum` entries. */
    ghost predicate Valid()
      reads this
    {
      queueArray != null && queueArray.Length == queueCapacity && 0 < queueCapacity
      && queueNum <= queueCapacity
    }

    /** The registered entries, by index. */
    ghost function Entries(): (es: seq<OffsetEntry>)
      reads this, queueArray
      requires Valid()
      ensures |es| == queueNum
    {
      queueArray[..queueNum]
    }

    /** The table as it sits in zeroed static storage, before init. */
    constructor ()
      ensures nextIndex == 0 && queueCapacity == 0 && queueNum == 0 && queueArray == null
    {
      nextIndex, queueCapacity, queueNum, queueArray := 0, 0, 0, null;
    }

    /**
     * `offset_queue_table_init`: capacity 4096 and no entries.  When the
     * array cannot be allocated (`allocOk` false) it returns -1, the array
     * is NULL and the index counter is not reset.
     */
    method Init(allocOk: bool) returns (r: int)
      modifies this
      ensures queueCapacity == OFFSET_TABLE_CAPACITY && queueNum == 0
      ensures r == 0 <==> allocOk
      ensures allocOk ==> Valid() && fresh(queueArray) && Entries() == [] && nextIndex == 0
      ensures !allocOk ==> r == -1 && queueArray == null && nextIndex == old(nextIndex)
    {
      queueCapacity := OFFSET_TABLE_CAPACITY;
      queueNum := 0;
      if !allocOk {
        queueArray := null;
        return -1;
      }
      queueArray := new OffsetEntry[OFFSET_TABLE_CAPACITY](_ => OffsetEntry(0, null));
      nextIndex := 0;
      return 0;
    }

    /**
     * `offset_queue_fetch_next`: claims the next `n` page indices.  The
     * claimed range starts where the previous claim ended and the counter
     * moves exactly past it, so successive claims are disjoint and leave no gap.
     */
    method FetchNext(n: nat) returns (offset: int)
      modifies this`nextIndex
      ensures offset == old(nextIndex) * PAGE_SIZE
      ensures nextIndex * PAGE_SIZE == offset + n * PAGE_SIZE
    {
      offset := nextIndex * PAGE_SIZE;
      nextIndex := nextIndex + n;
    }

    /**
     * `offset_queue_table_insert`: the `offset` argument is not used; the
     * entry goes to index `queueNum`.  A full table first moves to a fresh
     * array of twice the capacity, copying every entry to the same index
     * and freeing the old array; when that allocation fails the table is
     * untouched and -1 is returned.
     */
    method Insert(offset: Loff, dev: DevId, queue: XspQueue.Queue?, allocOk: bool, log: FreeLog)
      returns (r: int)
      requires Valid()
      modifies this, queueArray, log
      ensures Valid() && nextIndex == old(nextIndex)
      ensures r == 0 || r == -1
      ensures r == -1 <==> old(queueNum) == old(queueCapacity) && !allocOk
      ensures r == -1 ==>
        queueArray == old(queueArray) && queueNum == old(queueNum) && queueCapacity == old(queueCapacity)
        && Entries() == old(Entries()) && log.freed == old(log.freed)
      ensures r == 0 ==> Entries() == old(Entries()) + [OffsetEntry(dev, queue)]
      ensures r == 0 && old(queueNum) < old(queueCapacity) ==>
        queueArray == old(queueArray) && queueCapacity == old(queueCapacity) && log.freed == old(log.freed)
      ensures r == 0 && old(queueNum) == old(queueCapacity) ==>
        fresh(queueArray) && queueCapacity == 2 * old(queueCapacity)
        && log.freed == old(log.freed) + [old(queueArray)]
    {
      if queueNum == queueCapacity {
        if !allocOk {
          return -1;
        }
        var newArray := new OffsetEntry[2 * queueCapacity](_ => OffsetEntry(0, null));
        var old_ := queueArray;
        for i := 0 to queueCapacity
          invariant forall j :: 0 <= j < i ==> newArray[j] == old_[j]
          modifies newArray
        {
          newArray[i] := old_[i];
        }
        log.freed := log.freed + [old_];
        queueArray := newArray;
        queueCapacity := 2 * queueCapacity;
      }
      var idx := queueNum;
      queueNum := queueNum + 1;
      queueArray[idx] := OffsetEntry(dev, queue);
      return 0;
    }

    /**
     * `offset_queue_table_lookup`: the entry at index
     * `OffsetToIndex(offset)`, or NULL when no entry has that index.
     */
    function Lookup(offset: Loff): (r: Option<OffsetEntry>)
      reads this, queueArray
      requires queueArray != null && queueNum <= queueArray.Length
      ensures r.None? <==> OffsetToIndex(offset) >= queueNum
      ensures r.Some? ==> r.value == queueArray[OffsetToIndex(offset)]
    {
      var index := OffsetToIndex(offset);
      if index >= queueNum then None else Some(queueArray[index])
    }

    /** `offset_queue_table_clear`: frees the array if there is one and empties the table. */
    method Clear(log: FreeLog)
      modifies this, log
      ensures queueArray == null && queueNum == 0 && queueCapacity == 0 && nextIndex == old(nextIndex)
      ensures log.freed == old(log.freed) + (if old(queueArray) == null then [] else [old(queueArray)])
    {
      if queueArray != null {
        log.freed := log.freed + [queueArray];
        queueArray := null;
      }
      queueNum := 0;
      queueCapacity := 0;
    }
  }

  /**
   * Every registered entry can be reached through its own page: any offset
   * inside page `k` looks up entry `k`.
   */
  lemma LookupInserted(t: OffsetQueueTable, k: nat, r: nat)
    requires t.Valid() && k < t.queueNum && r < PAGE_SIZE
    requires k * PAGE_SIZE + r < 0x8000_0000_0000_0000
    ensures t.Lookup(k * PAGE_SIZE + r) == Some(t.Entries()[k])
  {
    OffsetIndexRoundTrip(k, r);
  }

  /** A negative offset never names a registered entry. */
  lemma NegativeOffsetMisses(t: OffsetQueueTable, offset: Loff)
    requires t.Valid() && offset < 0 && t.queueNum <= U64_MOD - 0x8_0000_0000_0000
    ensures t.Lookup(offset) == None
  {
  }

  // ---------------------------------------------------------------------
  // Pointer vector
  // ---------------------------------------------------------------------

  /** `struct ptr_vector`: `size` pointers stored at the front of a `capacity`-slot buffer. */
  class PtrVector {
    var data: array?<u64>
    var size: nat
    var capacity: nat

    /** An initialised vector. */
    ghost predicate Valid()
      reads this
    {
      data != null && data.Length == capacity && 0 < capacity && size <= capacity
    }

    /** The stored pointers, in insertion order. */
    ghost function Contents(): (s: seq<u64>)
      reads this, data
      requires Valid()
      ensures |s| == size
    {
      data[..size]
    }

    /** The vector as it sits in zeroed storage, before init. */
    constructor ()
      ensures data == null && size == 0 && capacity == 0
    {
      data, size, capacity := null, 0, 0;
    }

    /**
     * `vector_init`: an empty vector of INITIAL_CAPACITY slots, or -ENOMEM
     * with only the buffer pointer (now NULL) changed.
     */
    method Init(allocOk: bool) returns (err: int)
      modifies this
      ensures err == 0 <==> allocOk
      ensures allocOk ==> Valid() && fresh(data) && Contents() == [] && capacity == INITIAL_CAPACITY
      ensures !allocOk ==> err == -ENOMEM && data == null && size == old(size) && capacity == old(capacity)
    {
      if !allocOk {
        data := null;
        return -ENOMEM;
      }
      data := new u64[INITIAL_CAPACITY];
      size := 0;
      capacity := INITIAL_CAPACITY;
      return 0;
    }

    /**
     * `vector_insert`: appends `value`.  A full vector first grows to twice
     * its capacity, keeping its contents (`reallocOk` is the outcome of
     * `krealloc`, which moves them to a fresh buffer and frees the old
     * one); when that fails -ENOMEM is returned and nothing changes.
     */
    method Insert(value: u64, reallocOk: bool, log: FreeLog) returns (err: int)
      requires Valid()
      modifies this, data, log
      ensures Valid()
      ensures old(size) == old(capacity) && err == 0 ==>
                fresh(data) && log.freed == old(log.freed) + [old(data)]
      ensures (old(size) < old(capacity) || err != 0) ==> data == old(data) && log.freed == old(log.freed)
      ensures err == 0 || err == -ENOMEM
      ensures err == -ENOMEM <==> old(size) == old(capacity) && !reallocOk
      ensures err == 0 ==> Contents() == old(Contents()) + [value]
      ensures err == 0 ==> capacity == if old(size) == old(capacity) then 2 * old(capacity) else old(capacity)
      ensures err != 0 ==> data == old(data) && Contents() == old(Contents()) && capacity == old(capacity)
    {
      if size == capacity {
        if !reallocOk {
          return -ENOMEM;
        }
        var kept := data[..];
        var newCapacity := 2 * capacity;
        log.freed := log.freed + [data];
        data := new u64[newCapacity](i requires 0 <= i < newCapacity => if i < |kept| then kept[i] else 0);
        capacity := newCapacity;
        assert data[..size] == kept[..size];
      }
      data[size] := value;
      size := size + 1;
      return 0;
    }

    /** `vector_clear`: frees the buffer (`kfree(NULL)` frees nothing) and empties the vector. */
    method Clear(log: FreeLog)
      modifies this, log
      ensures data == null && size == 0 && capacity == 0
      ensures log.freed == old(log.freed) + (if old(data) == null then [] else [old(data)])
    {
      if data != null {
        log.freed := log.freed + [data];
      }
      data := null;
      size := 0;
      capacity := 0;
    }
  }
}

=== FILE: queue_array.dfy ===
/**
 * A shard set of XSP rings (`struct queue_array`): `size` rings of
 * QUEUE_ENTRY_NUM entries each, created all together or not at all, and the
 * list (`struct queue_array_list`) in which every shard set created by a
 * bind is kept until teardown.
 *
 * FreeLog records every `kfree`/`vfree`, so the contracts can say which
 * objects are released, how often and in which order.
 */
module QueueArray {
  import opened Bits
  import opened Kernel
  import XspQueue

  const QUEUE_ENTRY_NUM: u32 := 4096

  /** What `xspq_destroy` frees for each slot of `qs`, in order: ring buffer then queue; NULL slots free nothing. */
  function RingsFreed(qs: seq<XspQueue.Queue?>): seq<object>
  {
    if qs == [] then []
    else
      var last := qs[|qs| - 1];
      RingsFreed(qs[..|qs| - 1]) + (if last == null then [] else [last.ring, last])
  }

  class QueueArray {
    const size: nat
    /** The `queue[]` flexible array that follows `size` in the same allocation. */
    const queue: array<XspQueue.Queue?>

    /** `size` distinct, valid rings of QUEUE_ENTRY_NUM entries. */
    ghost predicate Valid()
      reads this, queue
    {
      queue.Length == size
      && (forall i :: 0 <= i < size ==>
            queue[i] != null && queue[i].Valid() && queue[i].nentries == QUEUE_ENTRY_NUM)
      && (forall i, j :: 0 <= i < j < size ==> queue[i] != queue[j])
    }

    /** The shard set header over an already filled ring array. */
    constructor (size: nat, queue: array<XspQueue.Queue?>)
      requires queue.Length == size
      requires forall i :: 0 <= i < size ==>
                 queue[i] != null && queue[i].Valid() && queue[i].nentries == QUEUE_ENTRY_NUM
      requires forall i, j :: 0 <= i < j < size ==> queue[i] != queue[j]
      ensures this.size == size && this.queue == queue && Valid()
    {
      this.size := size;
      this.queue := queue;
    }

    /** `queue[i]` of a valid shard set, never NULL. */
    function At(i: nat): (q: XspQueue.Queue)
      reads this, queue
      requires Valid() && i < size
      ensures q == queue[i] && q.Valid() && q.nentries == QUEUE_ENTRY_NUM
    {
      queue[i]
    }

    /** The rings in index order, the order FOR_EACH_QUEUE visits them. */
    ghost function Rings(): (qs: seq<XspQueue.Queue?>)
      reads this, queue
      requires size <= queue.Length
      ensures |qs| == size
    {
      queue[..size]
    }
  }

  lemma EntryNumIsPowerOfTwo()
    ensures IsPowerOfTwo(QUEUE_ENTRY_NUM)
  {
    assert Pow2(3) == 8;
    Pow2Add(3, 3);
    Pow2Add(6, 6);
    PowerOfTwoValue(QUEUE_ENTRY_NUM, 12);
  }

  /**
   * The first index below `size` whose ring cannot be created (its
   * `kzalloc` or its `vmalloc_user` fails), or `size` if every ring can be.
   */
  function FirstFailure(size: nat, kzallocOk: nat -> bool, vmallocOk: nat -> bool): (f: nat)
    ensures f <= size
    ensures forall i :: 0 <= i < f ==> kzallocOk(i) && vmallocOk(i)
    ensures f < size ==> !(kzallocOk(f) && vmallocOk(f))
  {
    FirstFailureFrom(0, size, kzallocOk, vmallocOk)
  }

  function FirstFailureFrom(i: nat, size: nat, kzallocOk: nat -> bool, vmallocOk: nat -> bool): (f: nat)
    requires i <= size
    ensures i <= f <= size
    ensures forall j :: i <= j < f ==> kzallocOk(j) && vmallocOk(j)
    ensures f < size ==> !(kzallocOk(f) && vmallocOk(f))
    decreases size - i
  {
    if i == size then size
    else if !(kzallocOk(i) && vmallocOk(i)) then i
    else FirstFailureFrom(i + 1, size, kzallocOk, vmallocOk)
  }

  /** The scan stops at the first failing index and nowhere else. */
  lemma {:induction false} FirstFailureAt(i: nat, size: nat, kzallocOk: nat -> bool, vmallocOk: nat -> bool, k: nat)
    requires i <= k < size && !(kzallocOk(k) && vmallocOk(k))
    requires forall j :: i <= j < k ==> kzallocOk(j) && vmallocOk(j)
    ensures FirstFailureFrom(i, size, kzallocOk, vmallocOk) == k
    decreases k - i
  {
    if i < k {
      FirstFailureAt(i + 1, size, kzallocOk, vmallocOk, k);
    }
  }

  /** A ring as `xspq_create` hands it out: valid, of `entries` slots and the matching buffer size, all cursors at 0. */
  ghost predicate NewRing(q: XspQueue.Queue, entries: u32)
    reads q, q.ring
  {
    q.Valid() && q.nentries == entries && q.ringVmallocSize == XspQueue.RingVmallocSize(entries) && q.Pristine()
  }

  /**
   * `queue_array_create`: one allocation for the header and the ring
   * pointers, then `size` rings created in index order.  When ring
   * `FirstFailure` cannot be created, exactly the rings made before it are
   * destroyed, in index order, the block is freed and NULL returned.
   * `blockOk` is the outcome of the block allocation; ring `i` is created
   * when both of its allocations, `kzallocOk(i)` and `vmallocOk(i)`, succeed.
   */
  method Create(size: nat, blockOk: bool, kzallocOk: nat -> bool, vmallocOk: nat -> bool, log: FreeLog)
    returns (qa: QueueArray?, ghost block: array?<XspQueue.Queue?>, ghost made: seq<XspQueue.Queue>)
    modifies log
    ensures qa != null <==> blockOk && FirstFailure(size, kzallocOk, vmallocOk) == size
    ensures qa != null ==>
              fresh(qa) && fresh(qa.queue) && qa.Valid() && qa.size == size && qa.queue[..] == made
              && (forall i :: 0 <= i < size ==> fresh(made[i]) && fresh(made[i].ring))
              && (forall i :: 0 <= i < size ==> NewRing(made[i], QUEUE_ENTRY_NUM))
              && log.freed == old(log.freed)
    ensures !blockOk ==> qa == null && log.freed == old(log.freed)
    ensures blockOk && qa == null ==>
              block != null && fresh(block)
              && |made| == FirstFailure(size, kzallocOk, vmallocOk)
              && (forall i :: 0 <= i < |made| ==> fresh(made[i]))
              && log.freed == old(log.freed) + RingsFreed(made) + [block]
  {
    if !blockOk {
      return null, null, [];
    }
    // kzalloc's zero fill is never observed: MakeRings writes each slot before it is read
    var arr := new XspQueue.Queue?[size];
    block := arr;
    var cur;
    EntryNumIsPowerOfTwo();
    cur, made := MakeRings(arr, QUEUE_ENTRY_NUM, kzallocOk, vmallocOk);
    if cur == size {
      FilledRingsValid(arr, made);
      qa := new QueueArray(size, arr);
      return qa, arr, made;
    }
    FirstFailureAt(0, size, kzallocOk, vmallocOk, cur);
    // err: destroy the rings made so far, then the block
    Unwind(arr, cur, made, log);
    qa := null;
  }

  /** An array filled with distinct new rings holds what QueueArray.Valid asks of every slot. */
  lemma FilledRingsValid(arr: array<XspQueue.Queue?>, made: seq<XspQueue.Queue>)
    requires arr[..] == made
    requires forall i :: 0 <= i < |made| ==> NewRing(made[i], QUEUE_ENTRY_NUM)
    requires forall i, j :: 0 <= i < j < |made| ==> made[i] != made[j]
    ensures forall i :: 0 <= i < arr.Length ==>
              arr[i] != null && arr[i].Valid() && arr[i].nentries == QUEUE_ENTRY_NUM
    ensures forall i, j :: 0 <= i < j < arr.Length ==> arr[i] != arr[j]
  {
    forall i | 0 <= i < arr.Length
      ensures arr[i] == made[i]
    {
      assert arr[..][i] == arr[i];
    }
  }

  /** The creation loop of `queue_array_create`: fills `arr` in index order until a ring cannot be created. */
  method MakeRings(arr: array<XspQueue.Queue?>, entries: u32, kzallocOk: nat -> bool, vmallocOk: nat -> bool)
    returns (cur: nat, ghost made: seq<XspQueue.Queue>)
    requires IsPowerOfTwo(entries)
    modifies arr
    ensures cur <= arr.Length && |made| == cur && arr[..cur] == made
    ensures forall i :: 0 <= i < cur ==> kzallocOk(i) && vmallocOk(i)
    ensures cur < arr.Length ==> !(kzallocOk(cur) && vmallocOk(cur))
    ensures forall i :: 0 <= i < cur ==> fresh(made[i]) && fresh(made[i].ring) && NewRing(made[i], entries)
    ensures forall i, j :: 0 <= i < j < cur ==> made[i] != made[j]
  {
    cur := 0;
    made := [];
    while cur < arr.Length
      invariant 0 <= cur <= arr.Length && |made| == cur && arr[..cur] == made
      invariant forall i :: 0 <= i < cur ==> kzallocOk(i) && vmallocOk(i)
      invariant forall i :: 0 <= i < cur ==> fresh(made[i]) && fresh(made[i].ring)
      invariant forall i :: 0 <= i < cur ==> NewRing(made[i], entries)
      invariant forall i, j :: 0 <= i < j < cur ==> made[i] != made[j]
    {
      var q := XspQueue.Create(entries, kzallocOk(cur), vmallocOk(cur));
      arr[cur] := q;
      if q == null {
        return;
      }
      made := made + [q];
      cur := cur + 1;
    }
  }

  /**
   * The `err` path of `queue_array_create`: destroys the first `cur` rings,
   * in index order, then frees the block.
   */
  method Unwind(arr: array<XspQueue.Queue?>, cur: nat, ghost made: seq<XspQueue.Queue>, log: FreeLog)
    requires cur <= arr.Length && arr[..cur] == made
    modifies log
    ensures log.freed == old(log.freed) + RingsFreed(made) + [arr]
  {
    var i := 0;
    while i < cur
      invariant 0 <= i <= cur
      invariant log.freed == old(log.freed) + RingsFreed(made[..i])
    {
      XspQueue.Destroy(arr[i], log);
      assert made[..i + 1][..i] == made[..i];
      i := i + 1;
    }
    assert made[..cur] == made;
    log.freed := log.freed + [arr];
  }

  /** `queue_array_destroy`: destroys each of the `size` rings once, in index order, then frees the block. */
  method Destroy(qa: QueueArray, log: FreeLog)
    requires qa.size <= qa.queue.Length
    modifies log
    ensures log.freed == old(log.freed) + RingsFreed(qa.Rings()) + [qa.queue]
  {
    var i := 0;
    while i < qa.size
      invariant 0 <= i <= qa.size
      invariant log.freed == old(log.freed) + RingsFreed(qa.queue[..i])
    {
      XspQueue.Destroy(qa.queue[i], log);
      assert qa.queue[..i + 1][..i] == qa.queue[..i];
      i := i + 1;
    }
    log.freed := log.freed + [qa.queue];
  }

  /** One node of the list (`struct queue_array_list_entry`). */
  class ListEntry {
    const queue: QueueArray

    constructor (queue: QueueArray)
      ensures this.queue == queue
    {
      this.queue := queue;
    }
  }

  /** What tearing down one list node frees, in order: its shard set's rings, the set's block, the node. */
  ghost function Piece(e: ListEntry): seq<object>
    reads e.queue, e.queue.queue
    requires e.queue.size <= e.queue.queue.Length
  {
    RingsFreed(e.queue.Rings()) + [e.queue.queue, e]
  }

  /** What tearing down the shard sets of `es` frees, node by node in list order. */
  ghost function ArraysFreed(es: seq<ListEntry>): seq<object>
    reads set i | 0 <= i < |es| :: es[i].queue
    reads set i | 0 <= i < |es| :: es[i].queue.queue
    requires forall i :: 0 <= i < |es| ==> es[i].queue.size <= es[i].queue.queue.Length
  {
    Concat(Pieces(es))
  }

  /** `struct queue_array_list`: the shard sets registered so far, oldest first. */
  class QueueArrayList {
    var entries: seq<ListEntry>

    /** Every registered shard set can be walked. */
    ghost predicate Valid()
      reads this, set i | 0 <= i < |entries| :: entries[i].queue
    {
      forall i :: 0 <= i < |entries| ==> entries[i].queue.size <= entries[i].queue.queue.Length
    }

    /** `queue_array_list_init`: an empty list. */
    constructor ()
      ensures entries == []
    {
      entries := [];
    }

    /** The registered shard sets, oldest first. */
    ghost function Arrays(): (qs: seq<QueueArray>)
      reads this
      ensures |qs| == |entries|
    {
      seq(|entries|, i requires 0 <= i < |entries| reads this => entries[i].queue)
    }

    /**
     * `queue_array_list_insert`: appends `qa` at the tail; when the node
     * cannot be allocated (`entryOk` false) the list is unchanged.
     */
    method Insert(qa: QueueArray, entryOk: bool)
      modifies this
      ensures entryOk ==> Arrays() == old(Arrays()) + [qa] && fresh(entries[|entries| - 1])
      ensures entryOk ==> entries[..|entries| - 1] == old(entries)
      ensures !entryOk ==> entries == old(entries)
    {
      if !entryOk {
        return;
      }
      var entry := new ListEntry(qa);
      entries := entries + [entry];
    }

    /**
     * `queue_array_list_destroy`: detaches every node, then destroys each
     * registered shard set exactly once, in insertion order, freeing its
     * node after it.  The list is left empty.
     */
    method DestroyAll(log: FreeLog)
      requires Valid()
      modifies this, log
      ensures entries == []
      ensures log.freed == old(log.freed) + ArraysFreed(old(entries))
    {
      ghost var pieces := Pieces(entries);
      PiecesSpec(entries);
      var toFree := entries;
      entries := [];
      DestroyEach(toFree, pieces, log);
    }
  }

  /** The second walk of `queue_array_list_destroy`: each detached node's shard set, then the node, in order. */
  method DestroyEach(es: seq<ListEntry>, ghost pieces: seq<seq<object>>, log: FreeLog)
    requires forall k :: 0 <= k < |es| ==> es[k].queue.size <= es[k].queue.queue.Length
    requires |pieces| == |es| && forall k :: 0 <= k < |es| ==> pieces[k] == Piece(es[k])
    modifies log
    ensures log.freed == old(log.freed) + Concat(pieces)
  {
    var i := 0;
    while i < |es|
      invariant 0 <= i <= |es|
      invariant log.freed == old(log.freed) + Concat(pieces[..i])
    {
      DestroyNode(es[i], log);
      ConcatStep(pieces, i);
      i := i + 1;
    }
    assert pieces[..|es|] == pieces;
  }

  /** Sequences laid end to end. */
  function Concat(ps: seq<seq<object>>): seq<object>
  {
    if ps == [] then [] else Concat(ps[..|ps| - 1]) + ps[|ps| - 1]
  }

  /** One node of the second walk: its shard set is destroyed, then the node itself is freed. */
  method DestroyNode(e: ListEntry, log: FreeLog)
    requires e.queue.size <= e.queue.queue.Length
    modifies log
    ensures log.freed == old(log.freed) + Piece(e)
  {
    Destroy(e.queue, log);
    log.freed := log.freed + [e];
  }

  lemma ConcatStep(ps: seq<seq<object>>, i: nat)
    requires i < |ps|
    ensures Concat(ps[..i + 1]) == Concat(ps[..i]) + ps[i]
  {
    assert ps[..i + 1][..i] == ps[..i];
  }

  /** The pieces of each node of `es`, in order. */
  ghost function Pieces(es: seq<ListEntry>): seq<seq<object>>
    reads set i | 0 <= i < |es| :: es[i].queue
    reads set i | 0 <= i < |es| :: es[i].queue.queue
    requires forall i :: 0 <= i < |es| ==> es[i].queue.size <= es[i].queue.queue.Length
  {
    if es == [] then [] else Pieces(es[..|es| - 1]) + [Piece(es[|es| - 1])]
  }

  lemma {:induction false} PiecesSpec(es: seq<ListEntry>)
    requires forall i :: 0 <= i < |es| ==> es[i].queue.size <= es[i].queue.queue.Length
    ensures |Pieces(es)| == |es| && forall k :: 0 <= k < |es| ==> Pieces(es)[k] == Piece(es[k])
  {
    if es != [] {
      var n := |es| - 1;
      PiecesSpec(es[..n]);
      assert forall k :: 0 <= k < n ==> es[..n][k] == es[k];
    }
  }
}

=== FILE: ring.dfy ===
/**
 * The single-producer/single-consumer ring shared with user space, common
 * to `struct xsp_ring` and `struct xdp_ring`: a header holding the shared
 * `producer` and `consumer` cursors, `nentries` and `flag`, followed by
 * `nentries` u64 descriptor slots.  Cursors are free-running u32 values;
 * cursor c lives in slot `c & (nentries - 1)`.
 *
 * The FIFO that the protocol maintains is a Window: the slots of the
 * cursors from, from + 1, ..., from + count - 1, taken modulo 2^32.
 */
module Ring {
  import opened Bits

  class SharedRing {
    var producer: u32
    var consumer: u32
    var nentries: u32
    var flag: u32
    const desc: array<u64>

    /** A zero-filled ring buffer as `vmalloc_user` hands it out, with its header filled in. */
    constructor (nentries: u32, flag: u32)
      ensures producer == 0 && consumer == 0
      ensures this.nentries == nentries && this.flag == flag
      ensures fresh(desc) && desc.Length == nentries
      ensures forall i :: 0 <= i < desc.Length ==> desc[i] == 0
    {
      producer, consumer := 0, 0;
      this.nentries, this.flag := nentries, flag;
      desc := new u64[nentries](_ => 0);
    }

    /** The published, not yet released entries, oldest first. */
    ghost function Published(): (s: seq<u64>)
      reads this, desc
      requires desc.Length > 0
      ensures |s| == Sub32(producer, consumer)
    {
      Window(desc[..], consumer, Sub32(producer, consumer))
    }
  }

  /** The descriptors at cursors from, from + 1, ..., from + count - 1. */
  function Window(d: seq<u64>, from: u32, count: nat): (w: seq<u64>)
    requires |d| > 0
    ensures |w| == count
  {
    seq(count, i requires 0 <= i < count => d[Add32(from, i) % |d|])
  }

  /** The room left in a ring of `nentries` when `prod - cons` entries are in flight, in u32 arithmetic. */
  function FreeEntries(nentries: u32, prod: u32, cons: u32): u32
  {
    Sub32(nentries, Sub32(prod, cons))
  }

  /**
   * Four cursors a, b, c, d met in this order when walking forward from a,
   * all within one lap of `n` entries.
   */
  predicate InOrder(a: u32, b: u32, c: u32, d: u32, n: int)
  {
    Sub32(b, a) <= Sub32(c, a) <= Sub32(d, a) <= n
  }

  /** The mask of a power-of-two ring picks the slot `cursor % nentries`. */
  lemma MaskedSlot(c: u32, n: nat)
    requires IsPowerOfTwo(n)
    ensures And(c, n - 1) == c % n
  {
    var k := PowerOfTwoLog(n);
    MaskIsMod(c, k);
  }

  lemma AddAdd32(x: u32, a: int, b: int)
    ensures Add32(Add32(x, a), b) == Add32(x, a + b)
  {
    var m := U32_MOD;
    var y := (x + a) % m;
    assert x + a == m * ((x + a) / m) + y;
    ModUnique(x + a + b, m, (x + a) / m + (y + b) / m, (y + b) % m);
  }

  /** A window splits into two adjacent windows at any point, across the 2^32 wrap. */
  lemma WindowSplit(d: seq<u64>, from: u32, a: nat, b: nat)
    requires |d| > 0
    ensures Window(d, from, a + b) == Window(d, from, a) + Window(d, Add32(from, a), b)
  {
    var lhs := Window(d, from, a + b);
    var rhs := Window(d, from, a) + Window(d, Add32(from, a), b);
    forall i | a <= i < a + b
      ensures lhs[i] == rhs[i]
    {
      AddAdd32(from, a, i - a);
    }
  }

  /** Writing the slot of a cursor at most one lap ahead leaves a window that stops short of it alone. */
  lemma WindowKeep(d: seq<u64>, from: u32, count: nat, c: nat, v: u64)
    requires IsPowerOfTwo(|d|) && |d| <= U32_MOD && count <= c < |d|
    ensures Window(d[Add32(from, c) % |d| := v], from, count) == Window(d, from, count)
  {
    var d' := d[Add32(from, c) % |d| := v];
    forall i | 0 <= i < count
      ensures Window(d', from, count)[i] == Window(d, from, count)[i]
    {
      SlotsDiffer(from, i, c, |d|);
    }
  }

  /** Cursors fewer than `n` apart sit in different slots of a power-of-two ring of `n`. */
  lemma SlotsDiffer(from: u32, i: nat, c: nat, n: nat)
    requires IsPowerOfTwo(n) && n <= U32_MOD && i < c < n
    ensures Add32(from, i) % n != Add32(from, c) % n
  {
    assert Add32(from, i) % n == (from + i) % n by { WrapKeepsSlot(from + i, n); }
    assert Add32(from, c) % n == (from + c) % n by { WrapKeepsSlot(from + c, n); }
    ModDistinct(from, i, c, n);
  }

  /** Writing the slot of the cursor just past a window of fewer than `nentries` entries appends to it. */
  lemma WindowPush(d: seq<u64>, from: u32, count: nat, v: u64)
    requires IsPowerOfTwo(|d|) && |d| <= U32_MOD && count < |d|
    ensures Window(d[Add32(from, count) % |d| := v], from, count + 1) == Window(d, from, count) + [v]
  {
    var d' := d[Add32(from, count) % |d| := v];
    var lhs := Window(d', from, count + 1);
    var rhs := Window(d, from, count) + [v];
    WindowKeep(d, from, count, count, v);
    forall i | 0 <= i < count + 1
      ensures lhs[i] == rhs[i]
    {
      if i < count {
        assert lhs[i] == Window(d', from, count)[i];
      }
    }
  }

  /**
   * The same write seen through a split window [from, from + a) ++ [from + a, from + a + b):
   * the first part is untouched and the second gains `v` at its end.
   */
  lemma WindowPushSplit(d: seq<u64>, from: u32, a: nat, b: nat, v: u64)
    requires IsPowerOfTwo(|d|) && |d| <= U32_MOD && a + b < |d|
    ensures Window(d[Add32(from, a + b) % |d| := v], from, a) == Window(d, from, a)
    ensures Window(d[Add32(from, a + b) % |d| := v], Add32(from, a), b + 1)
         == Window(d, Add32(from, a), b) + [v]
  {
    AddAdd32(from, a, b);
    WindowKeep(d, from, a, a + b, v);
    WindowPush(d, Add32(from, a), b, v);
  }

  /** Distances along the circle add up when b lies on the way from a to c. */
  lemma Between(a: u32, b: u32, c: u32)
    requires Sub32(b, a) <= Sub32(c, a)
    ensures Sub32(c, b) == Sub32(c, a) - Sub32(b, a)
    ensures Add32(a, Sub32(b, a)) == b
  {
  }

  /** Moving a cursor forward by k moves its distance from a by k, while it stays within a lap. */
  lemma Advance(a: u32, d: u32, k: nat)
    requires Sub32(d, a) + k < U32_MOD
    ensures Sub32(Add32(d, k), a) == Sub32(d, a) + k
  {
  }

  /** The window from a to c is the window from a to b followed by the window from b to c. */
  lemma WindowAt(d: seq<u64>, a: u32, b: u32, c: u32)
    requires |d| > 0 && Sub32(b, a) <= Sub32(c, a)
    ensures Window(d, a, Sub32(c, a)) == Window(d, a, Sub32(b, a)) + Window(d, b, Sub32(c, b))
  {
    Between(a, b, c);
    WindowSplit(d, a, Sub32(b, a), Sub32(c, b));
  }

  /**
   * A producer writing `v` at the slot of its private cursor `cp`, with at
   * least one slot free (cons ... prod ... cp spans fewer than |d| entries),
   * leaves the published window [cons, prod) alone and extends the
   * reserved window [prod, cp) by `v`.
   */
  lemma WindowReserve(d: seq<u64>, cons: u32, prod: u32, cp: u32, v: u64)
    requires IsPowerOfTwo(|d|) && |d| < U32_MOD
    requires Sub32(prod, cons) <= Sub32(cp, cons) < |d|
    ensures Window(d[cp % |d| := v], cons, Sub32(prod, cons)) == Window(d, cons, Sub32(prod, cons))
    ensures Window(d[cp % |d| := v], prod, Sub32(Add32(cp, 1), prod)) == Window(d, prod, Sub32(cp, prod)) + [v]
  {
    Between(cons, prod, cp);
    Between(cons, cp, cp);
    Advance(prod, cp, 1);
    WindowPushSplit(d, cons, Sub32(prod, cons), Sub32(cp, prod), v);
  }

  /**
   * One reservation as the producer sees it: with cursors in the order
   * cc, cons, prod, cp and a slot free even by the stale cc, writing `v` at cp and moving cp
   * one step keeps that order, leaves the published window alone and
   * appends `v` to the reserved one.
   */
  lemma ReserveStep(d: seq<u64>, cc: u32, cons: u32, prod: u32, cp: u32, v: u64)
    requires IsPowerOfTwo(|d|) && |d| < U32_MOD
    requires InOrder(cc, cons, prod, cp, |d|) && Sub32(cp, cc) < |d|
    ensures InOrder(cc, cons, prod, Add32(cp, 1), |d|)
    ensures Window(d[cp % |d| := v], cons, Sub32(prod, cons)) == Window(d, cons, Sub32(prod, cons))
    ensures Window(d[cp % |d| := v], prod, Sub32(Add32(cp, 1), prod)) == Window(d, prod, Sub32(cp, prod)) + [v]
  {
    Between(cc, cons, prod);
    Between(cc, cons, cp);
    WindowReserve(d, cons, prod, cp, v);
    Advance(cc, cp, 1);
    Advance(cons, cp, 1);
  }

  /**
   * A consumer at `cc` that reads `cnt` more of the published entries
   * [cons, prod) extends its read prefix by exactly those entries.
   */
  lemma ConsumeMore(d: seq<u64>, cons: u32, cc: u32, cnt: nat, prod: u32)
    requires |d| > 0 && Sub32(cc, cons) + cnt <= Sub32(prod, cons)
    ensures Sub32(Add32(cc, cnt), cons) == Sub32(cc, cons) + cnt
    ensures Window(d, cons, Sub32(Add32(cc, cnt), cons))
         == Window(d, cons, Sub32(cc, cons))
            + Window(d, cons, Sub32(prod, cons))[Sub32(cc, cons)..Sub32(cc, cons) + cnt]
  {
    var a := Sub32(cc, cons);
    Advance(cons, cc, cnt);
    var w := Window(d, cons, Sub32(prod, cons));
    assert Window(d, cons, a + cnt) == w[..a + cnt];
    assert Window(d, cons, a) == w[..a];
    assert w[..a + cnt] == w[..a] + w[a..a + cnt];
  }

  /**
   * A consumer at `cc`, between `cons` and `prod`, that takes `nb` more
   * entries cuts the published window [cons, prod) into what was read
   * before, the `nb` entries taken, and what is left after them.
   */
  lemma DrainWindow(d: seq<u64>, cons: u32, cc: u32, nb: nat, prod: u32)
    requires |d| > 0 && Sub32(cc, cons) <= Sub32(prod, cons) && nb <= Sub32(prod, cc)
    ensures Window(d, cons, Sub32(prod, cons))
         == Window(d, cons, Sub32(cc, cons)) + Window(d, cc, nb)
            + Window(d, Add32(cc, nb), Sub32(prod, Add32(cc, nb)))
  {
    WindowAt(d, cons, cc, prod);
    Advance(cc, cc, nb);
    WindowAt(d, cc, Add32(cc, nb), prod);
  }

  /**
   * The consumer side of one batch: with cursors in the order cons, cc,
   * cp, prod, taking `nb <= cp - cc` entries and then publishing the new
   * consumer keeps the order, and the published window splits into the
   * entries read before, the batch, and what the new window holds.
   */
  lemma ConsumeBatch(d: seq<u64>, cons: u32, cc: u32, cp: u32, prod: u32, nb: nat)
    requires |d| > 0 && InOrder(cons, cc, cp, prod, |d|) && nb <= Sub32(cp, cc)
    ensures InOrder(Add32(cc, nb), Add32(cc, nb), cp, prod, |d|)
    ensures Window(d, cons, Sub32(prod, cons))
         == Window(d, cons, Sub32(prod, cons))[..Sub32(cc, cons)] + Window(d, cc, nb)
            + Window(d, Add32(cc, nb), Sub32(prod, Add32(cc, nb)))
  {
    Between(cons, cc, cp);
    Between(cc, cp, prod);
    DrainWindow(d, cons, cc, nb, prod);
    Advance(cc, cc, nb);
    Between(cc, Add32(cc, nb), cp);
    Between(cc, Add32(cc, nb), prod);
    var w := Window(d, cons, Sub32(prod, cons));
    assert w[..Sub32(cc, cons)] == Window(d, cons, Sub32(cc, cons));
  }
}

=== FILE: user_queue.dfy ===
/**
 * The user-space side of the rings (`struct xsk_ring_prod` and
 * `struct xsk_ring_cons`): private snapshots of the shared cursors plus the
 * mask and size read from the ring header.  The producer reserves a batch
 * of slots, fills them through FillAddr and publishes them with Submit,
 * which adds to the shared producer; the consumer peeks a batch, reads it
 * through CompAddr and hands it back with Release, which adds to the
 * shared consumer.
 *
 * The free-space computation of the original producer subtracts its
 * snapshots in the reversed order; NbFreeAsWritten and ReserveAsWritten
 * keep that formula, NbFreeOverstates and FullRingOverfilled exhibit its
 * error, while NbFree, which Reserve uses, subtracts as the kernel side
 * does.
 */
module UserQueue {
  import opened Bits
  import opened Ring

  /** The original free-space formula `size - (cached_cons - cached_prod)`. */
  function FreeAsWritten(size: u32, cachedProd: u32, cachedCons: u32): u32
  {
    Sub32(size, Sub32(cachedCons, cachedProd))
  }

  /** With `k` entries in flight in a ring of `size`, the corrected formula gives `size - k`. */
  lemma FreeEntriesExact(size: u32, cachedProd: u32, cachedCons: u32)
    requires Sub32(cachedProd, cachedCons) <= size
    ensures FreeEntries(size, cachedProd, cachedCons) == size - Sub32(cachedProd, cachedCons)
  {
  }

  /**
   * The original formula gives `size + k` for `0 < k <= size` entries in
   * flight, more than the `size - k` really free: it reports free slots
   * even on a full ring.
   */
  lemma {:induction false} NbFreeOverstates(size: u32, cachedProd: u32, cachedCons: u32)
    requires 0 < Sub32(cachedProd, cachedCons) <= size && size + Sub32(cachedProd, cachedCons) < U32_MOD
    ensures FreeAsWritten(size, cachedProd, cachedCons) == size + Sub32(cachedProd, cachedCons)
    ensures FreeAsWritten(size, cachedProd, cachedCons) > FreeEntries(size, cachedProd, cachedCons)
  {
    var k := Sub32(cachedProd, cachedCons);
    assert Sub32(cachedCons, cachedProd) == U32_MOD - k;
  }

  /** A full ring of 4 (consumer at 0, producer snapshot at 4) is reported as having 8 free slots. */
  lemma FullRingReportedFree()
    ensures FreeAsWritten(4, 4, 0) == 8 && FreeEntries(4, 4, 0) == 0
  {
    NbFreeOverstates(4, 4, 0);
  }

  /**
   * A full ring (the producer snapshot a whole lap ahead of the consumer),
   * seen in the producer's cursor order: the consumer snapshot is the
   * consumer itself, the original formula still reports free slots, so
   * the original reserve grants one, and a producer snapshot one further
   * on is more than a lap ahead, out of the cursor order.
   */
  lemma {:induction false} FullRingOverfilled(size: u32, cachedProd: u32, cachedCons: u32, consumer: u32, producer: u32)
    requires 0 < size && size + size < U32_MOD
    requires InOrder(cachedCons, consumer, producer, cachedProd, size) && Sub32(cachedProd, consumer) == size
    ensures cachedCons == consumer && FreeEntries(size, cachedProd, cachedCons) == 0
    ensures FreeAsWritten(size, cachedProd, cachedCons) >= 1
    ensures !InOrder(cachedCons, consumer, producer, Add32(cachedProd, 1), size)
  {
    Between(cachedCons, consumer, cachedProd);
    assert Sub32(consumer, cachedCons) == 0;
    NbFreeOverstates(size, cachedProd, cachedCons);
    Advance(cachedCons, cachedProd, 1);
  }

  class ProdRing {
    var cachedProd: u32
    var cachedCons: u32
    const mask: u32
    const size: u32
    const ring: SharedRing

    /** A ring of power-of-two size whose mask is `size - 1`, with `size` slots. */
    predicate Valid()
    {
      IsPowerOfTwo(size) && mask == size - 1 && ring.desc.Length == size
    }

    /** The cursor order a producer keeps: cachedCons, consumer, producer, cachedProd, within one lap. */
    ghost predicate View()
      reads this, ring
    {
      InOrder(cachedCons, ring.consumer, ring.producer, cachedProd, size)
    }

    /** Slots reserved (and filled by the application) but not yet submitted, oldest first. */
    ghost function Reserved(): (s: seq<u64>)
      reads this, ring, ring.desc
      requires Valid()
    {
      Window(ring.desc[..], ring.producer, Sub32(cachedProd, ring.producer))
    }

    /** `init_ring_prod`: snapshots of both shared cursors, and mask and size from the ring header. */
    constructor (ring: SharedRing)
      ensures this.ring == ring
      ensures cachedProd == ring.producer && cachedCons == ring.consumer
      ensures size == ring.nentries && mask == Sub32(ring.nentries, 1)
      ensures Sub32(ring.producer, ring.consumer) <= ring.nentries ==> View()
    {
      cachedProd := ring.producer;
      cachedCons := ring.consumer;
      mask := Sub32(ring.nentries, 1);
      size := ring.nentries;
      this.ring := ring;
    }

    /** `xsk_ring_prod__fill_addr`: the slot of `idx`, which is `idx % size` and inside the ring when the size is a power of two. */
    function FillAddr(idx: u32): (slot: nat)
      ensures Valid() ==> slot == idx % size && slot < ring.desc.Length
    {
      if Valid() then MaskedSlot(idx, size); And(idx, mask) else And(idx, mask)
    }

    /**
     * `xsk_prod_nb_free` as written: the snapshot difference is taken as
     * `cachedCons - cachedProd`.  At most `nb`; `cachedCons` is refreshed
     * only when the formula shows fewer than `nb`.
     */
    method NbFreeAsWritten(nb: u32) returns (n: u32)
      modifies this`cachedCons
      ensures n <= nb && n <= FreeAsWritten(size, cachedProd, cachedCons)
      ensures FreeAsWritten(size, cachedProd, old(cachedCons)) >= nb ==> n == nb && cachedCons == old(cachedCons)
      ensures FreeAsWritten(size, cachedProd, old(cachedCons)) < nb ==>
                cachedCons == ring.consumer && n == Min(nb, FreeAsWritten(size, cachedProd, cachedCons))
    {
      var free := FreeAsWritten(size, cachedProd, cachedCons);
      if free >= nb {
        return nb;
      }
      cachedCons := ring.consumer;
      free := FreeAsWritten(size, cachedProd, cachedCons);
      n := if free >= nb then nb else free;
    }

    /**
     * `xsk_prod_nb_free` with the operands in the kernel's order: at most
     * `nb`, and never more than the slots really free.
     */
    method NbFree(nb: u32) returns (n: u32)
      modifies this`cachedCons
      ensures n <= nb && n <= FreeEntries(size, cachedProd, cachedCons)
      ensures FreeEntries(size, cachedProd, old(cachedCons)) >= nb ==> n == nb && cachedCons == old(cachedCons)
      ensures FreeEntries(size, cachedProd, old(cachedCons)) < nb ==>
                cachedCons == ring.consumer && n == Min(nb, FreeEntries(size, cachedProd, cachedCons))
      ensures old(View()) ==> View() && n <= size - Sub32(cachedProd, ring.consumer)
    {
      var free := FreeEntries(size, cachedProd, cachedCons);
      if free >= nb {
        return nb;
      }
      cachedCons := ring.consumer;
      free := FreeEntries(size, cachedProd, cachedCons);
      n := if free >= nb then nb else free;
    }

    /**
     * `xsk_ring_prod__reserve`: all or nothing.  With fewer than `nb`
     * free slots it returns 0 and leaves `cachedProd` and `*idx` alone;
     * otherwise `*idx` is the first reserved cursor and `cachedProd`
     * moves past the `nb` reserved slots.
     */
    method Reserve(nb: u32, idxIn: u32) returns (n: u32, idx: u32)
      modifies this`cachedProd, this`cachedCons
      ensures cachedCons == old(cachedCons) || cachedCons == ring.consumer
      ensures FreeEntries(size, old(cachedProd), cachedCons) < nb ==>
                n == 0 && idx == idxIn && cachedProd == old(cachedProd)
      ensures FreeEntries(size, old(cachedProd), cachedCons) >= nb ==>
                n == nb && idx == old(cachedProd) && cachedProd == Add32(old(cachedProd), nb)
      ensures old(View()) ==> View()
    {
      var free := NbFree(nb);
      if free < nb {
        return 0, idxIn;
      }
      if View() {
        Advance(cachedCons, cachedProd, nb);
      }
      idx := cachedProd;
      cachedProd := Add32(cachedProd, nb);
      n := nb;
    }

    /**
     * `xsk_ring_prod__reserve` as written, on NbFreeAsWritten: the same
     * all-or-nothing step, decided by the original free-space formula.
     */
    method ReserveAsWritten(nb: u32, idxIn: u32) returns (n: u32, idx: u32)
      modifies this`cachedProd, this`cachedCons
      ensures cachedCons == old(cachedCons) || cachedCons == ring.consumer
      ensures FreeAsWritten(size, old(cachedProd), cachedCons) < nb ==>
                n == 0 && idx == idxIn && cachedProd == old(cachedProd)
      ensures FreeAsWritten(size, old(cachedProd), cachedCons) >= nb ==>
                n == nb && idx == old(cachedProd) && cachedProd == Add32(old(cachedProd), nb)
    {
      var free := NbFreeAsWritten(nb);
      if free < nb {
        return 0, idxIn;
      }
      idx := cachedProd;
      cachedProd := Add32(cachedProd, nb);
      n := nb;
    }

    /** The original reserve of one slot on a full ring succeeds and leaves the cursor order broken. */
    method ReserveOnFullRing() returns (n: u32, idx: u32)
      requires View() && 0 < size && size + size < U32_MOD && Sub32(cachedProd, ring.consumer) == size
      modifies this`cachedProd, this`cachedCons
      ensures n == 1 && idx == old(cachedProd) && cachedProd == Add32(old(cachedProd), 1) && !View()
    {
      FullRingOverfilled(size, cachedProd, cachedCons, ring.consumer, ring.producer);
      n, idx := ReserveAsWritten(1, 0);
    }

    /**
     * `xsk_ring_prod__submit`: adds `nb` to the shared producer;
     * `nb == 0` changes nothing.  Submitting up to the reserved count
     * moves that many reserved entries, in order, to the published FIFO.
     */
    method Submit(nb: u32)
      requires Valid()
      modifies ring`producer
      ensures ring.producer == Add32(old(ring.producer), nb)
      ensures nb == 0 ==> ring.producer == old(ring.producer)
      ensures old(View()) && nb <= Sub32(cachedProd, old(ring.producer)) ==>
                View() && ring.Published() == old(ring.Published()) + old(Reserved())[..nb]
    {
      if View() && nb <= Sub32(cachedProd, ring.producer) {
        Between(ring.consumer, ring.producer, cachedProd);
        Advance(ring.consumer, ring.producer, nb);
        Advance(cachedCons, ring.producer, nb);
        WindowSplit(ring.desc[..], ring.consumer, Sub32(ring.producer, ring.consumer), nb);
        assert Window(ring.desc[..], ring.producer, nb) == Reserved()[..nb];
      }
      ring.producer := Add32(ring.producer, nb);
    }
  }

  class ConsRing {
    var cachedProd: u32
    var cachedCons: u32
    const mask: u32
    const size: u32
    const ring: SharedRing

    /** A ring of power-of-two size whose mask is `size - 1`, with `size` slots. */
    predicate Valid()
    {
      IsPowerOfTwo(size) && mask == size - 1 && ring.desc.Length == size
    }

    /** The cursor order a consumer keeps: consumer, cachedCons, cachedProd, producer, within one lap. */
    ghost predicate View()
      reads this, ring
    {
      InOrder(ring.consumer, cachedCons, cachedProd, ring.producer, size)
    }

    /** `init_ring_cons`: snapshots of both shared cursors, and mask and size from the ring header. */
    constructor (ring: SharedRing)
      ensures this.ring == ring
      ensures cachedProd == ring.producer && cachedCons == ring.consumer
      ensures size == ring.nentries && mask == Sub32(ring.nentries, 1)
      ensures Sub32(ring.producer, ring.consumer) <= ring.nentries ==> View()
    {
      cachedProd := ring.producer;
      cachedCons := ring.consumer;
      mask := Sub32(ring.nentries, 1);
      size := ring.nentries;
      this.ring := ring;
    }

    /** `xsk_ring_cons__comp_addr`: the slot of `idx`, which is `idx % size` and inside the ring when the size is a power of two. */
    function CompAddr(idx: u32): (slot: nat)
      ensures Valid() ==> slot == idx % size && slot < ring.desc.Length
    {
      if Valid() then MaskedSlot(idx, size); And(idx, mask) else And(idx, mask)
    }

    /**
     * `xsk_cons_nb_avail`: at most `nb` of the entries between the
     * snapshots; the producer snapshot is refreshed only when it shows none.
     */
    method NbAvail(nb: u32) returns (n: u32)
      modifies this`cachedProd
      ensures n == Min(nb, Sub32(cachedProd, cachedCons))
      ensures old(cachedProd) != cachedCons ==> cachedProd == old(cachedProd)
      ensures old(cachedProd) == cachedCons ==> cachedProd == ring.producer
      ensures old(View()) ==> View()
    {
      var entries := Sub32(cachedProd, cachedCons);
      if entries == 0 {
        cachedProd := ring.producer;
        entries := Sub32(cachedProd, cachedCons);
      }
      n := if entries > nb then nb else entries;
    }

    /**
     * `xsk_ring_cons__peek`: claims up to `nb` available entries.  When it
     * claims `n > 0`, `*idx` is the first claimed cursor and `cachedCons`
     * moves past them; the claimed slots hold the next `n` published
     * entries in order.  When it claims none, `*idx` and `cachedCons` are
     * left alone, though the producer snapshot may have been refreshed.
     */
    method Peek(nb: u32, idxIn: u32) returns (n: u32, idx: u32)
      requires Valid()
      modifies this`cachedProd, this`cachedCons
      ensures n <= nb && n == Min(nb, Sub32(cachedProd, old(cachedCons)))
      ensures old(cachedProd) == old(cachedCons) ==> cachedProd == ring.producer
      ensures n == 0 ==> idx == idxIn && cachedCons == old(cachedCons)
      ensures n > 0 ==> idx == old(cachedCons) && cachedCons == Add32(old(cachedCons), n)
      ensures old(cachedProd) != old(cachedCons) ==> cachedProd == old(cachedProd)
      ensures old(View()) ==>
                View()
                && (n > 0 ==>
                      Sub32(idx, ring.consumer) + n == Sub32(cachedCons, ring.consumer)
                      && Window(ring.desc[..], idx, n)
                         == ring.Published()[Sub32(idx, ring.consumer)..Sub32(cachedCons, ring.consumer)])
    {
      n := NbAvail(nb);
      if n == 0 {
        return 0, idxIn;
      }
      idx := cachedCons;
      if View() {
        Between(ring.consumer, cachedCons, cachedProd);
        Advance(ring.consumer, cachedCons, n);
        Between(ring.consumer, cachedCons, ring.producer);
        PeekedWindow(ring.desc[..], ring.consumer, cachedCons, n, ring.producer);
      }
      cachedCons := Add32(cachedCons, n);
    }

    /**
     * `xsk_ring_cons__release`: adds `nb` to the shared consumer; `nb == 0`
     * changes nothing.  Releasing up to the peeked count drops that many
     * entries from the front of the published FIFO.
     */
    method Release(nb: u32)
      requires Valid()
      modifies ring`consumer
      ensures ring.consumer == Add32(old(ring.consumer), nb)
      ensures nb == 0 ==> ring.consumer == old(ring.consumer)
      ensures old(View()) && nb <= Sub32(cachedCons, old(ring.consumer)) ==>
                View() && ring.Published() == old(ring.Published())[nb..]
    {
      if View() && nb <= Sub32(cachedCons, ring.consumer) {
        Between(ring.consumer, cachedCons, ring.producer);
        Between(ring.consumer, cachedCons, cachedProd);
        Advance(ring.consumer, ring.consumer, nb);
        WindowSplit(ring.desc[..], ring.consumer, nb, Sub32(ring.producer, ring.consumer) - nb);
        Between(ring.consumer, Add32(ring.consumer, nb), ring.producer);
      }
      ring.consumer := Add32(ring.consumer, nb);
    }
  }

  /** The `n` slots from cursor `cc` are the published entries at offsets `cc - cons` onward. */
  lemma PeekedWindow(d: seq<u64>, cons: u32, cc: u32, n: nat, prod: u32)
    requires |d| > 0 && Sub32(cc, cons) + n <= Sub32(prod, cons)
    ensures Window(d, cc, n) == Window(d, cons, Sub32(prod, cons))[Sub32(cc, cons)..Sub32(cc, cons) + n]
  {
    var a := Sub32(cc, cons);
    var w := Window(d, cons, Sub32(prod, cons));
    WindowSplit(d, cons, a, n);
    assert Add32(cons, a) == cc;
    assert Window(d, cons, a + n) == w[..a + n];
  }
}

=== FILE: xsk_queue.dfy ===
/**
 * The prototype's ring (`struct xsk_queue`, derived from AF_XDP), the same
 * single-producer/single-consumer protocol as XspQueue with a richer set
 * of operations: reservation without a write and its cancellation,
 * submission of an explicit count or of one handle written at the shared
 * producer, and a consumer that advances only its private `cachedCons`
 * until it explicitly publishes it with ConsGetEntries.
 */
module XskQueue {
  import opened Bits
  import opened Kernel
  import opened Ring

  /** `PAGE_ALIGN(struct_size(umem_ring, desc, nentries))`: the 384-byte header and the slots, in whole pages. */
  function RingVmallocSize(nentries: u32): (size: nat)
    ensures size % PAGE_SIZE == 0
    ensures 384 + 8 * nentries <= size < 384 + 8 * nentries + PAGE_SIZE
  {
    ((384 + 8 * nentries + PAGE_SIZE - 1) / PAGE_SIZE) * PAGE_SIZE
  }

  class Queue {
    const ringMask: u32
    const nentries: u32
    var cachedProd: u32
    var cachedCons: u32
    const ring: SharedRing
    var invalidDescs: u64
    var queueEmptyDescs: u64
    const ringVmallocSize: nat

    /** The geometry fixed at creation: a power-of-two slot count, its mask, and that many slots. */
    predicate Valid()
    {
      IsPowerOfTwo(nentries) && ringMask == nentries - 1 && ring.desc.Length == nentries
    }

    /** The cursor order a producer keeps: cachedCons, consumer, producer, cachedProd, within one lap. */
    ghost predicate ProducerView()
      reads this, ring
    {
      InOrder(cachedCons, ring.consumer, ring.producer, cachedProd, nentries)
    }

    /** The cursor order a consumer keeps: consumer, cachedCons, cachedProd, producer, within one lap. */
    ghost predicate ConsumerView()
      reads this, ring
    {
      InOrder(ring.consumer, cachedCons, cachedProd, ring.producer, nentries)
    }

    /** Handles reserved and written by the producer but not yet submitted, oldest first. */
    ghost function Reserved(): (s: seq<u64>)
      reads this, ring, ring.desc
      requires Valid()
    {
      Window(ring.desc[..], ring.producer, Sub32(cachedProd, ring.producer))
    }

    /** Handles the consumer has read but not yet handed back, oldest first. */
    ghost function Consumed(): (s: seq<u64>)
      reads this, ring, ring.desc
      requires Valid()
    {
      Window(ring.desc[..], ring.consumer, Sub32(cachedCons, ring.consumer))
    }

    /** The part of `xskq_create` after its checks: a zeroed queue over a zeroed ring whose header holds `nentries` and `flag`. */
    constructor (nentries: u32, flag: u32)
      requires IsPowerOfTwo(nentries)
      ensures Valid() && this.nentries == nentries && ringVmallocSize == RingVmallocSize(nentries)
      ensures cachedProd == 0 && cachedCons == 0 && invalidDescs == 0 && queueEmptyDescs == 0
      ensures fresh(ring) && fresh(ring.desc)
      ensures ring.producer == 0 && ring.consumer == 0 && ring.nentries == nentries && ring.flag == flag
    {
      this.nentries := nentries;
      ringMask := nentries - 1;
      cachedProd, cachedCons := 0, 0;
      invalidDescs, queueEmptyDescs := 0, 0;
      ring := new SharedRing(nentries, flag);
      ringVmallocSize := RingVmallocSize(nentries);
    }

    /** The slot of a cursor, `cursor & ring_mask`. */
    function SlotOf(cursor: u32): (i: nat)
      requires Valid()
      ensures i == cursor % nentries && i < ring.desc.Length
    {
      MaskedSlot(cursor, nentries);
      And(cursor, ringMask)
    }

    // ---- consumer side ----

    /**
     * `xskq_cons_read_addr_unchecked`: false, with `*addr` left as it was,
     * when the snapshot shows nothing to read; otherwise the handle at
     * `cachedCons`.  No cursor moves.
     */
    method ConsReadAddrUnchecked(addrIn: u64) returns (ok: bool, addr: u64)
      requires Valid()
      ensures ok <==> cachedCons != cachedProd
      ensures !ok ==> addr == addrIn
      ensures ok ==> addr == ring.desc[cachedCons % nentries]
      ensures ok && ConsumerView() ==> addr == ring.Published()[Sub32(cachedCons, ring.consumer)]
    {
      if cachedCons != cachedProd {
        addr := ring.desc[SlotOf(cachedCons)];
        return true, addr;
      }
      return false, addrIn;
    }

    /** `xskq_cons_release_n`: `cnt` more entries count as read; only the private cursor moves. */
    method ConsReleaseN(cnt: u32)
      requires Valid()
      modifies this`cachedCons
      ensures cachedCons == Add32(old(cachedCons), cnt)
      ensures cnt == 0 ==> cachedCons == old(cachedCons)
      ensures old(ConsumerView()) && cnt <= Sub32(cachedProd, old(cachedCons)) ==>
                ConsumerView() && Consumed() == old(Consumed()) + ring.Published()[Sub32(old(cachedCons), ring.consumer)..Sub32(cachedCons, ring.consumer)]
    {
      if ConsumerView() && cnt <= Sub32(cachedProd, cachedCons) {
        Between(ring.consumer, cachedCons, cachedProd);
        Advance(ring.consumer, cachedCons, cnt);
        ConsumeMore(ring.desc[..], ring.consumer, cachedCons, cnt, ring.producer);
      }
      cachedCons := Add32(cachedCons, cnt);
    }

    /** `xskq_cons_release`: one more entry counts as read; only the private cursor moves. */
    method ConsRelease()
      requires Valid()
      modifies this`cachedCons
      ensures cachedCons == Add32(old(cachedCons), 1)
      ensures old(ConsumerView()) && old(cachedCons) != cachedProd ==>
                ConsumerView() && Consumed() == old(Consumed()) + [ring.Published()[Sub32(old(cachedCons), ring.consumer)]]
    {
      if ConsumerView() && cachedCons != cachedProd {
        Between(ring.consumer, cachedCons, cachedProd);
        Advance(ring.consumer, cachedCons, 1);
        ConsumeMore(ring.desc[..], ring.consumer, cachedCons, 1, ring.producer);
      }
      cachedCons := Add32(cachedCons, 1);
    }

    /**
     * `xskq_cons_get_entries`: hands every read entry back by publishing
     * `cachedCons`, then refreshes `cachedProd` from the shared producer.
     * The published FIFO loses exactly the entries read.
     */
    method ConsGetEntries()
      requires Valid()
      modifies ring`consumer, this`cachedProd
      ensures ring.consumer == cachedCons && cachedProd == ring.producer
      ensures old(ConsumerView()) ==>
                ConsumerView() && Consumed() == []
                && old(ring.Published()) == old(Consumed()) + ring.Published()
    {
      if ConsumerView() {
        WindowAt(ring.desc[..], ring.consumer, cachedCons, ring.producer);
      }
      ring.consumer := cachedCons;
      cachedProd := ring.producer;
    }

    /**
     * `xskq_cons_nb_entries`: how many entries, at most `max`, can be read
     * now.  Only when the snapshot shows fewer than `max` is `cachedProd`
     * refreshed from the shared `producer`.
     */
    method ConsNbEntries(max: u32) returns (n: u32)
      requires Valid()
      modifies this`cachedProd
      ensures n <= max && n <= Sub32(cachedProd, cachedCons)
      ensures Sub32(old(cachedProd), cachedCons) >= max ==> n == max && cachedProd == old(cachedProd)
      ensures Sub32(old(cachedProd), cachedCons) < max ==>
                cachedProd == ring.producer && n == Min(max, Sub32(cachedProd, cachedCons))
      ensures old(ConsumerView()) ==> ConsumerView() && n <= |ring.Published()| - |Consumed()|
    {
      var entries := Sub32(cachedProd, cachedCons);
      if entries >= max {
        n := max;
      } else {
        cachedProd := ring.producer;
        entries := Sub32(cachedProd, cachedCons);
        n := if entries >= max then max else entries;
      }
      if old(ConsumerView()) {
        Between(ring.consumer, cachedCons, cachedProd);
        Between(ring.consumer, cachedCons, ring.producer);
      }
    }

    /** `xskq_cons_has_entries`: at least `cnt` entries can be read. */
    method ConsHasEntries(cnt: u32) returns (has: bool)
      requires Valid()
      modifies this`cachedProd
      ensures has <==> Sub32(cachedProd, cachedCons) >= cnt
      ensures cachedProd == old(cachedProd) || cachedProd == ring.producer
      ensures old(ConsumerView()) ==> ConsumerView()
    {
      var n := ConsNbEntries(cnt);
      has := n >= cnt;
    }

    /**
     * `xskq_cons_peek_addr_unchecked`: when the snapshot is exhausted,
     * first hand the read entries back and refresh; then read the handle
     * at `cachedCons`, if there is one.
     */
    method ConsPeekAddrUnchecked(addrIn: u64) returns (ok: bool, addr: u64)
      requires Valid()
      modifies ring`consumer, this`cachedProd
      ensures old(cachedProd) != cachedCons ==> ring.consumer == old(ring.consumer) && cachedProd == old(cachedProd)
      ensures old(cachedProd) == cachedCons ==> ring.consumer == cachedCons && cachedProd == ring.producer
      ensures ok <==> cachedCons != cachedProd
      ensures !ok ==> addr == addrIn
      ensures ok ==> addr == ring.desc[cachedCons % nentries]
      ensures old(ConsumerView()) ==>
                ConsumerView() && (ok ==> addr == ring.Published()[Sub32(cachedCons, ring.consumer)])
    {
      if cachedProd == cachedCons {
        ConsGetEntries();
      }
      ok, addr := ConsReadAddrUnchecked(addrIn);
    }

    /** `xskq_cons_present_entries`: published entries not yet handed back. */
    function ConsPresentEntries(): (n: u32)
      requires Valid()
      reads this, ring
      ensures n == |ring.Published()|
      ensures ProducerView() || ConsumerView() ==> n <= nentries
    {
      Sub32(ring.producer, ring.consumer)
    }

    // ---- producer side ----

    /**
     * `xskq_prod_nb_free`: how many slots, at most `max`, can be filled
     * now.  Only when the snapshot shows fewer than `max` is `cachedCons`
     * refreshed from the shared `consumer`.
     */
    method ProdNbFree(max: u32) returns (n: u32)
      requires Valid()
      modifies this`cachedCons
      ensures n <= max && n <= FreeEntries(nentries, cachedProd, cachedCons)
      ensures FreeEntries(nentries, cachedProd, old(cachedCons)) >= max ==> n == max && cachedCons == old(cachedCons)
      ensures FreeEntries(nentries, cachedProd, old(cachedCons)) < max ==>
                cachedCons == ring.consumer && n == Min(max, FreeEntries(nentries, cachedProd, cachedCons))
      ensures old(ProducerView()) ==> ProducerView() && n <= nentries - Sub32(cachedProd, ring.consumer)
    {
      var free := FreeEntries(nentries, cachedProd, cachedCons);
      if free >= max {
        return max;
      }
      cachedCons := ring.consumer;
      free := FreeEntries(nentries, cachedProd, cachedCons);
      n := if free >= max then max else free;
    }

    /** `xskq_prod_is_full`: no slot is free, even after refreshing `cachedCons`. */
    method ProdIsFull() returns (full: bool)
      requires Valid()
      modifies this`cachedCons
      ensures full <==> FreeEntries(nentries, cachedProd, cachedCons) == 0
      ensures full ==> cachedCons == ring.consumer
      ensures cachedCons == old(cachedCons) || cachedCons == ring.consumer
      ensures old(ProducerView()) ==> ProducerView() && (full <==> Sub32(cachedProd, ring.consumer) == nentries)
    {
      var n := ProdNbFree(1);
      full := n == 0;
    }

    /** `xskq_prod_cancel`: gives back the most recent reservation. */
    method ProdCancel()
      requires Valid()
      modifies this`cachedProd
      ensures Add32(cachedProd, 1) == old(cachedProd)
      ensures old(ProducerView()) && old(cachedProd) != ring.producer ==> ProducerView()
    {
      cachedProd := Add32(cachedProd, -1);
    }

    /** `xskq_prod_reserve`: -ENOSPC when the ring is full; otherwise one slot is claimed without writing it. */
    method ProdReserve() returns (err: int)
      requires Valid()
      modifies this`cachedProd, this`cachedCons
      ensures err == 0 || err == -ENOSPC
      ensures cachedCons == old(cachedCons) || cachedCons == ring.consumer
      ensures err == -ENOSPC <==> FreeEntries(nentries, old(cachedProd), cachedCons) == 0
      ensures cachedProd == if err == 0 then Add32(old(cachedProd), 1) else old(cachedProd)
      ensures old(ProducerView()) ==> ProducerView()
      ensures old(ProducerView()) ==> (err == -ENOSPC <==> Sub32(old(cachedProd), ring.consumer) == nentries)
    {
      var full := ProdIsFull();
      if full {
        return -ENOSPC;
      }
      if ProducerView() {
        Advance(cachedCons, cachedProd, 1);
      }
      cachedProd := Add32(cachedProd, 1);
      err := 0;
    }

    /**
     * `xskq_prod_reserve_addr`: -ENOSPC when the ring is full; otherwise
     * `addr` goes into the slot of `cachedProd`, which then advances.
     */
    method ProdReserveAddr(addr: u64) returns (err: int)
      requires Valid()
      modifies this`cachedProd, this`cachedCons, ring.desc
      ensures err == 0 || err == -ENOSPC
      ensures cachedCons == old(cachedCons) || cachedCons == ring.consumer
      ensures err == -ENOSPC <==> FreeEntries(nentries, old(cachedProd), cachedCons) == 0
      ensures err == -ENOSPC ==> cachedProd == old(cachedProd) && ring.desc[..] == old(ring.desc[..])
      ensures err == 0 ==>
                cachedProd == Add32(old(cachedProd), 1)
                && ring.desc[..] == old(ring.desc[..])[old(cachedProd) % nentries := addr]
      ensures old(ProducerView()) ==>
                ProducerView()
                && ring.Published() == old(ring.Published())
                && Reserved() == old(Reserved()) + (if err == 0 then [addr] else [])
      ensures old(ProducerView()) ==> (err == -ENOSPC <==> Sub32(old(cachedProd), ring.consumer) == nentries)
    {
      var full := ProdIsFull();
      if full {
        return -ENOSPC;
      }
      ghost var d := ring.desc[..];
      ghost var cp := cachedProd;
      ghost var view := ProducerView();
      if view {
        ReserveStep(d, cachedCons, ring.consumer, ring.producer, cp, addr);
      }
      ring.desc[SlotOf(cachedProd)] := addr;
      cachedProd := Add32(cachedProd, 1);
      err := 0;
    }

    /** `xskq_prod_submit`: publishes every reserved handle by storing `cachedProd` into the shared `producer`. */
    method ProdSubmit()
      requires Valid()
      modifies ring`producer
      ensures ring.producer == cachedProd
      ensures old(ProducerView()) ==>
                ProducerView() && ring.Published() == old(ring.Published()) + old(Reserved()) && Reserved() == []
    {
      if ProducerView() {
        WindowAt(ring.desc[..], ring.consumer, ring.producer, cachedProd);
      }
      ring.producer := cachedProd;
    }

    /**
     * `xskq_prod_submit_addr`: writes `addr` at the slot of the shared
     * `producer` and publishes `producer + 1`, bypassing `cachedProd`.
     * With a free slot, the published FIFO gains `addr` at its end.
     */
    method ProdSubmitAddr(addr: u64)
      requires Valid()
      modifies ring`producer, ring.desc
      ensures ring.producer == Add32(old(ring.producer), 1)
      ensures ring.desc[..] == old(ring.desc[..])[old(ring.producer) % nentries := addr]
      ensures old(Sub32(ring.producer, ring.consumer)) < nentries ==>
                ring.Published() == old(ring.Published()) + [addr]
    {
      ghost var d := ring.desc[..];
      ghost var count := Sub32(ring.producer, ring.consumer);
      var idx := ring.producer;
      if count < nentries {
        Between(ring.consumer, idx, idx);
        WindowPush(d, ring.consumer, count, addr);
        Advance(ring.consumer, idx, 1);
      }
      ring.desc[SlotOf(idx)] := addr;
      idx := Add32(idx, 1);
      ring.producer := idx;
    }

    /** `xskq_prod_submit_n`: publishes `nb` more entries past the shared `producer`; `nb == 0` changes nothing. */
    method ProdSubmitN(nb: u32)
      requires Valid()
      modifies ring`producer
      ensures ring.producer == Add32(old(ring.producer), nb)
      ensures nb == 0 ==> ring.producer == old(ring.producer)
      ensures old(ProducerView()) && nb <= Sub32(cachedProd, old(ring.producer)) ==>
                ProducerView() && ring.Published() + Reserved() == old(ring.Published()) + old(Reserved())
    {
      if ProducerView() && nb <= Sub32(cachedProd, ring.producer) {
        Between(ring.consumer, ring.producer, cachedProd);
        Advance(ring.consumer, ring.producer, nb);
        Advance(cachedCons, ring.producer, nb);
        WindowAt(ring.desc[..], ring.consumer, ring.producer, cachedProd);
        WindowAt(ring.desc[..], ring.consumer, Add32(ring.producer, nb), cachedProd);
      }
      ring.producer := Add32(ring.producer, nb);
    }

    /** `xskq_prod_is_empty`: every published entry has been handed back. */
    predicate ProdIsEmpty(): (e: bool)
      reads ring
      ensures e <==> Sub32(ring.producer, ring.consumer) == 0
    {
      ring.consumer == ring.producer
    }
  }

  /** An empty ring is exactly one with no published entries. */
  lemma EmptyIffNoneBuffered(q: Queue)
    requires q.Valid()
    ensures q.ProdIsEmpty() <==> q.ring.Published() == []
  {
    assert q.ProdIsEmpty() <==> q.ConsPresentEntries() == 0;
  }

  /**
   * Reserving a slot and cancelling it gives back the same private
   * producer cursor; only the refreshed consumer snapshot may differ.
   */
  method ReserveThenCancel(q: Queue) returns (err: int)
    requires q.Valid()
    modifies q`cachedProd, q`cachedCons
    ensures err == 0 || err == -ENOSPC
    ensures q.cachedProd == old(q.cachedProd)
    ensures old(q.ProducerView()) ==> q.ProducerView()
  {
    err := q.ProdReserve();
    if err == 0 {
      q.ProdCancel();
    }
  }

  /**
   * `xskq_create`: NULL unless `nentries` passes `is_power_of_2` and both the
   * queue and its ring buffer can be allocated.
   */
  method Create(nentries: u32, flag: u32, kzallocOk: bool, vmallocOk: bool) returns (q: Queue?)
    ensures q != null <==> IsPowerOfTwo(nentries) && kzallocOk && vmallocOk
    ensures q != null ==>
              fresh(q) && fresh(q.ring) && fresh(q.ring.desc) && q.Valid()
              && q.nentries == nentries && q.ringMask == nentries - 1
              && q.ringVmallocSize == RingVmallocSize(nentries)
              && q.cachedProd == 0 && q.cachedCons == 0
              && q.ring.producer == 0 && q.ring.consumer == 0
              && q.ring.nentries == nentries && q.ring.flag == flag
  {
    if !IsPowerOfTwo(nentries) {
      return null;
    }
    if !kzallocOk {
      return null;
    }
    if !vmallocOk {
      return null;
    }
    q := new Queue(nentries, flag);
  }

  /** `xskq_destroy`: frees the ring buffer and then the queue; NULL is ignored. */
  method Destroy(q: Queue?, log: FreeLog)
    modifies log
    ensures log.freed == old(log.freed) + (if q == null then [] else [q.ring, q])
  {
    if q == null {
      return;
    }
    log.freed := log.freed + [q.ring, q];
  }
}

=== FILE: xsp.dfy ===
/**
 * The XSP character device (xsp.c): the send path that drains a tx ring
 * into the network stack, the receive hook that feeds arriving frames into
 * the per-core rx rings, the bind operation that creates a device's rings
 * and hands out their mmap offsets, and the ioctl and mmap entry points.
 *
 * The three module globals (the shard-set list, the offset table and the
 * device table) are passed to each operation; calls into the network stack
 * and the user-copy routines are oracle parameters.
 */
module Xsp {
  import opened Bits
  import opened Kernel
  import opened Ring
  import XspQueue
  import QueueArray
  import Tables

  /** The most entries one `handle_send` call takes from a tx ring. */
  const SEND_BATCH: u32 := 4096

  /**
   * `handle_send`: with no device or no ring, -EINVAL and nothing changes.
   * Otherwise it takes exactly min(4096, available) entries from the ring,
   * in ring order, decides each one with Classify whatever became of the
   * others, and publishes the new consumer cursor once, after the loop.
   * `handled` are the handles taken, `outcome` what was done with each.
   */
  method HandleSend(dev: DevId, queue: XspQueue.Queue?, net: NetStack)
    returns (ret: int, handled: seq<Skb>, outcome: seq<Verdict>)
    requires queue != null ==> queue.Valid()
    modifies if queue != null then {queue, queue.ring} else {}
    ensures dev == 0 || queue == null ==> ret == -EINVAL && handled == [] && outcome == []
    ensures dev == 0 && queue != null ==>
              queue.cachedProd == old(queue.cachedProd) && queue.cachedCons == old(queue.cachedCons)
              && queue.ring.consumer == old(queue.ring.consumer)
    ensures dev != 0 && queue != null ==>
              ret == 0
              && |handled| == Min(SEND_BATCH as int, Sub32(queue.cachedProd, old(queue.cachedCons)))
              && (queue.cachedProd == old(queue.cachedProd) || queue.cachedProd == queue.ring.producer)
              && handled == Window(queue.ring.desc[..], old(queue.cachedCons), |handled|)
              && queue.cachedCons == Add32(old(queue.cachedCons), |handled|)
              && queue.ring.consumer == queue.cachedCons
    ensures |outcome| == |handled| && forall k :: 0 <= k < |handled| ==> outcome[k] == Classify(handled[k], dev, net)
    ensures queue != null ==> queue.ring.producer == old(queue.ring.producer)
    ensures dev != 0 && queue != null && old(queue.ConsumerView()) ==>
              queue.ConsumerView()
              && old(queue.ring.Published())
                 == old(queue.ring.Published())[..Sub32(old(queue.cachedCons), old(queue.ring.consumer))]
                    + handled + queue.ring.Published()
  {
    if dev == 0 || queue == null {
      return -EINVAL, [], [];
    }
    ghost var c0, cons0, d := queue.cachedCons, queue.ring.consumer, queue.ring.desc[..];
    ghost var view := queue.ConsumerView();
    var nb := queue.ConsNbEntries(SEND_BATCH);
    handled, outcome := SendBatch(dev, queue, nb, net);
    queue.ConsRelease();
    ret := 0;
    if view {
      ConsumeBatch(d, cons0, c0, queue.cachedProd, queue.ring.producer, nb as nat);
    }
  }

  /**
   * What one `handle_send` for device `dev` leaves behind in the valid
   * ring `q`, as HandleSend states it: the producer never moves; for
   * device 0 no cursor moves; otherwise min(SEND_BATCH, available)
   * entries are taken from the front of the FIFO and the consumer is
   * published.
   */
  twostate predicate Sent(dev: DevId, q: XspQueue.Queue)
    reads q, q.ring, q.ring.desc
    requires q.Valid()
  {
    q.ring.producer == old(q.ring.producer)
    && (dev == 0 ==>
          q.cachedProd == old(q.cachedProd) && q.cachedCons == old(q.cachedCons)
          && q.ring.consumer == old(q.ring.consumer))
    && (dev != 0 ==>
          var n := Min(SEND_BATCH as int, Sub32(q.cachedProd, old(q.cachedCons)));
          (q.cachedProd == old(q.cachedProd) || q.cachedProd == q.ring.producer)
          && q.cachedCons == Add32(old(q.cachedCons), n) && q.ring.consumer == q.cachedCons
          && (old(q.ConsumerView()) ==>
                q.ConsumerView()
                && old(q.ring.Published())
                   == old(q.ring.Published())[..Sub32(old(q.cachedCons), old(q.ring.consumer))]
                      + Window(q.ring.desc[..], old(q.cachedCons), n) + q.ring.Published()))
  }

  /** The loop of `handle_send`: reads `nb` entries in ring order and decides each one. */
  method SendBatch(dev: DevId, queue: XspQueue.Queue, nb: u32, net: NetStack)
    returns (handled: seq<Skb>, outcome: seq<Verdict>)
    requires queue.Valid()
    modifies queue`cachedCons
    ensures handled == Window(queue.ring.desc[..], old(queue.cachedCons), nb as nat)
    ensures queue.cachedCons == Add32(old(queue.cachedCons), nb as nat)
    ensures |outcome| == |handled| && forall k :: 0 <= k < |handled| ==> outcome[k] == Classify(handled[k], dev, net)
  {
    ghost var c0, d := queue.cachedCons, queue.ring.desc[..];
    handled, outcome := [], [];
    var i: u32 := 0;
    while i < nb
      invariant i <= nb
      invariant queue.cachedCons == Add32(c0, i)
      invariant handled == Window(d, c0, i)
      invariant |outcome| == i && forall k :: 0 <= k < i ==> outcome[k] == Classify(handled[k], dev, net)
    {
      var ok, addr := queue.ConsReadAddrUncheckedInc();
      assert ok;  // BUG_ON(!ret)
      WindowSplit(d, c0, i as nat, 1);
      handled := handled + [addr];
      outcome := outcome + [Classify(addr, dev, net)];
      i := i + 1;
    }
  }

  /**
   * What a bind's info promises user space: when the offset table was
   * aligned with the offset counter before the bind (its first new entry
   * sits at the page index the bind was handed) and every insertion
   * succeeded, mapping page `first + i` reaches tx ring i for i < CORE_NUM
   * and rx ring i - CORE_NUM after that, and succeeds exactly when the
   * mapping fits that ring's buffer.
   */
  lemma BoundRingMapped(t: Tables.OffsetQueueTable, base: seq<Tables.OffsetEntry>, dev: DevId,
                        tx: QueueArray.QueueArray, rx: QueueArray.QueueArray, i: nat, size: nat, remapRet: int)
    requires tx.Valid() && rx.Valid() && tx.size == CORE_NUM && rx.size == CORE_NUM
    requires t.Valid() && t.Entries() == base + BoundEntries(dev, tx, rx)
    requires i < 2 * CORE_NUM && |base| + i < MAX_PGOFF
    ensures var q := if i < CORE_NUM then tx.At(i) else rx.At(i - CORE_NUM);
            Mmap(t, |base| + i, size, remapRet) == (if size <= q.ringVmallocSize then remapRet else -EINVAL)
  {
    var q := if i < CORE_NUM then tx.At(i) else rx.At(i - CORE_NUM);
    var bound := BoundEntries(dev, tx, rx);
    if i < CORE_NUM {
      assert bound[i] == RingEntries(dev, tx.queue[..CORE_NUM])[i];
    } else {
      assert bound[i] == RingEntries(dev, rx.queue[..CORE_NUM])[i - CORE_NUM];
    }
    assert t.Entries()[|base| + i] == bound[i] == Tables.OffsetEntry(dev, q);
  }

  /**
   * `xsp_handle_frame`, the rx hook, on CPU `cpu` for a frame from `dev`.
   * A device that is not in the table, or has no rx shard set attached
   * (`rxData`), passes the frame on.  `shared` is what `skb_share_check`
   * returns (None when it fails, which consumes the frame); `mayPull` is
   * whether a whole Ethernet header can be pulled (the frame is passed on
   * otherwise).  Then the handle goes into the CPU's rx ring and is
   * published; when the ring is full it is dropped instead (`dropped`).
   */
  method HandleFrame(devs: Tables.DevQueueTable, dev: DevId, rxData: QueueArray.QueueArray?, cpu: nat,
                     shared: Option<Skb>, mayPull: bool)
    returns (r: RxResult, dropped: Option<Skb>)
    requires devs.Valid() && cpu < CORE_NUM
    requires rxData != null ==> rxData.Valid() && rxData.size == CORE_NUM
    modifies if rxData != null then RingFrame(rxData.At(cpu)) else {}
    ensures Tables.Find(devs.Bucket(dev), dev) == null || rxData == null ==> r == RxPass && dropped == None
    ensures shared == None ==> dropped == None
    ensures rxData != null ==> var q := old(rxData.At(cpu)); q.ring.consumer == old(q.ring.consumer)
    ensures Tables.Find(devs.Bucket(dev), dev) != null && rxData != null ==>
              (r == RxPass <==> shared.Some? && !mayPull)
    ensures rxData != null && (r == RxPass || shared == None) ==>
              var q := old(rxData.At(cpu));
              q.cachedProd == old(q.cachedProd) && q.cachedCons == old(q.cachedCons)
              && q.ring.producer == old(q.ring.producer) && q.ring.desc[..] == old(q.ring.desc[..])
    ensures Tables.Find(devs.Bucket(dev), dev) != null && rxData != null && shared.Some? && mayPull ==>
              var q := old(rxData.At(cpu));
              (dropped.Some? ==> dropped.value == shared.value)
              && (dropped.Some? <==> FreeEntries(q.nentries, old(q.cachedProd), q.cachedCons) == 0)
              && (dropped.Some? ==> q.cachedProd == old(q.cachedProd) && q.ring.producer == old(q.ring.producer)
                                    && q.ring.desc[..] == old(q.ring.desc[..]))
              && (dropped.None? ==> q.cachedProd == Add32(old(q.cachedProd), 1) && q.ring.producer == q.cachedProd)
              && (old(q.ProducerView()) ==>
                    q.ProducerView()
                    && (dropped.Some? <==> Sub32(old(q.cachedProd), q.ring.consumer) == q.nentries)
                    && q.ring.Published()
                       == old(q.ring.Published()) + (if dropped.None? then old(q.Reserved()) + [shared.value] else []))
  {
    var entry := devs.Lookup(dev);
    if entry == null || rxData == null {
      return RxPass, None;
    }
    var queue := rxData.At(cpu);
    if shared == None {
      return RxConsumed, None;
    }
    var skb := shared.value;
    if !mayPull {
      return RxPass, None;
    }
    var full := Deliver(queue, skb);
    dropped := if full then Some(skb) else None;  // consume_skb on a full ring
    r := RxConsumed;
  }

  /**
   * The enqueue step of the rx hook: reserve a slot for `skb` and publish
   * it at once, or report the ring full and change nothing but the
   * refreshed `cachedCons`.
   */
  method Deliver(q: XspQueue.Queue, skb: Skb) returns (full: bool)
    requires q.Valid()
    modifies q`cachedProd, q`cachedCons, q.ring`producer, q.ring.desc
    ensures full <==> FreeEntries(q.nentries, old(q.cachedProd), q.cachedCons) == 0
    ensures full ==> q.cachedProd == old(q.cachedProd) && q.ring.producer == old(q.ring.producer)
                     && q.ring.desc[..] == old(q.ring.desc[..])
    ensures !full ==> q.cachedProd == Add32(old(q.cachedProd), 1) && q.ring.producer == q.cachedProd
    ensures old(q.ProducerView()) ==>
              q.ProducerView()
              && (full <==> Sub32(old(q.cachedProd), q.ring.consumer) == q.nentries)
              && q.ring.Published() == old(q.ring.Published()) + (if full then [] else old(q.Reserved()) + [skb])
  {
    var err := q.ProdReserveAddr(skb);
    full := err != 0;
    if !full {
      q.ProdSubmit();
    }
  }

  /** What the rx hook may write: the ring's private cursors, its shared header and its slots. */
  function RingFrame(q: XspQueue.Queue): set<object>
  {
    {q, q.ring, q.ring.desc}
  }

  /**
   * `xspdev_mmap` for a mapping of `size` bytes at page offset `pgoff`:
   * -EINVAL unless the offset table holds a ring at that page index and the
   * mapping is no larger than the ring's buffer; otherwise whatever
   * `remap_vmalloc_range` returns (`remapRet`).
   */
  function Mmap(t: Tables.OffsetQueueTable, pgoff: nat, size: nat, remapRet: int): (ret: int)
    reads t, t.queueArray
    requires t.Valid() && pgoff < MAX_PGOFF
    ensures ret != remapRet ==> ret == -EINVAL
    ensures (pgoff < t.queueNum && t.Entries()[pgoff].queue != null
             && size <= t.Entries()[pgoff].queue.ringVmallocSize) ==> ret == remapRet
    ensures remapRet != -EINVAL && ret == remapRet ==>
              pgoff < t.queueNum && t.Entries()[pgoff].queue != null
              && size <= t.Entries()[pgoff].queue.ringVmallocSize
  {
    var offset: Tables.Loff := pgoff * PAGE_SIZE;
    Tables.OffsetIndexRoundTrip(pgoff, 0);
    match t.Lookup(offset)
    case None => -EINVAL
    case Some(entry) =>
      if entry.queue == null then -EINVAL
      else if size > entry.queue.ringVmallocSize then -EINVAL
      else remapRet
  }

  /** The offset-table entries a shard set's rings get from one FOR_EACH_QUEUE pass, ring 0 first. */
  function RingEntries(dev: DevId, qs: seq<XspQueue.Queue?>): (es: seq<Tables.OffsetEntry>)
    ensures |es| == |qs| && forall j :: 0 <= j < |qs| ==> es[j] == Tables.OffsetEntry(dev, qs[j])
  {
    if qs == [] then [] else RingEntries(dev, qs[..|qs| - 1]) + [Tables.OffsetEntry(dev, qs[|qs| - 1])]
  }

  /** Every one of the first `n` capacity doublings that may be needed succeeds. */
  predicate AllGrow(growOk: nat -> bool, n: nat)
  {
    forall j :: 0 <= j < n ==> growOk(j)
  }

  /**
   * One FOR_EACH_QUEUE pass of `bind_dev` over a shard set's rings `rings`:
   * every ring, in index order, goes into the offset table, while `offset`
   * steps by PAGE_SIZE per ring.  The table ignores the offset and appends;
   * an insertion whose capacity doubling fails (`growOk(j)` false for ring
   * j) is skipped, as its result is not checked.
   */
  method InsertRings(t: Tables.OffsetQueueTable, rings: seq<XspQueue.Queue?>, dev: DevId, offset: nat,
                     growOk: nat -> bool, log: FreeLog)
    returns (next: nat)
    requires t.Valid() && offset + |rings| * PAGE_SIZE <= 0x8000_0000_0000_0000
    modifies t, t.queueArray, log
    ensures t.Valid() && t.nextIndex == old(t.nextIndex)
    ensures t.queueArray == old(t.queueArray) || fresh(t.queueArray)
    ensures next == offset + |rings| * PAGE_SIZE
    ensures old(t.Entries()) <= t.Entries()
    ensures AllGrow(growOk, |rings|) ==> t.Entries() == old(t.Entries()) + RingEntries(dev, rings)
  {
    ghost var e0 := t.Entries();
    ghost var allOk := AllGrow(growOk, |rings|);
    next := offset;
    for i := 0 to |rings|
      invariant t.Valid() && t.nextIndex == old(t.nextIndex)
      invariant t.queueArray == old(t.queueArray) || fresh(t.queueArray)
      invariant next == offset + i * PAGE_SIZE
      invariant e0 <= t.Entries()
      invariant allOk ==> t.Entries() == e0 + RingEntries(dev, rings[..i])
    {
      InsertRing(t, next, dev, rings[i], growOk(i), log);
      assert rings[..i + 1] == rings[..i] + [rings[i]];
      next := next + PAGE_SIZE;
    }
    assert rings[..|rings|] == rings;
  }

  /** One `offset_queue_table_insert` whose result is dropped: the entry is appended unless a needed doubling fails. */
  method InsertRing(t: Tables.OffsetQueueTable, offset: Tables.Loff, dev: DevId, q: XspQueue.Queue?, growOk: bool, log: FreeLog)
    requires t.Valid()
    modifies t, t.queueArray, log
    ensures t.Valid() && t.nextIndex == old(t.nextIndex)
    ensures t.queueArray == old(t.queueArray) || fresh(t.queueArray)
    ensures t.Entries() == old(t.Entries()) + [Tables.OffsetEntry(dev, q)] || (!growOk && t.Entries() == old(t.Entries()))
  {
    var _ := t.Insert(offset, dev, q, growOk, log);
  }

  /** The out-arguments of `struct bind_dev_info` that `bind_dev` copies back to user space. */
  datatype BindInfo = BindInfo(step: nat, rxStartOffset: nat, rxQueueNum: nat, rxQueueSize: nat,
                               txStartOffset: nat, txQueueNum: nat, txQueueSize: nat)

  /** The outcomes of one shard set's allocations, as QueueArray.Create takes them. */
  datatype Alloc = Alloc(blockOk: bool, kzallocOk: nat -> bool, vmallocOk: nat -> bool)

  /**
   * What `bind_dev` learns from the rest of the kernel: whether
   * `copy_from_user` succeeds, the device `dev_get_by_name` finds (0 when
   * none), the allocation outcomes of the two shard sets, of the two list
   * nodes and of the offset table's capacity doublings during each pass,
   * what `netdev_rx_handler_register` returns and how many bytes
   * `copy_to_user` leaves uncopied.
   */
  datatype BindEnv = BindEnv(copyFromOk: bool, dev: DevId, tx: Alloc, rx: Alloc,
                             txNodeOk: bool, rxNodeOk: bool, txGrowOk: nat -> bool, rxGrowOk: nat -> bool,
                             registerRet: int, copyToRet: nat)

  /** Whether `queue_array_create(CORE_NUM)` succeeds under these allocation outcomes. */
  predicate Creates(a: Alloc)
  {
    a.blockOk && QueueArray.FirstFailure(CORE_NUM, a.kzallocOk, a.vmallocOk) == CORE_NUM
  }

  /** Whether `bind_dev` turns the request away before allocating: unreadable info, no such device, or bound already. */
  ghost predicate Refused(devs: Tables.DevQueueTable, env: BindEnv)
    reads devs.buckets
    requires devs.Valid()
  {
    !env.copyFromOk || env.dev == 0 || Tables.Find(devs.Bucket(env.dev), env.dev) != null
  }

  /**
   * What a `bind_dev` that created both shard sets, `tx` and `rx`, leaves
   * behind: the device now finds them, the list has gained the sets whose
   * nodes were allocated, 2 * CORE_NUM page offsets are taken and the
   * offset table gains the tx and then the rx rings (exactly those when no
   * growth fails), and the outcome is the register result or, after a
   * successful register, the copy-out result with the info naming that
   * layout: one page per ring, tx first, and the rings' mapped size.
   */
  twostate predicate Bound(lists: QueueArray.QueueArrayList, offsets: Tables.OffsetQueueTable, devs: Tables.DevQueueTable,
                           env: BindEnv, ret: int, new info: Option<BindInfo>,
                           new tx: QueueArray.QueueArray, new rx: QueueArray.QueueArray)
    reads lists, offsets, offsets.queueArray, devs.buckets, tx, tx.queue, rx, rx.queue
    requires devs.Valid() && old(offsets.Valid())
  {
    fresh(tx) && fresh(rx) && tx != rx
    && tx.Valid() && rx.Valid() && tx.size == CORE_NUM && rx.size == CORE_NUM
    && Tables.Find(devs.Bucket(env.dev), env.dev) != null
    && Tables.Find(devs.Bucket(env.dev), env.dev).txQueueArray == tx
    && Tables.Find(devs.Bucket(env.dev), env.dev).rxQueueArray == rx
    && lists.Arrays() == old(lists.Arrays()) + (if env.txNodeOk then [tx] else []) + (if env.rxNodeOk then [rx] else [])
    && offsets.Valid() && offsets.nextIndex == old(offsets.nextIndex) + 2 * CORE_NUM
    && old(offsets.Entries()) <= offsets.Entries()
    && (AllGrow(env.txGrowOk, CORE_NUM) && AllGrow(env.rxGrowOk, CORE_NUM) ==>
          offsets.Entries() == old(offsets.Entries()) + BoundEntries(env.dev, tx, rx))
    && (env.registerRet != 0 ==> ret == env.registerRet && info == None)
    && (env.registerRet == 0 ==>
          ret == env.copyToRet && info.Some?
          && info.value.step == PAGE_SIZE && info.value.txQueueNum == info.value.rxQueueNum == CORE_NUM
          && info.value.txStartOffset == old(offsets.nextIndex) * PAGE_SIZE
          && info.value.rxStartOffset == info.value.txStartOffset + CORE_NUM * PAGE_SIZE
          && info.value.txQueueSize == tx.At(0).ringVmallocSize
          && info.value.rxQueueSize == rx.At(0).ringVmallocSize)
  }

  /**
   * `bind_dev`.  In order: -EFAULT when the user's info cannot be read,
   * -ENODEV when no device has the name, -EBUSY when the device is bound
   * already; in each of these nothing at all changes.  Then both shard sets
   * are created, tx first, both attempts made; -ENOMEM if either fails, and
   * the tables stay as they were.  Otherwise Register links them in (its
   * contract says how), so that the device now finds them, and the info
   * names the page offsets its rings were given.
   */
  method BindDev(lists: QueueArray.QueueArrayList, offsets: Tables.OffsetQueueTable, devs: Tables.DevQueueTable,
                 env: BindEnv, log: FreeLog)
    returns (ret: int, info: Option<BindInfo>, ghost tx: QueueArray.QueueArray?, ghost rx: QueueArray.QueueArray?)
    requires devs.Valid() && offsets.Valid() && offsets.nextIndex + 2 * CORE_NUM <= MAX_PGOFF
    modifies lists, devs.buckets, offsets, offsets.queueArray, log
    ensures !env.copyFromOk ==> ret == -EFAULT
    ensures env.copyFromOk && env.dev == 0 ==> ret == -ENODEV
    ensures env.copyFromOk && env.dev != 0 && old(Tables.Find(devs.Bucket(env.dev), env.dev)) != null ==> ret == -EBUSY
    ensures old(Refused(devs, env)) ==>
              info == None && tx == null && rx == null && unchanged(lists, devs.buckets, offsets, log)
              && offsets.Entries() == old(offsets.Entries())
    ensures !old(Refused(devs, env)) && !(Creates(env.tx) && Creates(env.rx)) ==>
              ret == -ENOMEM && info == None && tx == null && rx == null
              && unchanged(lists, devs.buckets, offsets) && offsets.Entries() == old(offsets.Entries())
    ensures !old(Refused(devs, env)) && Creates(env.tx) && Creates(env.rx) ==>
              tx != null && rx != null && Bound(lists, offsets, devs, env, ret, info, tx, rx)
    ensures forall d :: d != env.dev ==> Tables.Find(devs.Bucket(d), d) == old(Tables.Find(devs.Bucket(d), d))
  {
    tx, rx := null, null;
    if !env.copyFromOk {
      return -EFAULT, None, tx, rx;
    }
    var dev := env.dev;
    if dev == 0 {
      return -ENODEV, None, tx, rx;
    }
    var bound := devs.Lookup(dev);
    if bound != null {
      return -EBUSY, None, tx, rx;
    }
    var txArray, rxArray := CreatePair(env.tx, env.rx, log);
    if txArray == null || rxArray == null {
      // a shard set that was created is not destroyed
      return -ENOMEM, None, tx, rx;
    }
    tx, rx := txArray, rxArray;
    ret, info := Register(lists, offsets, devs, dev, txArray, rxArray, env, log);
  }

  /** Lines 152-153 of `bind_dev`: both shard sets are attempted, tx first, whatever became of the other. */
  method CreatePair(txAlloc: Alloc, rxAlloc: Alloc, log: FreeLog) returns (tx: QueueArray.QueueArray?, rx: QueueArray.QueueArray?)
    modifies log
    ensures tx != null <==> Creates(txAlloc)
    ensures rx != null <==> Creates(rxAlloc)
    ensures tx != null ==> fresh(tx) && tx.Valid() && tx.size == CORE_NUM
    ensures rx != null ==> fresh(rx) && rx.Valid() && rx.size == CORE_NUM
    ensures tx != null && rx != null ==> tx != rx
    ensures old(log.freed) <= log.freed
  {
    tx := CreateShardSet(txAlloc, log);
    rx := CreateShardSet(rxAlloc, log);
  }

  /** `queue_array_create(CORE_NUM)`, as much of its contract as `bind_dev` relies on. */
  method CreateShardSet(a: Alloc, log: FreeLog) returns (qa: QueueArray.QueueArray?)
    modifies log
    ensures qa != null <==> Creates(a)
    ensures qa != null ==> fresh(qa) && qa.Valid() && qa.size == CORE_NUM
    ensures old(log.freed) <= log.freed
  {
    ghost var block, made;
    qa, block, made := QueueArray.Create(CORE_NUM, a.blockOk, a.kzallocOk, a.vmallocOk, log);
  }

  /**
   * The second half of `bind_dev`, once both shard sets exist: both are
   * linked in (Link), their rings get page offsets (AssignOffsets), and the
   * rx handler is registered.  The info handed back names page-aligned tx
   * and rx ranges of CORE_NUM rings each, one page apart, tx first.
   */
  method Register(lists: QueueArray.QueueArrayList, offsets: Tables.OffsetQueueTable, devs: Tables.DevQueueTable,
                  dev: DevId, tx: QueueArray.QueueArray, rx: QueueArray.QueueArray, env: BindEnv, log: FreeLog)
    returns (ret: int, info: Option<BindInfo>)
    requires devs.Valid() && offsets.Valid() && offsets.nextIndex + 2 * CORE_NUM <= MAX_PGOFF
    requires tx.Valid() && rx.Valid() && tx.size == CORE_NUM && rx.size == CORE_NUM
    modifies lists, devs.buckets, offsets, offsets.queueArray, log
    ensures lists.Arrays() == old(lists.Arrays()) + (if env.txNodeOk then [tx] else []) + (if env.rxNodeOk then [rx] else [])
    ensures var e := Tables.Find(devs.Bucket(dev), dev);
              e != null && fresh(e) && e.txQueueArray == tx && e.rxQueueArray == rx
    ensures forall d :: d != dev ==> Tables.Find(devs.Bucket(d), d) == old(Tables.Find(devs.Bucket(d), d))
    ensures offsets.Valid() && offsets.nextIndex == old(offsets.nextIndex) + 2 * CORE_NUM
    ensures old(offsets.Entries()) <= offsets.Entries()
    ensures tx.Valid() && rx.Valid()
    ensures AllGrow(env.txGrowOk, CORE_NUM) && AllGrow(env.rxGrowOk, CORE_NUM) ==>
              offsets.Entries() == old(offsets.Entries()) + BoundEntries(dev, tx, rx)
    ensures env.registerRet != 0 ==> ret == env.registerRet && info == None
    ensures env.registerRet == 0 ==> ret == env.copyToRet && info.Some?
    ensures env.registerRet == 0 ==>
              info.Some? && info.value.step == PAGE_SIZE && info.value.txQueueNum == info.value.rxQueueNum == CORE_NUM
    ensures env.registerRet == 0 ==>
              info.Some? && info.value.txStartOffset == old(offsets.nextIndex) * PAGE_SIZE
              && info.value.rxStartOffset == info.value.txStartOffset + CORE_NUM * PAGE_SIZE
    ensures env.registerRet == 0 ==>
              info.Some? && info.value.txQueueSize == tx.At(0).ringVmallocSize
              && info.value.rxQueueSize == rx.At(0).ringVmallocSize
  {
    var txSize, rxSize := tx.At(0).ringVmallocSize, rx.At(0).ringVmallocSize;
    Link(lists, devs, dev, tx, rx, env.txNodeOk, env.rxNodeOk);
    var txStart, rxStart := AssignOffsets(offsets, dev, tx, rx, env.txGrowOk, env.rxGrowOk, log);
    // netdev_rx_handler_register(dev, xsp_handle_frame, rx)
    if env.registerRet != 0 {
      return env.registerRet, None;
    }
    info := Some(BindInfo(PAGE_SIZE, rxStart, CORE_NUM, rxSize, txStart, CORE_NUM, txSize));
    ret := env.copyToRet;
  }

  /** The offset-table entries one bind appends when no insertion fails: the tx rings, then the rx rings. */
  ghost function BoundEntries(dev: DevId, tx: QueueArray.QueueArray, rx: QueueArray.QueueArray): seq<Tables.OffsetEntry>
    reads tx, tx.queue, rx, rx.queue
    requires tx.size == CORE_NUM <= tx.queue.Length && rx.size == CORE_NUM <= rx.queue.Length
  {
    RingEntries(dev, tx.queue[..CORE_NUM]) + RingEntries(dev, rx.queue[..CORE_NUM])
  }

  /** Lines 160-165 of `bind_dev`: both shard sets go on the list, tx first, and the device into the device table. */
  method Link(lists: QueueArray.QueueArrayList, devs: Tables.DevQueueTable, dev: DevId,
              tx: QueueArray.QueueArray, rx: QueueArray.QueueArray, txNodeOk: bool, rxNodeOk: bool)
    requires devs.Valid()
    modifies lists, devs.buckets
    ensures lists.Arrays() == old(lists.Arrays()) + (if txNodeOk then [tx] else []) + (if rxNodeOk then [rx] else [])
    ensures var e := Tables.Find(devs.Bucket(dev), dev);
              e != null && fresh(e) && e.txQueueArray == tx && e.rxQueueArray == rx
    ensures forall d :: d != dev ==> Tables.Find(devs.Bucket(d), d) == old(Tables.Find(devs.Bucket(d), d))
  {
    lists.Insert(tx, txNodeOk);
    lists.Insert(rx, rxNodeOk);
    devs.Insert(dev, tx, rx);
  }

  /**
   * Lines 168-183 of `bind_dev`: 2 * CORE_NUM page offsets are taken at
   * once, then the tx rings and the rx rings go into the offset table, one
   * page apart; `rxStart` is where the rx range begins.
   */
  method AssignOffsets(offsets: Tables.OffsetQueueTable, dev: DevId, tx: QueueArray.QueueArray, rx: QueueArray.QueueArray,
                       txGrowOk: nat -> bool, rxGrowOk: nat -> bool, log: FreeLog)
    returns (txStart: nat, rxStart: nat)
    requires offsets.Valid() && offsets.nextIndex + 2 * CORE_NUM <= MAX_PGOFF
    requires tx.size == CORE_NUM <= tx.queue.Length && rx.size == CORE_NUM <= rx.queue.Length
    modifies offsets, offsets.queueArray, log
    ensures offsets.Valid() && offsets.nextIndex == old(offsets.nextIndex) + 2 * CORE_NUM
    ensures txStart == old(offsets.nextIndex) * PAGE_SIZE && rxStart == txStart + CORE_NUM * PAGE_SIZE
    ensures old(offsets.Entries()) <= offsets.Entries()
    ensures AllGrow(txGrowOk, CORE_NUM) && AllGrow(rxGrowOk, CORE_NUM) ==>
              offsets.Entries() == old(offsets.Entries() + BoundEntries(dev, tx, rx))
  {
    var offset := offsets.FetchNext(2 * CORE_NUM);
    txStart := offset;
    offset := InsertRings(offsets, tx.queue[..CORE_NUM], dev, offset, txGrowOk, log);
    rxStart := offset;
    offset := InsertRings(offsets, rx.queue[..CORE_NUM], dev, offset, rxGrowOk, log);
  }

  /** `_IOW('x', 1, struct bind_dev_info)`: write direction, a 312-byte argument, type 'x', number 1. */
  const IOCTL_BIND_DEV: u32 := 0x4138_7801
  /** `_IOW('x', 2, u64)`. */
  const IOCTL_SEND: u32 := 0x4008_7802
  /** `_IOW('x', 4, u64)`. */
  const IOCTL_SEND_ALL: u32 := 0x4008_7804

  /** The `unsigned long` argument as the `loff_t` that `offset_queue_table_lookup` takes: two's complement. */
  function ToLoff(arg: u64): (offset: Tables.Loff)
    ensures offset >= 0 <==> arg < 0x8000_0000_0000_0000
    ensures offset % U64_MOD == arg
  {
    if arg < 0x8000_0000_0000_0000 then arg else arg - U64_MOD
  }

  /** The rings of a set of queues: what `handle_send` may write besides the queues themselves. */
  ghost function RingsOf(qs: set<XspQueue.Queue>): set<SharedRing>
  {
    set q | q in qs :: q.ring
  }

  /** Every shard set on the tx side of the device table is whole. */
  ghost predicate TxSetsValid(devs: Tables.DevQueueTable)
    reads devs.buckets, TxSets(devs), TxPointers(devs)
    requires devs.Valid()
  {
    forall i, k :: 0 <= i < Tables.DEV_QUEUE_TABLE_SIZE && 0 <= k < |devs.buckets[i]| ==>
      devs.buckets[i][k].txQueueArray.Valid()
  }

  /** The tx shard sets of the device table. */
  ghost function TxSets(devs: Tables.DevQueueTable): set<QueueArray.QueueArray>
    reads devs.buckets
    requires devs.Valid()
  {
    set i, k | 0 <= i < Tables.DEV_QUEUE_TABLE_SIZE && 0 <= k < |devs.buckets[i]| :: devs.buckets[i][k].txQueueArray
  }

  /** Their ring pointer arrays. */
  ghost function TxPointers(devs: Tables.DevQueueTable): set<array<XspQueue.Queue?>>
    reads devs.buckets
    requires devs.Valid()
  {
    set qa | qa in TxSets(devs) :: qa.queue
  }

  /**
   * The rings user space can drive through ioctl: every ring of the offset
   * table and every tx ring of the device table is valid and among `qs`.
   */
  ghost predicate Reachable(offsets: Tables.OffsetQueueTable, devs: Tables.DevQueueTable, qs: set<XspQueue.Queue>)
    reads offsets, offsets.queueArray, devs.buckets, TxSets(devs), TxPointers(devs)
    requires offsets.Valid() && devs.Valid()
  {
    (forall k :: 0 <= k < offsets.queueNum && offsets.queueArray[k].queue != null ==>
       offsets.queueArray[k].queue in qs && offsets.queueArray[k].queue.Valid())
    && TxSetsValid(devs)
    && (forall i, k, j ::
          0 <= i < Tables.DEV_QUEUE_TABLE_SIZE && 0 <= k < |devs.buckets[i]| && 0 <= j < devs.buckets[i][k].txQueueArray.size
          ==> devs.buckets[i][k].txQueueArray.queue[j] in qs)
  }

  /** The (device, ring) pairs `IOCTL_SEND_ALL` hands to `handle_send`, for the first `n` buckets. */
  ghost function SendOrder(devs: Tables.DevQueueTable, n: nat): seq<Tables.OffsetEntry>
    reads devs.buckets, TxPointers(devs)
    requires devs.Valid() && n <= Tables.DEV_QUEUE_TABLE_SIZE
    requires forall i, k :: 0 <= i < Tables.DEV_QUEUE_TABLE_SIZE && 0 <= k < |devs.buckets[i]| ==>
               devs.buckets[i][k].txQueueArray.size <= devs.buckets[i][k].txQueueArray.queue.Length
  {
    if n == 0 then [] else SendOrder(devs, n - 1) + BucketOrder(devs.buckets[n - 1])
  }

  /** The same for the entries `b` of one bucket, head first: each entry's tx rings in index order. */
  ghost function BucketOrder(b: seq<Tables.DevQueueEntry>): seq<Tables.OffsetEntry>
    reads set k | 0 <= k < |b| :: b[k].txQueueArray.queue
    requires forall k :: 0 <= k < |b| ==> b[k].txQueueArray.size <= b[k].txQueueArray.queue.Length
  {
    if b == [] then [] else BucketOrder(b[..|b| - 1]) + TxTargets(b[|b| - 1])
  }

  /** The tx rings of one device-table entry, in index order, each paired with the entry's device. */
  ghost function TxTargets(e: Tables.DevQueueEntry): seq<Tables.OffsetEntry>
    reads e.txQueueArray.queue
    requires e.txQueueArray.size <= e.txQueueArray.queue.Length
  {
    RingEntries(e.dev, e.txQueueArray.queue[..e.txQueueArray.size])
  }

  /** Every tx ring of entry `k` of a bucket is in that bucket's walk. */
  lemma {:induction false} BucketOrderHas(b: seq<Tables.DevQueueEntry>, k: nat, j: nat)
    requires forall k :: 0 <= k < |b| ==> b[k].txQueueArray.size <= b[k].txQueueArray.queue.Length
    requires k < |b| && j < b[k].txQueueArray.size
    ensures Tables.OffsetEntry(b[k].dev, b[k].txQueueArray.queue[j]) in BucketOrder(b)
  {
    var last := |b| - 1;
    if k == last {
      assert TxTargets(b[last])[j] == Tables.OffsetEntry(b[k].dev, b[k].txQueueArray.queue[j]);
    } else {
      BucketOrderHas(b[..last], k, j);
      assert b[..last][k] == b[k];
    }
  }

  /** SEND_ALL leaves out no tx ring of any bound device: ring j of entry k of bucket i is among the first `n > i` buckets' walk. */
  lemma {:induction false} SendOrderHas(devs: Tables.DevQueueTable, n: nat, i: nat, k: nat, j: nat)
    requires devs.Valid() && n <= Tables.DEV_QUEUE_TABLE_SIZE
    requires forall i, k :: 0 <= i < Tables.DEV_QUEUE_TABLE_SIZE && 0 <= k < |devs.buckets[i]| ==>
               devs.buckets[i][k].txQueueArray.size <= devs.buckets[i][k].txQueueArray.queue.Length
    requires i < n && k < |devs.buckets[i]| && j < devs.buckets[i][k].txQueueArray.size
    ensures var e := devs.buckets[i][k];
            Tables.OffsetEntry(e.dev, e.txQueueArray.queue[j]) in SendOrder(devs, n)
  {
    var e := devs.buckets[i][k];
    var x := Tables.OffsetEntry(e.dev, e.txQueueArray.queue[j]);
    var before := SendOrder(devs, n - 1);
    assert SendOrder(devs, n) == before + BucketOrder(devs.buckets[n - 1]);
    if i == n - 1 {
      BucketOrderHas(devs.buckets[i], k, j);
    } else {
      SendOrderHas(devs, n - 1, i, k, j);
      assert x in before;
    }
  }

  /** The tx rings of entry `e` are all there, valid and among `qs`. */
  ghost predicate Sendable(e: Tables.DevQueueEntry, qs: set<XspQueue.Queue>)
    reads e.txQueueArray.queue
    requires e.txQueueArray.size <= e.txQueueArray.queue.Length
  {
    forall j :: 0 <= j < e.txQueueArray.size ==>
      var q := e.txQueueArray.queue[j]; q != null && q.Valid() && q in qs
  }

  /** Every entry of the device table is ready for SEND_ALL. */
  ghost predicate AllSendable(devs: Tables.DevQueueTable, qs: set<XspQueue.Queue>)
    reads devs.buckets, TxPointers(devs)
    requires devs.Valid()
  {
    forall i, k :: 0 <= i < Tables.DEV_QUEUE_TABLE_SIZE && 0 <= k < |devs.buckets[i]| ==>
      devs.buckets[i][k].txQueueArray.size <= devs.buckets[i][k].txQueueArray.queue.Length
      && Sendable(devs.buckets[i][k], qs)
  }

  /** Every entry of a reachable device table is ready for SEND_ALL. */
  lemma ReachableSendable(offsets: Tables.OffsetQueueTable, devs: Tables.DevQueueTable, qs: set<XspQueue.Queue>)
    requires offsets.Valid() && devs.Valid() && Reachable(offsets, devs, qs)
    ensures AllSendable(devs, qs)
  {
    forall i, k | 0 <= i < Tables.DEV_QUEUE_TABLE_SIZE && 0 <= k < |devs.buckets[i]|
      ensures devs.buckets[i][k].txQueueArray.size <= devs.buckets[i][k].txQueueArray.queue.Length
      ensures Sendable(devs.buckets[i][k], qs)
    {
      assert devs.buckets[i][k].txQueueArray.Valid();
    }
  }

  /**
   * `IOCTL_SEND_ALL`: `handle_send` on every tx ring of every bound
   * device, bucket by bucket, each bucket head first, each shard set in
   * ring order (`sent`), as the device table stood when the walk began.
   */
  method SendAll(devs: Tables.DevQueueTable, net: NetStack, ghost qs: set<XspQueue.Queue>)
    returns (sent: seq<Tables.OffsetEntry>)
    requires devs.Valid() && AllSendable(devs, qs)
    modifies qs, RingsOf(qs)
    ensures sent == old(SendOrder(devs, Tables.DEV_QUEUE_TABLE_SIZE))
    ensures forall q :: q in qs ==> q.ring.producer == old(q.ring.producer)
  {
    sent := [];
    for i := 0 to Tables.DEV_QUEUE_TABLE_SIZE
      invariant unchanged(devs.buckets) && unchanged(TxPointers(devs))
      invariant sent == old(SendOrder(devs, i))
      invariant forall q :: q in qs ==> q.ring.producer == old(q.ring.producer)
    {
      var more := SendBucket(devs.buckets[i], net, qs);
      sent := sent + more;
    }
  }

  /** The walk of one bucket `b` in `IOCTL_SEND_ALL`, head first. */
  method SendBucket(b: seq<Tables.DevQueueEntry>, net: NetStack, ghost qs: set<XspQueue.Queue>)
    returns (sent: seq<Tables.OffsetEntry>)
    requires forall k :: 0 <= k < |b| ==>
               b[k].txQueueArray.size <= b[k].txQueueArray.queue.Length && Sendable(b[k], qs)
    modifies qs, RingsOf(qs)
    ensures sent == old(BucketOrder(b))
    ensures forall q :: q in qs ==> q.ring.producer == old(q.ring.producer)
  {
    sent := [];
    for k := 0 to |b|
      invariant sent == old(BucketOrder(b[..k]))
      invariant forall q :: q in qs ==> q.ring.producer == old(q.ring.producer)
    {
      var more := SendEntry(b[k], net, qs);
      assert b[..k + 1][..k] == b[..k];
      sent := sent + more;
    }
    assert b[..|b|] == b;
  }

  /** One device-table entry of the walk: its tx shard set, ring by ring. */
  method SendEntry(e: Tables.DevQueueEntry, net: NetStack, ghost qs: set<XspQueue.Queue>)
    returns (sent: seq<Tables.OffsetEntry>)
    requires e.txQueueArray.size <= e.txQueueArray.queue.Length && Sendable(e, qs)
    modifies qs, RingsOf(qs)
    ensures sent == old(TxTargets(e))
    ensures forall q :: q in qs ==> q.ring.producer == old(q.ring.producer)
  {
    var qa := e.txQueueArray;
    sent := SendShardSet(e.dev, qa.queue[..qa.size], net, qs);
  }

  /** `FOR_EACH_QUEUE` in `IOCTL_SEND_ALL`: `handle_send` on each ring of one tx shard set, in index order. */
  method SendShardSet(dev: DevId, rings: seq<XspQueue.Queue?>, net: NetStack, ghost qs: set<XspQueue.Queue>)
    returns (sent: seq<Tables.OffsetEntry>)
    requires forall j :: 0 <= j < |rings| ==> rings[j] != null && rings[j].Valid() && rings[j] in qs
    modifies qs, RingsOf(qs)
    ensures sent == RingEntries(dev, rings)
    ensures forall q :: q in qs ==> q.ring.producer == old(q.ring.producer)
  {
    sent := [];
    for j := 0 to |rings|
      invariant sent == RingEntries(dev, rings[..j])
      invariant forall q :: q in qs ==> q.ring.producer == old(q.ring.producer)
    {
      SendRing(dev, rings[j], net);
      assert rings[..j + 1] == rings[..j] + [rings[j]];
      sent := sent + [Tables.OffsetEntry(dev, rings[j])];
    }
    assert rings[..|rings|] == rings;
  }

  /** One `handle_send` whose result SEND_ALL drops; the user-owned producer cursor is never moved. */
  method SendRing(dev: DevId, q: XspQueue.Queue?, net: NetStack)
    requires q != null ==> q.Valid()
    modifies if q != null then {q, q.ring} else {}
    ensures q != null ==> q.ring.producer == old(q.ring.producer)
  {
    var _, _, _ := HandleSend(dev, q, net);
  }

  /** The ring IOCTL_SEND with argument `arg` hands to `handle_send`: the one registered at that offset, if any. */
  ghost function SendTargets(offsets: Tables.OffsetQueueTable, arg: u64): set<XspQueue.Queue>
    reads offsets, offsets.queueArray
    requires offsets.Valid()
  {
    match offsets.Lookup(ToLoff(arg))
    case Some(e) => if e.queue != null then {e.queue} else {}
    case None => {}
  }

  /**
   * `xspdev_ioctl`.  BIND_DEV runs `bind_dev` (its outcome and the info
   * it copies out are BindDev's); SEND looks the argument up as an mmap
   * offset and drains that ring, -EINVAL when no entry has that offset;
   * SEND_ALL drains every tx ring and returns 0; any other command is
   * -EINVAL and changes nothing.  `qs` are the rings user space can reach.
   */
  method Ioctl(cmd: u32, arg: u64, lists: QueueArray.QueueArrayList, offsets: Tables.OffsetQueueTable,
               devs: Tables.DevQueueTable, env: BindEnv, net: NetStack, log: FreeLog, ghost qs: set<XspQueue.Queue>)
    returns (ret: int, info: Option<BindInfo>, ghost tx: QueueArray.QueueArray?, ghost rx: QueueArray.QueueArray?)
    requires devs.Valid() && offsets.Valid() && offsets.nextIndex + 2 * CORE_NUM <= MAX_PGOFF
    requires Reachable(offsets, devs, qs)
    modifies lists, devs.buckets, offsets, offsets.queueArray, log, qs, RingsOf(qs)
    ensures cmd != IOCTL_BIND_DEV ==> info == None && tx == null && rx == null
    ensures cmd == IOCTL_BIND_DEV ==>
              (!env.copyFromOk ==> ret == -EFAULT)
              && (env.copyFromOk && env.dev == 0 ==> ret == -ENODEV)
              && (env.copyFromOk && env.dev != 0 && old(Tables.Find(devs.Bucket(env.dev), env.dev)) != null ==> ret == -EBUSY)
              && (!old(Refused(devs, env)) && !(Creates(env.tx) && Creates(env.rx)) ==> ret == -ENOMEM)
    ensures cmd == IOCTL_BIND_DEV && !old(Refused(devs, env)) && Creates(env.tx) && Creates(env.rx) ==>
              tx != null && rx != null && Bound(lists, offsets, devs, env, ret, info, tx, rx)
    ensures cmd == IOCTL_SEND ==>
              match old(offsets.Lookup(ToLoff(arg)))
              case None => ret == -EINVAL
              case Some(e) =>
                ret == (if e.dev == 0 || e.queue == null then -EINVAL else 0)
                && (e.queue != null ==> Sent(e.dev, e.queue))
    ensures cmd == IOCTL_SEND ==>
              unchanged(lists, devs.buckets, offsets, log) && unchanged(old(offsets.queueArray))
              && unchanged(qs - old(SendTargets(offsets, arg))) && unchanged(RingsOf(qs) - old(RingsOf(SendTargets(offsets, arg))))
    ensures cmd == IOCTL_BIND_DEV ==> unchanged(qs) && unchanged(RingsOf(qs))
    ensures cmd == IOCTL_BIND_DEV && old(Refused(devs, env)) ==> unchanged(lists, devs.buckets, offsets, log)
    ensures cmd == IOCTL_BIND_DEV ==>
              forall d :: d != env.dev ==> Tables.Find(devs.Bucket(d), d) == old(Tables.Find(devs.Bucket(d), d))
    ensures cmd == IOCTL_SEND_ALL ==>
              ret == 0 && unchanged(lists, devs.buckets, offsets, log) && unchanged(old(offsets.queueArray))
              && forall q :: q in qs ==> q.ring.producer == old(q.ring.producer)
    ensures cmd != IOCTL_BIND_DEV && cmd != IOCTL_SEND && cmd != IOCTL_SEND_ALL ==>
              ret == -EINVAL && unchanged(lists, devs.buckets, offsets, log) && unchanged(old(offsets.queueArray))
              && unchanged(qs) && unchanged(RingsOf(qs))
  {
    info, tx, rx := None, null, null;
    if cmd == IOCTL_BIND_DEV {
      ret, info, tx, rx := BindDev(lists, offsets, devs, env, log);
    } else if cmd == IOCTL_SEND {
      ret := IoctlSend(offsets, arg, net);
    } else if cmd == IOCTL_SEND_ALL {
      ret := IoctlSendAll(offsets, devs, net, qs);
    } else {
      ret := -EINVAL;
    }
  }

  /** The SEND_ALL branch of `xspdev_ioctl`: every tx ring is drained, none has its producer moved, and 0 is returned. */
  method IoctlSendAll(offsets: Tables.OffsetQueueTable, devs: Tables.DevQueueTable, net: NetStack, ghost qs: set<XspQueue.Queue>)
    returns (ret: int)
    requires devs.Valid() && offsets.Valid() && Reachable(offsets, devs, qs)
    modifies qs, RingsOf(qs)
    ensures ret == 0 && forall q :: q in qs ==> q.ring.producer == old(q.ring.producer)
  {
    ReachableSendable(offsets, devs, qs);
    var _ := SendAll(devs, net, qs);
    ret := 0;
  }

  /** The SEND branch of `xspdev_ioctl`: the ring registered at offset `arg`, if any, goes through `handle_send`. */
  method IoctlSend(offsets: Tables.OffsetQueueTable, arg: u64, net: NetStack) returns (ret: int)
    requires offsets.Valid()
    requires forall k :: 0 <= k < offsets.queueNum && offsets.queueArray[k].queue != null ==>
               offsets.queueArray[k].queue.Valid()
    modifies SendTargets(offsets, arg), RingsOf(SendTargets(offsets, arg))
    ensures match offsets.Lookup(ToLoff(arg))
            case None => ret == -EINVAL
            case Some(e) =>
              ret == (if e.dev == 0 || e.queue == null then -EINVAL else 0)
              && (e.queue != null ==> Sent(e.dev, e.queue))
  {
    match offsets.Lookup(ToLoff(arg))
    case None =>
      ret := -EINVAL;
    case Some(e) =>
      var handled, outcome;
      ret, handled, outcome := HandleSend(e.dev, e.queue, net);
  }
}

=== FILE: xsp_queue.dfy ===
/**
 * The XSP ring (`struct xsp_queue`): a power-of-two ring of u64 packet
 * handles shared with user space, plus the kernel side's private
 * snapshots `cachedProd` and `cachedCons` of the shared cursors.
 *
 * Producer side: ProdReserveAddr writes a handle into the slot of
 * `cachedProd` and advances it; ProdSubmit publishes everything reserved
 * by storing `cachedProd` into the shared `producer`.  Consumer side:
 * ConsNbEntries refreshes `cachedProd` from the shared `producer`;
 * ConsReadAddrUncheckedInc reads the slot of `cachedCons` and advances it;
 * ConsRelease hands the read slots back by storing `cachedCons` into the
 * shared `consumer`.
 *
 * The FIFO contents are Published() (between the shared cursors) and, on
 * the producer side, Reserved() (written but not yet submitted).  A queue
 * is used either as a producer or as a consumer; ProducerView() and
 * ConsumerView() are the orderings of the four cursors each role keeps.
 */
module XspQueue {
  import opened Bits
  import opened Kernel
  import opened Ring

  /** `sizeof(struct xsp_ring)`: five 64-byte aligned members, padded to a multiple of 64. */
  const RING_HEADER_BYTES: nat := 384

  /** `PAGE_ALIGN(struct_size(ring_buffer, addrs, nentries))`: the header followed by the slots, rounded up to whole pages. */
  function RingVmallocSize(nentries: u32): (size: nat)
    ensures size % PAGE_SIZE == 0
    ensures RING_HEADER_BYTES + 8 * nentries <= size < RING_HEADER_BYTES + 8 * nentries + PAGE_SIZE
  {
    var bytes := RING_HEADER_BYTES + 8 * nentries;
    ((bytes + PAGE_SIZE - 1) / PAGE_SIZE) * PAGE_SIZE
  }

  class Queue {
    const ringMask: u32
    const nentries: u32
    var cachedProd: u32
    var cachedCons: u32
    const ring: SharedRing
    var invalidDescs: u64
    var queueEmptyDescs: u64
    const ringVmallocSize: nat

    /** The geometry fixed at creation: a power-of-two slot count, its mask, and that many slots. */
    predicate Valid()
    {
      IsPowerOfTwo(nentries) && ringMask == nentries - 1 && ring.desc.Length == nentries
    }

    /** The cursor order a producer keeps: cachedCons, consumer, producer, cachedProd, within one lap. */
    ghost predicate ProducerView()
      reads this, ring
    {
      InOrder(cachedCons, ring.consumer, ring.producer, cachedProd, nentries)
    }

    /** The cursor order a consumer keeps: consumer, cachedCons, cachedProd, producer, within one lap. */
    ghost predicate ConsumerView()
      reads this, ring
    {
      InOrder(ring.consumer, cachedCons, cachedProd, ring.producer, nentries)
    }

    /** All four cursors at zero, as creation leaves them: an empty ring in both views. */
    ghost predicate Pristine()
      reads this, ring
      ensures Pristine() ==> ProducerView() && ConsumerView()
    {
      cachedProd == 0 && cachedCons == 0 && ring.producer == 0 && ring.consumer == 0
    }

    /** Handles written by the producer but not yet submitted, oldest first. */
    ghost function Reserved(): (s: seq<u64>)
      reads this, ring, ring.desc
      requires Valid()
    {
      Window(ring.desc[..], ring.producer, Sub32(cachedProd, ring.producer))
    }

    /** The part of `xspq_create` after its checks: a zeroed queue over a zeroed ring. */
    constructor (nentries: u32)
      requires IsPowerOfTwo(nentries)
      ensures Valid() && this.nentries == nentries && ringVmallocSize == RingVmallocSize(nentries)
      ensures cachedProd == 0 && cachedCons == 0 && invalidDescs == 0 && queueEmptyDescs == 0
      ensures fresh(ring) && fresh(ring.desc)
      ensures ring.producer == 0 && ring.consumer == 0 && ring.nentries == nentries && ring.flag == 0
      ensures ProducerView() && ConsumerView() && ring.Published() == [] && Reserved() == []
    {
      this.nentries := nentries;
      ringMask := nentries - 1;
      cachedProd, cachedCons := 0, 0;
      invalidDescs, queueEmptyDescs := 0, 0;
      ring := new SharedRing(nentries, 0);
      ringVmallocSize := RingVmallocSize(nentries);
    }

    /** The slot of a cursor, `cursor & ring_mask`. */
    function SlotOf(cursor: u32): (i: nat)
      requires Valid()
      ensures i == cursor % nentries && i < ring.desc.Length
    {
      MaskedSlot(cursor, nentries);
      And(cursor, ringMask)
    }

    // ---- consumer side ----

    /** `xspq_cons_read_addr_unchecked`: reads the slot of `cachedCons` without checking that it holds an entry. */
    method ConsReadAddrUnchecked() returns (ok: bool, addr: u64)
      requires Valid()
      ensures ok
      ensures addr == ring.desc[cachedCons % nentries]
      ensures ConsumerView() && cachedCons != cachedProd ==>
                addr == ring.Published()[Sub32(cachedCons, ring.consumer)]
    {
      addr := ring.desc[SlotOf(cachedCons)];
      ok := true;
    }

    /** `xspq_cons_read_addr_unchecked_inc`: the read above, then `cachedCons` moves past the entry read. */
    method ConsReadAddrUncheckedInc() returns (ok: bool, addr: u64)
      requires Valid()
      modifies this`cachedCons
      ensures ok && addr == ring.desc[old(cachedCons) % nentries]
      ensures cachedCons == Add32(old(cachedCons), 1)
      ensures old(ConsumerView()) && old(cachedCons) != cachedProd ==>
                ConsumerView() && addr == ring.Published()[Sub32(old(cachedCons), ring.consumer)]
    {
      ok, addr := ConsReadAddrUnchecked();
      cachedCons := Add32(cachedCons, 1);
    }

    /** `xspq_cons_release`: every entry read so far is handed back to the producer. */
    method ConsRelease()
      requires Valid()
      modifies ring`consumer
      ensures ring.consumer == cachedCons
      ensures old(ConsumerView()) ==>
                ConsumerView()
                && old(ring.Published()) == old(ring.Published())[..Sub32(cachedCons, old(ring.consumer))] + ring.Published()
    {
      if ConsumerView() {
        WindowAt(ring.desc[..], ring.consumer, cachedCons, ring.producer);
      }
      ring.consumer := cachedCons;
    }

    /**
     * `xspq_cons_nb_entries`: how many entries, at most `max`, can be read
     * now.  Only when the snapshot shows fewer than `max` is `cachedProd`
     * refreshed from the shared `producer`.
     */
    method ConsNbEntries(max: u32) returns (n: u32)
      requires Valid()
      modifies this`cachedProd
      ensures n <= max && n <= Sub32(cachedProd, cachedCons)
      ensures Sub32(old(cachedProd), cachedCons) >= max ==> n == max && cachedProd == old(cachedProd)
      ensures Sub32(old(cachedProd), cachedCons) < max ==>
                cachedProd == ring.producer && n == Min(max, Sub32(cachedProd, cachedCons))
      ensures old(ConsumerView()) ==> ConsumerView()
    {
      var entries := Sub32(cachedProd, cachedCons);
      if entries >= max {
        return max;
      }
      cachedProd := ring.producer;
      entries := Sub32(cachedProd, cachedCons);
      n := if entries >= max then max else entries;
    }

    // ---- producer side ----

    /**
     * `xspq_prod_nb_free`: how many slots, at most `max`, can be filled
     * now.  Only when the snapshot shows fewer than `max` is `cachedCons`
     * refreshed from the shared `consumer`.  The answer never exceeds the
     * slots that are really free.
     */
    method ProdNbFree(max: u32) returns (n: u32)
      requires Valid()
      modifies this`cachedCons
      ensures n <= max && n <= FreeEntries(nentries, cachedProd, cachedCons)
      ensures FreeEntries(nentries, cachedProd, old(cachedCons)) >= max ==> n == max && cachedCons == old(cachedCons)
      ensures FreeEntries(nentries, cachedProd, old(cachedCons)) < max ==>
                cachedCons == ring.consumer && n == Min(max, FreeEntries(nentries, cachedProd, cachedCons))
      ensures old(ProducerView()) ==> ProducerView() && n <= nentries - Sub32(cachedProd, ring.consumer)
    {
      var free := FreeEntries(nentries, cachedProd, cachedCons);
      if free >= max {
        return max;
      }
      cachedCons := ring.consumer;
      free := FreeEntries(nentries, cachedProd, cachedCons);
      n := if free >= max then max else free;
    }

    /** `xspq_prod_is_full`: no slot is free, even after refreshing `cachedCons`. */
    method ProdIsFull() returns (full: bool)
      requires Valid()
      modifies this`cachedCons
      ensures full <==> FreeEntries(nentries, cachedProd, cachedCons) == 0
      ensures full ==> cachedCons == ring.consumer
      ensures cachedCons == old(cachedCons) || cachedCons == ring.consumer
      ensures old(ProducerView()) ==> ProducerView() && (full <==> Sub32(cachedProd, ring.consumer) == nentries)
    {
      var n := ProdNbFree(1);
      full := n == 0;
    }

    /**
     * `xspq_prod_reserve_addr`: -ENOSPC when the ring is full; otherwise
     * `addr` goes into the slot of `cachedProd`, which then advances.
     */
    method ProdReserveAddr(addr: u64) returns (err: int)
      requires Valid()
      modifies this`cachedProd, this`cachedCons, ring.desc
      ensures err == 0 || err == -ENOSPC
      ensures cachedCons == old(cachedCons) || cachedCons == ring.consumer
      ensures err == -ENOSPC <==> FreeEntries(nentries, old(cachedProd), cachedCons) == 0
      ensures err == -ENOSPC ==> cachedProd == old(cachedProd) && ring.desc[..] == old(ring.desc[..])
      ensures err == 0 ==>
                cachedProd == Add32(old(cachedProd), 1)
                && ring.desc[..] == old(ring.desc[..])[old(cachedProd) % nentries := addr]
      ensures old(ProducerView()) ==>
                ProducerView()
                && ring.Published() == old(ring.Published())
                && Reserved() == old(Reserved()) + (if err == 0 then [addr] else [])
      ensures old(ProducerView()) ==> (err == -ENOSPC <==> Sub32(old(cachedProd), ring.consumer) == nentries)
    {
      var full := ProdIsFull();
      if full {
        return -ENOSPC;
      }
      ghost var d := ring.desc[..];
      ghost var cp := cachedProd;
      ghost var view := ProducerView();
      if view {
        ReserveStep(d, cachedCons, ring.consumer, ring.producer, cp, addr);
      }
      ring.desc[SlotOf(cachedProd)] := addr;
      cachedProd := Add32(cachedProd, 1);
      err := 0;
    }

    /** `xspq_prod_submit`: publishes every reserved handle by storing `cachedProd` into the shared `producer`. */
    method ProdSubmit()
      requires Valid()
      modifies ring`producer
      ensures ring.producer == cachedProd
      ensures old(ProducerView()) ==>
                ProducerView() && ring.Published() == old(ring.Published()) + old(Reserved()) && Reserved() == []
    {
      if ProducerView() {
        WindowAt(ring.desc[..], ring.consumer, ring.producer, cachedProd);
      }
      ring.producer := cachedProd;
    }

    /** `xspq_prod_num`: the number of published entries not yet released. */
    function ProdNum(): (n: u32)
      requires Valid()
      reads this, ring
      ensures n == |ring.Published()|
      ensures ProducerView() || ConsumerView() ==> n <= nentries
    {
      Sub32(ring.producer, ring.consumer)
    }
  }

  /**
   * `xspq_create`: NULL unless `nentries` passes `is_power_of_2` and both the
   * queue and its ring buffer can be allocated.  `kzallocOk` and
   * `vmallocOk` are the outcomes of the two allocations.
   */
  method Create(nentries: u32, kzallocOk: bool, vmallocOk: bool) returns (q: Queue?)
    ensures q != null <==> IsPowerOfTwo(nentries) && kzallocOk && vmallocOk
    ensures q != null ==>
              fresh(q) && fresh(q.ring) && fresh(q.ring.desc) && q.Valid()
              && q.nentries == nentries && q.ringMask == nentries - 1
              && q.ringVmallocSize == RingVmallocSize(nentries)
              && q.cachedProd == 0 && q.cachedCons == 0
              && q.ring.producer == 0 && q.ring.consumer == 0
              && q.ring.nentries == nentries && q.ring.flag == 0 && q.Pristine()
  {
    if !IsPowerOfTwo(nentries) {
      return null;
    }
    if !kzallocOk {
      return null;
    }
    if !vmallocOk {
      return null;
    }
    q := new Queue(nentries);
  }

  /** `xspq_destroy`: frees the ring buffer and then the queue; NULL is ignored. */
  method Destroy(q: Queue?, log: FreeLog)
    modifies log
    ensures log.freed == old(log.freed) + (if q == null then [] else [q.ring, q])
  {
    if q == null {
      return;
    }
    log.freed := log.freed + [q.ring, q];
  }

  /**
   * The round trip of the queue self-test: two handles reserved and
   * submitted on a 16-entry queue come out in order, after which the queue
   * is empty and all 16 slots are free again.
   */
  method RoundTrip(a: u64, b: u64) returns (created: bool, first: u64, second: u64, before: u32, after: u32, free: u32)
    ensures created
    ensures first == a && second == b && before == 2 && after == 0 && free == 16
  {
    Pow2IsPowerOfTwo(4);
    var q := Create(16, true, true);
    created := q != null;
    ProduceTwo(q, a, b);
    first, second, before, after, free := ConsumeTwo(q);
  }

  /** The producer half of the self-test: reserve and submit `a`, then `b`, on a fresh queue. */
  method ProduceTwo(q: Queue, a: u64, b: u64)
    requires q.Valid() && q.nentries == 16
    requires q.cachedProd == 0 && q.cachedCons == 0 && q.ring.producer == 0 && q.ring.consumer == 0
    modifies q`cachedProd, q`cachedCons, q.ring`producer, q.ring.desc
    ensures q.cachedProd == 2 && q.cachedCons == 0 && q.ring.producer == 2 && q.ring.consumer == 0
    ensures q.ring.desc[0] == a && q.ring.desc[1] == b
  {
    var e := q.ProdReserveAddr(a);
    assert e == 0 && q.cachedProd == 1 && q.cachedCons == 0 && q.ring.desc[0] == a;
    q.ProdSubmit();
    e := q.ProdReserveAddr(b);
    assert e == 0 && q.cachedProd == 2 && q.cachedCons == 0;
    q.ProdSubmit();
  }

  /** The consumer half of the self-test: count, read two, release, then count both sides again. */
  method ConsumeTwo(q: Queue) returns (first: u64, second: u64, before: u32, after: u32, free: u32)
    requires q.Valid() && q.nentries == 16
    requires q.cachedProd == 2 && q.cachedCons == 0 && q.ring.producer == 2 && q.ring.consumer == 0
    modifies q`cachedProd, q`cachedCons, q.ring`consumer
    ensures first == q.ring.desc[0] && second == q.ring.desc[1]
    ensures before == 2 && after == 0 && free == 16
  {
    before := q.ConsNbEntries(4);
    var ok;
    ok, first := q.ConsReadAddrUncheckedInc();
    ok, second := q.ConsReadAddrUncheckedInc();
    q.ConsRelease();
    assert q.ring.consumer == 2 && q.cachedProd == 2;
    after := q.ConsNbEntries(4);
    free := q.ProdNbFree(16);
  }
}
